=== FILE: README.md ===
# masjid-suite prayer-time core, modelled in Dafny

This project models the core of masjid-suite, a desktop application for a
mosque. Its renderer shows the day's prayer times, a countdown to the next
prayer, and a player that sounds the call to prayer (azan). Its main
process keeps the data in SQLite and makes file backups.

The model covers:

- **Prayer-time cache service** (`PrayerTimeService`). A date-keyed store.
  - Lookups check the store first and write through on a miss.
  - Range queries run day by day.
  - The preload walks forward in weekly chunks.
  - A location change wipes the store and preloads again.
- **Background sync** (`BackgroundSync`). A six-hour pass with an in-flight
  flag and a single pending timer. It verifies the next fourteen days and,
  on the first of the month, preloads two months.
- **Next-prayer searches.** There are four independent searches:
  - the player's sorted search (`PrayerTimePlayer`);
  - the display's `HH:mm` string comparison (`PrayerTimesDisplay`);
  - the countdown's roll-to-tomorrow minimum (`PrayerCountdown`);
  - the `upcomingPrayer`/`currentPrayer` selectors (`Selectors`).

  `NextPrayerAgreement` proves that they agree. `Clock` holds the
  `HH:MM`, `Xh Ym` and `HH:MM:SS` arithmetic they share.
- **The player's call-to-prayer trigger**, with the remembered
  `currentPrayer` as explicit state.
- **The optimistic renderer stores** (`Store`). Add, update and delete edit
  the list at once, then confirm or revert. Failed adds go into a retry
  queue.
- **The selectors** over the stores. They cover today's records, the member
  grouping and statistics, and the active and urgent announcements.
- **The network manager** (`NetworkManager`). It keeps one retry timer per
  store, with exponential back-off.
- **The backup policy** (`BackupPolicy`, `BackupHost`). It covers the
  interval table, the record counts, the restore and delete checks, and
  newest-N cleanup.
- **The database manager** (`Db`). It covers the run-once migrations, the
  partial-update clause builders, and the prayer-time and settings tables.

Representation choices:

- Dates are day numbers.
- A prayer time is a minute of the day.
- "Now" is milliseconds after local midnight.
- Object state is held in classes whose methods change their fields.
- Every awaited action is split at its `await`: a `Begin…` method and a
  `Complete…` method that receives the outcome.
- Timers are handles. The runtime firing one is an event method.
- The libraries outside the model are function-valued parameters or
  constants:
  - the astronomical calculation;
  - month arithmetic;
  - day of month;
  - the sha256 digest.

## Model

| member | source | states |
|---|---|---|
| Seqs.Filter | masjid-suite/src/renderer/store/selectors.ts:16 | `Array.prototype.filter`: never longer than the input, and an element is kept exactly when it is in the input and passes |
| Seqs.FilterConcat | masjid-suite/src/renderer/store/selectors.ts:16 | filtering distributes over concatenation, so list order is kept |
| Seqs.FilterMultiset | masjid-suite/src/renderer/store/selectors.ts:211-212 | a passing element is kept as often as it occurs and a failing one never |
| Seqs.FilterComplement | masjid-suite/src/renderer/store/selectors.ts:120-122 | the elements passing a test and those passing its negation together number the input |
| Seqs.Find | masjid-suite/src/renderer/store/selectors.ts:37 | `Array.prototype.find` by index: none exactly when no element passes; otherwise the first passing index |
| Seqs.FindFrom | masjid-suite/src/renderer/store/selectors.ts:37 | the same search from a given position on |
| Seqs.SortBy | masjid-suite/src/renderer/components/PrayerTimePlayer.tsx:70-72 | `Array.prototype.sort` with the comparator `key(a) - key(b)`: a permutation of the input |
| Seqs.SortBySorted | masjid-suite/src/renderer/components/PrayerTimePlayer.tsx:70-72 | the sorted copy is ascending by key |
| Seqs.SortByMembers | masjid-suite/src/renderer/components/PrayerTimePlayer.tsx:70-72 | the sorted copy holds exactly the input's elements |
| PrayerTimeService.PrayerTimeService.constructor | masjid-suite/src/services/prayer/prayerTimeService.ts:48-54 | a fresh service holds no records and no settings, and its database is not yet open |
| PrayerTimeService.CalculatedTimesReadBack | masjid-suite/src/services/prayer/prayerTimeService.ts:116-142 | a calculated record is dated with its day and stamped as asked, and each of its six `HH:mm` times reads back as the astronomy library's time for that day at the given coordinates |
| PrayerTimeService.PrayerTimeService.Init | masjid-suite/src/services/prayer/prayerTimeService.ts:64-95 | opens the database; seeds the Kuala Lumpur location, the Makkah method and zero adjustments only when no location is stored, otherwise keeps all three settings; leaves the records alone |
| PrayerTimeService.PrayerTimeService.GetPrayerTimes | masjid-suite/src/services/prayer/prayerTimeService.ts:144-160 | the result is dated with the requested day and is stored under that day; on a hit it is the stored record and nothing changes; on a miss it is computed at the current location (Kuala Lumpur when none) and exactly that key is added; hit or miss, the result is the calculation for its day at the current location and differs from a fresh one only in its stamp |
| PrayerTimeService.PrayerTimeService.GetPrayerTimesRange | masjid-suite/src/services/prayer/prayerTimeService.ts:162-173 | exactly one record per day from start through end, ascending, each equal to the stored one; empty with nothing changed when start is after end; afterwards every day of the range is stored, earlier records are kept, and nothing outside the range is added |
| PrayerTimeService.ChunkAt | masjid-suite/src/services/prayer/prayerTimeService.ts:187-192 | a chunk starts at the current start and ends at the earlier of seven days later and the window's end; inside the window it never passes the end and spans at most eight days |
| PrayerTimeService.ChunksTile | masjid-suite/src/services/prayer/prayerTimeService.ts:183-200 | under the corrected guard the chunks are ascending, span at most eight days, start the day after the previous one ends, begin at today and end at the window's end, and cover exactly the days of the window |
| PrayerTimeService.ChunksAsWrittenCoverage | masjid-suite/src/services/prayer/prayerTimeService.ts:186 | under the guard as written the chunks cover every day before the window's end, and the end day only when the window's length is not a multiple of eight days |
| PrayerTimeService.PreloadMissesLastDay | masjid-suite/src/services/prayer/prayerTimeService.ts:175-200 | a four-month preload from 1 February of a common year (120 days) misses its last day as written and covers it under the corrected guard |
| PrayerTimeService.TwoMonthWindowUnaffected | masjid-suite/src/services/prayer/prayerTimeService.ts:176-200 | for a window of 59 to 62 days, the length of every two-month window, the chunks as written and the corrected chunks cover exactly the same days |
| PrayerTimeService.PrayerTimeService.PreloadPrayerTimes | masjid-suite/src/services/prayer/prayerTimeService.ts:175-201 | visits exactly the corrected chunks from today to the calendar day `monthsAhead` months later; afterwards every day of that window is stored, earlier records are kept, and nothing outside the window is added |
| PrayerTimeService.PrayerTimeService.UpdateLocation | masjid-suite/src/services/prayer/prayerTimeService.ts:203-212 | stores the new location with elevation 0 when none is given and keeps the method and adjustments settings (seeded with Makkah and zero adjustments when nothing was stored); afterwards the stored days are exactly today through two months ahead and every record is the calculation at the new coordinates stamped in this call, so no record from before the call survives. The window comes from the corrected preload, but for a two-month window the loop as written covers the same days (`TwoMonthWindowUnaffected`) |
| BackgroundSync.BackgroundSyncService.constructor | masjid-suite/src/services/prayer/backgroundSync.ts:3-6 | a fresh service has no timer, no pass in flight and no listeners |
| BackgroundSync.BackgroundSyncService.ScheduleNextSync | masjid-suite/src/services/prayer/backgroundSync.ts:30-38 | clears the held timer first, so afterwards exactly one timer is pending: the new one, set for six hours and held in `syncTimer` |
| BackgroundSync.BackgroundSyncService.Stop | masjid-suite/src/services/prayer/backgroundSync.ts:20-28 | no timer is pending or held afterwards and the listeners are removed |
| BackgroundSync.BackgroundSyncService.HandleOffline | masjid-suite/src/services/prayer/backgroundSync.ts:45-51 | no timer is pending or held afterwards; the listeners stay |
| BackgroundSync.BackgroundSyncService.BeginSync | masjid-suite/src/services/prayer/backgroundSync.ts:53-63 | a pass already in flight returns at once with nothing changed and nothing rescheduled; offline, the pass ends with the flag lowered and exactly one six-hour timer pending; online, it proceeds with the flag raised |
| BackgroundSync.BackgroundSyncService.CompleteSync | masjid-suite/src/services/prayer/backgroundSync.ts:65-121 | the flag is lowered and exactly one six-hour timer is pending on every path; unless storage fails, today through today + 14 is cached, and also the two-month window exactly when it is the first of the month, and no day outside those windows is added; a storage failure is caught and leaves the service as it was; earlier records are kept, every added record is the calculation at the current location with the pass's stamp, and the settings are only seeded when none were stored |
| BackgroundSync.BackgroundSyncService.HandleOnline | masjid-suite/src/services/prayer/backgroundSync.ts:40-43 | starts a pass at once, unless one is already in flight |
| BackgroundSync.BackgroundSyncService.TimerFires | masjid-suite/src/services/prayer/backgroundSync.ts:35-37 | the fired timer is no longer pending, and its callback starts a pass under the in-flight and online guards |
| BackgroundSync.BackgroundSyncService.Start | masjid-suite/src/services/prayer/backgroundSync.ts:8-18 | after the initial pass exactly one six-hour timer is pending and the listeners are registered; earlier records are kept and every added record is the calculation at the current location with the pass's stamp; online and without a pass in flight, a successful pass caches today through today + 14 and, on the first of the month, the two-month window, and no day outside those windows is added; in flight, offline or on a storage failure the service is untouched. The two-month window comes from the corrected preload, but for such a window the loop as written covers the same days (`TwoMonthWindowUnaffected`) |
| PrayerTimePlayer.AudioFileFor | masjid-suite/src/renderer/components/PrayerTimePlayer.tsx:64-67 | the source handed to the audio element is never empty: an entry's own file wins, otherwise the Fajr azan for Fajr and the default azan for every other name |
| PrayerTimePlayer.AudioFileStable | masjid-suite/src/renderer/components/PrayerTimePlayer.tsx:104-113 | applying the fallback again to an entry that already carries its filled-in file plays the same file |
| PrayerTimePlayer.FirstLater | masjid-suite/src/renderer/components/PrayerTimePlayer.tsx:74-82 | none exactly when no entry is strictly after now; otherwise a listed entry strictly after now |
| PrayerTimePlayer.FirstLaterIndex | masjid-suite/src/renderer/components/PrayerTimePlayer.tsx:76-82 | the entry found sits at an index before which no entry is strictly after now, so the search stops at the first one |
| PrayerTimePlayer.FirstLaterSortedMin | masjid-suite/src/renderer/components/PrayerTimePlayer.tsx:70-82 | in a list sorted by time, the first entry after now has the earliest time among all entries after now |
| PrayerTimePlayer.SortedHeadMin | masjid-suite/src/renderer/components/PrayerTimePlayer.tsx:85-86 | in a list sorted by time, the head has the earliest time of all |
| PrayerTimePlayer.NextPrayerChoice | masjid-suite/src/renderer/components/PrayerTimePlayer.tsx:69-99 | the next prayer is null exactly for an empty list and is always a listed entry; it is today's exactly when some entry is strictly after now, and then it has the earliest such time; otherwise it is tomorrow's and has the earliest time of all |
| PrayerTimePlayer.NextPrayerStrict | masjid-suite/src/renderer/components/PrayerTimePlayer.tsx:78 | an entry whose time is exactly now is never today's next prayer: the choice is tomorrow's or strictly later |
| PrayerTimePlayer.NextPrayerIs | masjid-suite/src/renderer/components/PrayerTimePlayer.tsx:69-99 | an entry after now that no other entry after now precedes or ties is the next prayer, today |
| PrayerTimePlayer.SearchNextPrayer | masjid-suite/src/renderer/components/PrayerTimePlayer.tsx:69-99 | the loop over the time-sorted entries returns exactly the next prayer characterised by `NextPrayerChoice` |
| PrayerTimePlayer.RemainingBounds | masjid-suite/src/renderer/components/PrayerTimePlayer.tsx:194-219 | for a non-empty list the time left until the chosen prayer is positive and at most one day, recomputed against tomorrow when negative |
| PrayerTimePlayer.FirstInWindow | masjid-suite/src/renderer/components/PrayerTimePlayer.tsx:103-109 | the first listed entry less than 30 seconds from now on either side (no earlier entry is that close); none exactly when no entry is |
| PrayerTimePlayer.FiringsOnce | masjid-suite/src/renderer/components/PrayerTimePlayer.tsx:104-119 | with the live `currentPrayer` as guard, ticks that all find the same prayer in the window report it at most once, not at all when it is already remembered, and leave it remembered |
| PrayerTimePlayer.DhuhrInWindow | masjid-suite/src/renderer/components/__tests__/PrayerTimePlayer.test.tsx:66-69 | within a second of 13:15 the first test entry in the window is Dhuhr |
| PrayerTimePlayer.StaleGuardRefires | masjid-suite/src/renderer/components/PrayerTimePlayer.tsx:223-229 | as written, ticks at 13:14:59, 13:15:00 and 13:15:01 with Dhuhr at 13:15 report Dhuhr three times and play its azan three times |
| PrayerTimePlayer.LiveGuardFiresOnce | masjid-suite/src/renderer/components/PrayerTimePlayer.tsx:104-119 | with the live guard the same three ticks report Dhuhr once and play its azan once |
| PrayerTimePlayer.NoonExample | masjid-suite/src/renderer/components/__tests__/PrayerTimePlayer.test.tsx:44-50 | at 12:00 the test schedule's next prayer is Dhuhr at 13:15, today |
| PrayerTimePlayer.NoonRemainingExample | masjid-suite/src/renderer/components/__tests__/PrayerTimePlayer.test.tsx:52-55 | at 12:00 the time left until Dhuhr reads "1h 15m" |
| PrayerTimePlayer.DhuhrActiveExample | masjid-suite/src/renderer/components/__tests__/PrayerTimePlayer.test.tsx:57-64 | at 13:15:00 the first check remembers Dhuhr, while the next prayer is Asr |
| PrayerTimePlayer.FindByName | masjid-suite/src/renderer/components/PrayerTimePlayer.tsx:182 | the first listed entry carrying the name (no earlier entry has it); none exactly when no entry has it |
| PrayerTimePlayer.Player.constructor | masjid-suite/src/renderer/components/PrayerTimePlayer.tsx:17-30 | the component starts with no next prayer, no remembered prayer, nothing playing and no audio element, muted as the prop says |
| PrayerTimePlayer.Player.PlayAzan | masjid-suite/src/renderer/components/PrayerTimePlayer.tsx:123-144 | the audio element exists and plays the given source, appended to what was played; nothing else changes |
| PrayerTimePlayer.Player.Tick | masjid-suite/src/renderer/components/PrayerTimePlayer.tsx:59-120 | corrected tick (see the second row under Findings): the next prayer becomes `NextPrayer` of the entries and now, the time left its rendered text, and the trigger state advances by one check guarded by the live `currentPrayer`, where the source's interval reads a stale one (`FiringsAsWritten`) |
| PrayerTimePlayer.Player.CheckTrigger | masjid-suite/src/renderer/components/PrayerTimePlayer.tsx:103-119 | the first entry in the window fires unless it is the remembered prayer: it is remembered, reported and, unless muted, its azan plays; the next prayer and the time left are untouched |
| PrayerTimePlayer.Player.StopAzan | masjid-suite/src/renderer/components/PrayerTimePlayer.tsx:162-169 | with an audio element, playback stops and the remembered prayer is forgotten; without one nothing changes |
| PrayerTimePlayer.Player.AzanEnded | masjid-suite/src/renderer/components/PrayerTimePlayer.tsx:147-150 | playback is over and the remembered prayer is forgotten |
| PrayerTimePlayer.Player.ToggleMute | masjid-suite/src/renderer/components/PrayerTimePlayer.tsx:172-192 | the mute flag flips; muting stops the azan and forgets the prayer when an audio element exists; unmuting while a prayer is remembered plays the audio of the first entry with that name, and otherwise plays nothing |
| Clock.MinuteOf | masjid-suite/src/renderer/components/PrayerTimesDisplay.tsx:100 | the minute shown for now is the one that began at or before now and ends after it |
| Clock.FormatHHMM | masjid-suite/src/services/prayer/prayerTimeService.ts:124-129 | the `HH:mm` text of a minute has five characters with the colon in the middle |
| Clock.FormatOrder | masjid-suite/src/renderer/components/PrayerTimesDisplay.tsx:108 | string order on two `HH:mm` texts is exactly time order of their minutes |
| Clock.TextAfterIffLater | masjid-suite/src/renderer/components/PrayerTimesDisplay.tsx:100-108 | a time's text is greater than the current `HH:mm` text exactly when that time's minute begins after now |
| Clock.ParseHHMM | masjid-suite/src/renderer/components/PrayerTimePlayer.tsx:51-55 | reading a `DD:DD` text gives an hour and a minute below one hundred each |
| Clock.ParseFormat | masjid-suite/src/renderer/components/PrayerTimePlayer.tsx:51-55 | reading back a minute's `HH:mm` text gives that minute's hour and minute |
| Clock.ParseMinute | masjid-suite/src/renderer/components/PrayerTimePlayer.tsx:51-55 | the text of any minute of the day reads back as that minute |
| Clock.NatToStringValue | masjid-suite/src/renderer/components/PrayerCountdown.tsx:68 | a number's decimal text is all digits, has no leading zero and reads back as the number |
| Clock.Pad2Value | masjid-suite/src/renderer/components/PrayerCountdown.tsx:59 | the padded text is all digits and reads back as the number; below one hundred it is exactly two characters, starting with a 0 exactly for one-digit numbers |
| Clock.SplitHM | masjid-suite/src/renderer/components/PrayerTimePlayer.tsx:215-216 | whole hours and whole minutes of a delta: the minutes lie in 0..59 and the two together fall within one minute below the delta |
| Clock.SplitHMS | masjid-suite/src/renderer/components/PrayerCountdown.tsx:55-57 | whole hours, minutes and seconds of a delta: minutes and seconds lie in 0..59 and the three together fall within one second below the delta |
| Clock.ClockText | masjid-suite/src/renderer/components/PrayerCountdown.tsx:59 | for fields below one hundred the `HH:MM:SS` text is eight characters with colons at positions 2 and 5 |
| Clock.ClockTextFields | masjid-suite/src/renderer/components/PrayerCountdown.tsx:59 | each two-character field of the `HH:MM:SS` text is the zero-padded field and reads back as the hours, minutes and seconds given |
| Clock.HMSAgreesWithHM | masjid-suite/src/renderer/components/PrayerCountdown.tsx:55-56 | the countdown's hours and minutes of a delta are the player's hours and minutes of the same delta |
| PrayerTimesDisplay.DisplayPrayers | masjid-suite/src/renderer/components/PrayerTimesDisplay.tsx:90-97 | six cards with distinct names, Fajr first with the record's Fajr time |
| PrayerTimesDisplay.FirstAfterFrom | masjid-suite/src/renderer/components/PrayerTimesDisplay.tsx:107-113 | the first index from the start point whose text is greater than the current text: every entry before it fails the test; none when no remaining entry passes |
| PrayerTimesDisplay.DisplayChoiceByTime | masjid-suite/src/renderer/components/PrayerTimesDisplay.tsx:107-119 | there is no choice exactly for an empty list; today's choice is the first entry in list order whose minute begins after now; otherwise the choice is Fajr (the first entry) tomorrow, and no entry begins after now |
| PrayerTimesDisplay.CurrentMinuteNotNext | masjid-suite/src/renderer/components/PrayerTimesDisplay.tsx:108 | an entry in the current minute is never chosen for today |
| PrayerTimesDisplay.DiffBounds | masjid-suite/src/renderer/components/PrayerTimesDisplay.tsx:121-131 | the time left until the choice is positive and at most one day, on both the same-day and the next-day branch |
| PrayerTimesDisplay.RemainingTextAgrees | masjid-suite/src/renderer/components/PrayerTimesDisplay.tsx:132-139 | the display's `Xh Ym` text, via whole minutes, equals the player's, via whole hours, for the same delta |
| PrayerTimesDisplay.Highlighted | masjid-suite/src/renderer/components/PrayerTimesDisplay.tsx:233 | each card is lit exactly when its name is the next prayer's; with distinct card names at most one card is lit, and some card is lit exactly when the next prayer is one of the cards |
| PrayerTimesDisplay.OneCardHighlighted | masjid-suite/src/renderer/components/PrayerTimesDisplay.tsx:225-233 | once the next prayer is the chosen card, exactly that card is highlighted |
| PrayerTimesDisplay.Display.constructor | masjid-suite/src/renderer/components/PrayerTimesDisplay.tsx:75 | no next prayer is stored at first |
| PrayerTimesDisplay.Display.Recompute | masjid-suite/src/renderer/components/PrayerTimesDisplay.tsx:87-142 | without a record nothing changes; with one, the stored next prayer is the chosen card's name and `HH:mm` text with a positive time left rendered as `Xh Ym` |
| PrayerCountdown.Rolled | masjid-suite/src/renderer/components/PrayerCountdown.tsx:32-46 | the time left is positive and at most one day, and a day is added exactly when today's time is at or before now |
| PrayerCountdown.RollAll | masjid-suite/src/renderer/components/PrayerCountdown.tsx:32-47 | one candidate per entry in list order, with the entry's name and between a millisecond and a day away; waiting its time left from now lands on the entry's time of day |
| PrayerCountdown.AtNowRolledToTomorrow | masjid-suite/src/renderer/components/PrayerCountdown.tsx:38 | an entry exactly at now is a full day away |
| PrayerCountdown.NearestFrom | masjid-suite/src/renderer/components/PrayerCountdown.tsx:50-52 | the reduce's step keeps an index with the least time left of all, and every earlier entry has strictly more, so ties keep the earlier entry |
| PrayerCountdown.Nearest | masjid-suite/src/renderer/components/PrayerCountdown.tsx:50-52 | no result exactly for an empty list (the unseeded reduce throws); otherwise the least time left, ties going to the earliest entry |
| PrayerCountdown.ClockTextShape | masjid-suite/src/renderer/components/PrayerCountdown.tsx:55-59 | for a time left in (0, 24 h] the hours are at most 24 and the `HH:MM:SS` text has eight characters whose three fields read back as hours, minutes and seconds adding up to the time left, to the second |
| PrayerCountdown.Countdown.constructor | masjid-suite/src/renderer/components/PrayerCountdown.tsx:13-24 | the countdown starts with no next prayer and an empty last announcement |
| PrayerCountdown.Countdown.Tick | masjid-suite/src/renderer/components/PrayerCountdown.tsx:27-72 | with no entries nothing changes; otherwise the nearest candidate is shown with its `HH:MM:SS` text, and the announcement is stored exactly when zero hours and under five minutes are left, the stored one being kept otherwise |
| NextPrayerAgreement.DisplayAndCountdownAgree | masjid-suite/src/renderer/components/PrayerCountdown.tsx:32-52 | for a non-empty strictly ascending list, the countdown's nearest entry is the display's choice (PrayerTimesDisplay.tsx:107-131) and has the same time left |
| NextPrayerAgreement.FirstLaterAgrees | masjid-suite/src/renderer/store/selectors.ts:25-37 | when each slot's text is the `HH:mm` text of the display's minute, the selector's search and the display's search stop at the same index from any starting point |
| NextPrayerAgreement.SelectorAndDisplayAgree | masjid-suite/src/renderer/store/selectors.ts:25-37 | for a record whose times are `HH:mm` texts, `upcomingPrayer` at the current minute names the display's choice and carries its time text |
| Selectors.TodaysPrayerTimes | masjid-suite/src/renderer/store/selectors.ts:14-17 | an item is kept exactly when it is listed and dated today |
| Selectors.TodaysKeepsOrder | masjid-suite/src/renderer/store/selectors.ts:16 | the selection keeps list order: it splits over any cut of the list |
| Selectors.TodaysSchedule | masjid-suite/src/renderer/store/selectors.ts:25 | none exactly when no record is dated today; otherwise the first record dated today |
| Selectors.Slots | masjid-suite/src/renderer/store/selectors.ts:28-35 | six entries, Fajr first and Isha last, with the record's texts |
| Selectors.Upcoming | masjid-suite/src/renderer/store/selectors.ts:37 | the first entry whose text is greater than the current text; the first entry when none is |
| Selectors.UpcomingPrayer | masjid-suite/src/renderer/store/selectors.ts:19-38 | null exactly when no record is dated today; otherwise the upcoming entry of today's first record |
| Selectors.CurrentIndex | masjid-suite/src/renderer/store/selectors.ts:58-66 | the first entry when it is later than now (not yesterday's Isha); otherwise the last entry of the run at or before now that starts the list, the next entry, if any, being later |
| Selectors.CurrentPrayer | masjid-suite/src/renderer/store/selectors.ts:40-67 | null exactly when no record is dated today; otherwise the scan stops on the entry `CurrentIndex` characterises |
| Selectors.CurrentBeforeUpcoming | masjid-suite/src/renderer/store/selectors.ts:19-67 | before the first entry both selectors give it; otherwise the current entry is the one just before the upcoming one, or the last entry when the upcoming one has wrapped to the first |
| Selectors.MembersByType | masjid-suite/src/renderer/store/selectors.ts:108-116 | the loop that creates a missing group and pushes each member builds exactly the grouping `GroupedPartition` describes |
| Selectors.GroupedKeys | masjid-suite/src/renderer/store/selectors.ts:109-115 | the group keys, in first-seen order, are distinct and are exactly the keys present |
| Selectors.GroupedContents | masjid-suite/src/renderer/store/selectors.ts:109-115 | each group is exactly the members of its type in list order and is not empty; a type with no group has no members |
| Selectors.GroupedSizes | masjid-suite/src/renderer/store/selectors.ts:109-115 | the group sizes add up to the number of members |
| Selectors.GroupedPartition | masjid-suite/src/renderer/store/selectors.ts:108-116 | the grouping partitions the members: distinct keys, each group the members of its type in order, no empty group, no member of an ungrouped type, sizes summing to the total |
| Selectors.MemberInOwnGroup | masjid-suite/src/renderer/store/selectors.ts:108-116 | every member is in the group of its own type and in no other |
| Selectors.RoundedPercent | masjid-suite/src/renderer/store/selectors.ts:127 | 0 when the total is 0; otherwise the nearest whole percent of count over total with halves rounded up, never above 100 for a share of the total |
| Selectors.StatsFor | masjid-suite/src/renderer/store/selectors.ts:124-128 | one entry per key, in key order, with the group's size and rounded share |
| Selectors.MemberStatsOf | masjid-suite/src/renderer/store/selectors.ts:119-136 | the total is the number of members, active the number of active ones, inactive (total minus active) the number of inactive ones, and each type entry counts the members of its type with its rounded share, in first-seen order |
| Selectors.CountSumStats | masjid-suite/src/renderer/store/selectors.ts:124-128 | the counts of the type entries add up to the group sizes |
| Selectors.TypeCountsSumToTotal | masjid-suite/src/renderer/store/selectors.ts:119-136 | the per-type counts add up to the total |
| Selectors.ActiveAnnouncements | masjid-suite/src/renderer/store/selectors.ts:175-185 | an announcement is kept exactly when it is active and has no expiry or expires after now |
| Selectors.UrgentAnnouncements | masjid-suite/src/renderer/store/selectors.ts:210-214 | a permutation of the active announcements that are high priority or urgent, newest first |
| Store.ReplaceId | masjid-suite/src/renderer/store.ts:79-82 | length and order kept; each entry with the id becomes the given row and every other entry stays; a list without the id comes back unchanged, and a row carrying the same id leaves every id in place |
| Store.MergeId | masjid-suite/src/renderer/store.ts:106-110 | length and order kept; the patch is merged into the entries with the id only and every other entry stays; a list without the id comes back unchanged, and a merge keeping the entries' ids leaves every id in place |
| Store.RemoveId | masjid-suite/src/renderer/store.ts:138-140 | no entry with the id remains, every entry with another id stays, and nothing new appears |
| Store.AddConfirmed | masjid-suite/src/renderer/store.ts:66-84 | when no entry already carries the temporary id, confirming an optimistic add replaces exactly the appended entry and leaves the others untouched |
| Store.AddReverted | masjid-suite/src/renderer/store.ts:88-98 | when no entry already carries the temporary id, reverting an optimistic add gives back exactly the list before it |
| Store.ListStore.constructor | masjid-suite/src/renderer/store.ts:31-40 | an empty list, no error, not loading, no retries, no sync time and an empty queue, online as the runtime says |
| Store.ListStore.BeginFetch | masjid-suite/src/renderer/store.ts:43-44 | loading, with the error cleared; nothing else changes |
| Store.ListStore.CompleteFetch | masjid-suite/src/renderer/store.ts:46-62 | loading is over on every path; a confirmed response replaces the list, stamps the sync time and resets the retry count to 0; otherwise the list stays and the error is the response's or the fallback, or the network error for a rejection |
| Store.ListStore.BeginAdd | masjid-suite/src/renderer/store.ts:65-72 | the payload with the temporary id is appended; nothing else changes |
| Store.ListStore.CompleteAdd | masjid-suite/src/renderer/store.ts:74-99 | confirmed: the temporary entry becomes the stored row and the sync time is stamped; otherwise the temporary entry is removed, the error is set and the payload is appended to the queue |
| Store.ListStore.BeginUpdate | masjid-suite/src/renderer/store.ts:102-110 | returns the list as it was and merges the patch into the entries with that id only |
| Store.ListStore.CompleteUpdate | masjid-suite/src/renderer/store.ts:112-131 | confirmed: the entries with the id become the stored row; otherwise the list is exactly the snapshot taken before the optimistic edit and the error is set |
| Store.ListStore.BeginDelete | masjid-suite/src/renderer/store.ts:134-140 | returns the list as it was and removes every entry with that id |
| Store.ListStore.CompleteDelete | masjid-suite/src/renderer/store.ts:142-156 | `success` alone confirms and stamps the sync time; otherwise the list is exactly the snapshot and the error is set |
| Store.ListStore.QueuedIffFailed | masjid-suite/src/renderer/store.ts:173-184 | a re-attempt run queues nothing exactly when every queued add it re-attempts is confirmed |
| Store.ListStore.FailedReattemptIsRequeued | masjid-suite/src/renderer/store.ts:173-187 | a queued add whose re-attempt fails leaves the list as it was and is queued once more, so emptying the queue afterwards drops it |
| Store.ListStore.ReplayActions | masjid-suite/src/renderer/store.ts:173-184 | the loop re-attempts each queued add in order through the add action; the fields end as `Replay` describes and the failures are queued behind the originals |
| Store.ListStore.RetryPendingActions | masjid-suite/src/renderer/store.ts:167-188 | as written: nothing happens on an empty queue; otherwise the retry count goes up by exactly one, every queued add is re-attempted, and the queue ends empty even when re-attempts failed |
| Store.ListStore.RetryKeepingFailures | masjid-suite/src/renderer/store.ts:167-188 | corrected: as above, but the queue ends holding exactly the adds that failed again |
| Store.ListStore.SetOnlineStatus | masjid-suite/src/renderer/store.ts:160-165 | as written: the flag is recorded; going offline or an empty queue changes nothing else; going online with a non-empty queue runs the as-written retry once, so the queue ends empty even when re-attempts failed |
| Store.ListStore.SetOnlineStatusKeepingFailures | masjid-suite/src/renderer/store.ts:160-165 | corrected: as above, but over the corrected retry, so the queue ends holding exactly the adds that failed again |
| Store.ListStore.ClearError | masjid-suite/src/renderer/store.ts:190 | the error is cleared and nothing else changes |
| Store.PrayerWithId | masjid-suite/src/renderer/store.ts:66-67 | the optimistic prayer record carries the temporary id and every other field of the payload unchanged |
| Store.NewPrayerStore | masjid-suite/src/renderer/store.ts:31-41 | the prayer store starts empty with an empty queue, using the prayer record's id, the object spread of a partial update and the prayer messages |
| Store.SettingsStore.constructor | masjid-suite/src/renderer/store.ts:580-589 | no settings, no error, not loading, no retries and no sync time |
| Store.SettingsStore.BeginFetch | masjid-suite/src/renderer/store.ts:592-593 | loading, with the error cleared; nothing else changes |
| Store.SettingsStore.CompleteFetch | masjid-suite/src/renderer/store.ts:595-611 | loading is over on every path; a confirmed response replaces the settings and resets the retry count; otherwise the settings stay and the error is set |
| Store.SettingsStore.BeginUpdateSettings | masjid-suite/src/renderer/store.ts:614-620 | returns the settings as they were; loaded settings take every field of the patch and keep the others; settings not yet loaded stay null |
| Store.SettingsStore.CompleteUpdateSettings | masjid-suite/src/renderer/store.ts:622-639 | confirmed: the stored settings; otherwise exactly the snapshot, with the error set |
| Store.SettingsStore.ClearError | masjid-suite/src/renderer/store.ts:672 | the error is cleared and nothing else changes |
| Entities.MergePatch | masjid-suite/src/renderer/store.ts:108 | `{ ...pt, ...patch }`: each field present in the patch wins, each absent field keeps the record's value, and the record's id is kept |
| Entities.MergeLaws | masjid-suite/src/renderer/store.ts:108 | merging an empty patch changes nothing, and merging a patch twice is merging it once |
| NetworkManager.Pow2 | masjid-suite/src/renderer/store/networkManager.ts:109 | `Math.pow(2, n)` is at least one |
| NetworkManager.DelayDoubles | masjid-suite/src/renderer/store/networkManager.ts:109 | each further attempt waits twice as long as the one before, and never less than the 1000 ms base |
| NetworkManager.BackoffSchedule | masjid-suite/src/renderer/store/networkManager.ts:103-109 | the backed-off retries wait 2000 and 4000 ms; the 8000 ms third one is never scheduled |
| NetworkManager.ClearKey | masjid-suite/src/renderer/store/networkManager.ts:85-87 | clearing the timer a key names removes exactly that key's timer, keeps the others, and keeps at most one timer per key |
| NetworkManager.SetTimer | masjid-suite/src/renderer/store/networkManager.ts:100 | recording a fresh timer for a key with none pending keeps at most one timer per key |
| NetworkManager.Fired | masjid-suite/src/renderer/store/networkManager.ts:89-98 | once a live timer has fired, its key has none pending |
| NetworkManager.Forget | masjid-suite/src/renderer/store/networkManager.ts:92 | deleting a key with no timer pending keeps the bookkeeping consistent |
| NetworkManager.Manager.OneTimerPerKey | masjid-suite/src/renderer/store/networkManager.ts:84-101 | at most one retry timer is pending per store |
| NetworkManager.Manager.constructor | masjid-suite/src/renderer/store/networkManager.ts:3-26 | the manager starts with the runtime's online flag pushed to all four stores and no timers |
| NetworkManager.Manager.UpdateAllStoresOnlineStatus | masjid-suite/src/renderer/store/networkManager.ts:49-54 | all four stores' flags become the given one, so `useNetworkStatus().isOnline` (selectors.ts:333-335) equals it; the timers are untouched |
| NetworkManager.Manager.RetryStoreActions | masjid-suite/src/renderer/store/networkManager.ts:84-101 | the key's pending timer, if any, is cleared and a first-attempt timer with the 1000 ms base delay takes its place; other keys' timers are kept |
| NetworkManager.Manager.ScheduleRetry | masjid-suite/src/renderer/store/networkManager.ts:103-121 | from the third attempt on nothing is scheduled; otherwise one timer with delay 1000 · 2^attempt is set and recorded for the key |
| NetworkManager.Manager.TimerFires | masjid-suite/src/renderer/store/networkManager.ts:89-98 | a resolved retry removes its key from the map; a thrown one schedules the next attempt unless it was the last allowed one; afterwards any timer left for the key is the next attempt |
| NetworkManager.Manager.ClearAllRetryTimeouts | masjid-suite/src/renderer/store/networkManager.ts:123-126 | every pending timer is cleared and the map is empty |
| NetworkManager.Manager.RetryAllPendingActions | masjid-suite/src/renderer/store/networkManager.ts:76-82 | each of the four stores has a first-attempt timer pending |
| NetworkManager.Manager.HandleOnline | masjid-suite/src/renderer/store/networkManager.ts:28-33 | online, so `getConnectionStatus` reports true, pushed to the four stores, and every store's retry is (re)started |
| NetworkManager.Manager.HandleOffline | masjid-suite/src/renderer/store/networkManager.ts:35-40 | offline, so `getConnectionStatus` reports false, pushed to the four stores, and no timer or map entry is left |
| NetworkManager.Manager.VerifyConnection | masjid-suite/src/renderer/store/networkManager.ts:56-74 | connected exactly on a truthy answer, which goes online if the manager thought otherwise and then restarts every store's first retry; a rejection goes offline if it thought otherwise, leaving no retry pending; a falsy answer changes nothing |
| NetworkManager.Manager.HandleVisibilityChange | masjid-suite/src/renderer/store/networkManager.ts:42-47 | the connection is probed only when visible and believed online; only a rejected probe then changes anything, going offline |
| NetworkManager.Manager.ForceRetry | masjid-suite/src/renderer/store/networkManager.ts:129-133 | offline nothing changes; online every store's retry is restarted |
| NetworkManager.Manager.Destroy | masjid-suite/src/renderer/store/networkManager.ts:144-149 | every pending retry is cleared |
| BackupPolicy.BackupIntervalMs | masjid-suite/src/main/ipc-handlers.ts:270-281 | one day exactly for "daily", thirty days exactly for "monthly", seven days for "weekly" and for every other value, always a whole number of days |
| BackupPolicy.IntervalTable | masjid-suite/src/main/ipc-handlers.ts:270-281 | the table in milliseconds: 86 400 000, 604 800 000, 2 592 000 000, and the weekly default for an unknown value |
| BackupPolicy.AutoBackupPeriod | masjid-suite/src/main/ipc-handlers.ts:246-253 | no interval is started exactly when auto-backup is off; otherwise its period is the interval table's value, at least a day |
| BackupPolicy.CountOf | masjid-suite/src/main/ipc-handlers.ts:134 | a count is positive exactly when the read succeeded with a non-empty list, and is then that list's length |
| BackupPolicy.CountRecords | masjid-suite/src/main/ipc-handlers.ts:128-138 | the three list counts, and a settings count of one exactly when the settings were read |
| BackupPolicy.BackupList | masjid-suite/src/main/ipc-handlers.ts:290-293 | the newest-first list holds exactly the rows of the table |
| BackupPolicy.ById | masjid-suite/src/main/ipc-handlers.ts:171-174 | nothing is found exactly when no row has the id; a row found is in the table and has the id |
| BackupPolicy.RetainsFirst | masjid-suite/src/main/ipc-handlers.ts:283-303 | with distinct ids, a cleanup to `max` keeps min(n, max) rows, exactly the first `max` of the newest-first list |
| BackupPolicy.RetainsNewest | masjid-suite/src/main/ipc-handlers.ts:290-299 | no backup a cleanup keeps is older than one it deletes |
| BackupHost.PreRestorePath | masjid-suite/src/main/ipc-handlers.ts:192-193 | the copy set aside before a restore is never the database file itself and extends its path |
| BackupHost.RestoreCheck | masjid-suite/src/main/ipc-handlers.ts:171-186 | the three restore errors, each exactly in its case and in the source's order (row, file, checksum); success exactly when the row exists and its file is present and matches its checksum |
| BackupHost.FreshBackupRestorable | masjid-suite/src/main/ipc-handlers.ts:103-186 | a backup just recorded under a fresh id with its file intact passes every restore check |
| BackupHost.NotesOr | masjid-suite/src/main/ipc-handlers.ts:154 | the notes are never empty: the caller's when given non-empty, otherwise `Manual backup` |
| BackupHost.Host.constructor | masjid-suite/src/main/db.ts:105-119 | an empty `backup_meta` table whose autoincrement starts at 1, over the files given, with the connection open |
| BackupHost.Host.CreateBackup | masjid-suite/src/main/ipc-handlers.ts:103-161 | a missing database file fails with the create error and changes nothing; otherwise the file is copied to the backup path and one row with the next id, its checksum, counts and notes is appended, and the new backup is intact |
| BackupHost.Host.RestoreBackup | masjid-suite/src/main/ipc-handlers.ts:163-218 | a failed list or failed check returns its error with nothing changed; a missing database file fails with the connection left closed; otherwise the connection is reopened, the set-aside copy is gone, and the database holds the backup (or its old content when the copy fails) |
| BackupHost.Host.CopyOver | masjid-suite/src/main/ipc-handlers.ts:194-214 | the copy step of a restore: reopened, set-aside copy removed, database replaced by the backup or, on failure, restored from the set-aside copy |
| BackupHost.Host.DeleteBackupMeta | masjid-suite/src/main/db.ts:778-791 | the rows with the id are removed; "Backup metadata not found" exactly when no row had it, with nothing changed |
| BackupHost.Host.DeleteBackup | masjid-suite/src/main/ipc-handlers.ts:220-243 | list failure and unknown id change nothing; a failed unlink changes nothing; otherwise the row's file and the row are removed |
| BackupHost.Host.CleanupOldBackups | masjid-suite/src/main/ipc-handlers.ts:283-303 | a failed list or negative limit deletes nothing; otherwise exactly the rows past the first `max` newest and their files are removed |
| BackupHost.Host.DeleteFrom | masjid-suite/src/main/ipc-handlers.ts:296-299 | the loop deletes the rows of every id from the start position on, one `deleteBackup` at a time |
| BackupHost.Host.AutoBackupTick | masjid-suite/src/main/ipc-handlers.ts:253-267 | a failed backup changes nothing; a recorded one is an "Automatic backup" under the next id, after which min(max, n + 1) rows remain |
| BackupHost.FilesAfterRemovesPaths | masjid-suite/src/main/ipc-handlers.ts:296-299 | deleting ids one after another removes exactly the files of all their rows |
| Db.Pending | masjid-suite/src/main/db.ts:150-157 | a run applies only migrations whose version is not yet recorded, never more than the list holds |
| Db.PendingKeepsDistinct | masjid-suite/src/main/db.ts:150-157 | the recorded versions stay free of duplicates: no migration is applied twice, as `version TEXT NOT NULL UNIQUE` (db.ts:30) demands |
| Db.PendingCovers | masjid-suite/src/main/db.ts:150-157 | after a run every listed version is recorded |
| Db.NothingPendingWhenRecorded | masjid-suite/src/main/db.ts:151-152 | with every listed version recorded, a run applies nothing |
| Db.SecondRunAppliesNothing | masjid-suite/src/main/db.ts:150-157 | migrating is idempotent: a second run right after the first applies nothing |
| Db.MigrationTable.constructor | masjid-suite/src/main/db.ts:27-33 | a fresh `migrations` table records no version |
| Db.MigrationTable.RunMigrations | masjid-suite/src/main/db.ts:150-157 | the loop records exactly the versions the run applies, after those already recorded |
| Db.PushIfDefined | masjid-suite/src/main/db.ts:251 | a defined field adds its `col = ?` and its value at the end, an undefined one adds nothing, and the placeholders stay matched with the values |
| Db.PrayerColumnsMerge | masjid-suite/src/main/db.ts:251-259 | setting the nine columns one after another from the patch's fields is `{ ...row, ...patch }` |
| Db.BuildPrayerTimeUpdate | masjid-suite/src/main/db.ts:248-270 | the clause ends with `updated_at`, the values end with the id, every `?` has exactly one value, and running the clause on any row merges the patch into it |
| Db.PrayerTable.constructor | masjid-suite/src/main/db.ts:40-54 | an empty `prayer_times` table whose autoincrement starts at 1 |
| Db.PrayerTable.Get | masjid-suite/src/main/db.ts:167-199 | exactly the rows with the date (all rows without one), each kept as often as it occurs, newest date first |
| Db.PrayerTable.Add | masjid-suite/src/main/db.ts:201-244 | the UNIQUE error exactly when a row has the same date and location, with nothing stored; otherwise the row is appended under the next id and returned |
| Db.PrayerTable.Update | masjid-suite/src/main/db.ts:246-299 | "Prayer time not found" exactly when no row has the id; otherwise the merged row replaces it exactly when no other row has its date and location; every failure leaves the table as it was |
| Db.PrayerTable.Delete | masjid-suite/src/main/db.ts:301-314 | "Prayer time not found" exactly when no row has the id, with nothing changed; otherwise exactly that one row goes |
| Db.SettingsColumnsMerge | masjid-suite/src/main/db.ts:662-667 | setting the six columns one after another from the patch's fields is merging the patch into the settings row |
| Db.BuildSettingsUpdate | masjid-suite/src/main/db.ts:659-676 | the clause ends with `updated_at`, the values end with 1, every `?` has exactly one value, and running the clause on any row merges the patch |
| Db.SettingsTable.constructor | masjid-suite/src/main/db.ts:129-146 | the `app_settings` table holds at most the row with id 1 |
| Db.SettingsTable.GetSettings | masjid-suite/src/main/db.ts:631-655 | row 1 exactly when it exists, otherwise "Settings not found" |
| Db.SettingsTable.UpdateSettings | masjid-suite/src/main/db.ts:657-704 | without row 1 "Settings not found" and nothing changes; otherwise row 1 becomes the merge of the patch into it and is returned |

## Left out

- PrayerTimeService.PrayerTimeService.constructor: a new service starts over an empty `prayerTimes` store. IndexedDB keeps records across restarts, so in the source a new instance may open onto a populated cache; the model does not start from one.
- The astronomical calculation (`adhan`) is not modelled. It is the parameter `Astronomy` and always uses the Makkah angles. The window end of the preload is computed with the native `Date.prototype.setMonth(getMonth() + monthsAhead)`, not with `date-fns`; it is the parameter `AddMonths`, which does not capture `setMonth`'s day-of-month overflow (31 December plus two months lands on 2 or 3 March), and the day of the month is a parameter of the sync pass. The Hijri date is the source's fixed placeholder.
- Floating point is not modelled. Coordinates are integers in ten-thousandths of a degree. The member percentages use an integer round-half-up formula, which leaves out the rounding error of `Math.round` on doubles.
- Time zones, daylight-saving changes and the JavaScript `Date` object are not modelled. "Now" is a local time of day. `selectors.ts:15` mixes the UTC date of `toISOString` with the local time; the model takes today's day number as given.
- Concurrency is not modelled. Timers, intervals and promises become explicit events (`TimerFires`, `Tick`) and `Begin…`/`Complete…` pairs. The model does not cover interleavings:
  - between a preload and a direct lookup;
  - between two store actions;
  - of a network-manager callback that is still awaiting its store's retry while `retryStoreActions` sets a new timer for the same key.
- NetworkManager.Manager.ScheduleRetry: it requires that the key has no pending timer. That holds at its only call site, a fired timer's own callback, given the atomic callback above.
- NetworkManager.Manager.TimerFires: its thrown branch is kept as the source writes it, but every store's `retryPendingActions` catches its own failures and never rejects, so at run time that branch is never taken and a fired retry is never rescheduled.
- Storage is modelled as maps and sequences: IndexedDB, better-sqlite3, the SQL text, JSON (de)serialisation of columns, Electron IPC, and the file system (copy, stat, unlink). File sizes, app and data versions, file names and ISO timestamps are not modelled. Clock readings (`Date.now()`, `new Date()`) are parameters.
- The sha256 digest is a function-valued constant. The text of thrown errors is a parameter (`ioMessage`).
- BackupHost.Host.CreateBackup: recording the row always succeeds. A failure returned by `addBackupMeta` itself (`db.ts:732`) is not modelled; in the source it is passed back to the caller while the copied backup file stays on disk without a row.
- BackupHost.Host.RestoreBackup: the `backup_meta` table is kept apart from the database file. After a real restore, the reopened database brings the restored file's own `backup_meta` rows; the model keeps the rows as they were.
- BackupHost.Host.CleanupOldBackups: each deletion in the loop succeeds. A failed unlink inside `deleteBackup` during a cleanup is not modelled. `ORDER BY backup_date DESC` leaves the order of rows with equal `backupDate` unspecified; the model fixes one tie order (table order, as a stable sort gives), which the source does not guarantee.
- The `updateCommunityMember` and `updateAnnouncement` clause builders in `db.ts` have the same shape as the two that are modelled (`BuildPrayerTimeUpdate`, `BuildSettingsUpdate`). They are not modelled separately. Community and announcement CRUD in `db.ts` is left out on the same grounds.
- `database/DatabaseService.ts` is not part of this model. It is schema text plus calls into better-sqlite3.
- Audio playback is modelled by the list of sources handed to the player. Pausing and the screen-reader live region are recorded as state only. Rendering and styling are left out.
- The community and announcement stores are the same `ListStore` class. They are not instantiated separately; their `isActive ?? true` default would be their `withId` argument.
- The settings store's `setOnlineStatus` and `retryPendingActions` are not modelled. Its queue is never filled: a failed `updateSettings` does not queue anything.
- `NetworkManager.testConnection` is not modelled separately. It is the same request as `verifyConnection`, with no state change. `Destroy`'s removal of the window listeners is not modelled: `destroy` passes freshly bound functions to `removeEventListener`, which match none of the registered ones, so in the source the listeners are never removed.
- NetworkManager.Manager.UpdateAllStoresOnlineStatus: it records the four stores' flags. It does not run each store's own retry, which `Store.ListStore.SetOnlineStatus` models.
- BackgroundSync.BackgroundSyncService.CompleteSync: a storage failure is taken to happen before the first write of the pass. A failure part-way through a verification loop, after some days were stored, is not modelled.
- Selectors.UpcomingPrayer, Selectors.CurrentPrayer: both selectors are memoised on `prayerTimes` alone (`selectors.ts:20-38`, `41-67`), so their "now" is the instant the memo was last recomputed and their result goes stale as the clock passes a prayer time. The model takes that instant as its parameter.
- Selectors.TodaysPrayerTimes, Selectors.ActiveAnnouncements: they too read the clock inside a memo keyed only on their data (`selectors.ts:13-16`, `174-185`), so today's records go stale across midnight and an announcement stays active past its expiry until the data changes. The model takes the day and the instant as parameters.
- NextPrayerAgreement.SelectorAndDisplayAgree: it holds when the selector's memo and the display's effect were computed in the same minute. The display recomputes on its own one-second timer, while the memoised selector does not, so between recomputations the two can disagree.
- Seqs.SortBy: the sort is stable by construction, but its contract states only sortedness and permutation, not stability.
- Selectors.NetworkOnline: it has no contract of its own. It is the conjunction of the four flags, and `NetworkManager.Manager.UpdateAllStoresOnlineStatus` states its value.

## Findings

| source | as written | input that shows it | evidently intended | confidence | as-written member | corrected member |
|---|---|---|---|---|---|---|
| masjid-suite/src/services/prayer/prayerTimeService.ts:186 | the preload loop runs while `currentChunkStart < endDate`, and each chunk covers eight days, `[c, c + 7]`. When the window is a whole number of chunks long, the last chunk starts exactly at the end date and is skipped, so the last day is never preloaded | `preloadPrayerTimes(4)` on 1 February of a common year: the window is 120 days, and 1 June is never computed. Every call in the repository uses two months, which is never a multiple of 8 days | `currentChunkStart <= endDate`, so the chunks tile the whole window with no gap | not executed; latent (both `new Date()` calls must return the same instant) | PrayerTimeService.PreloadMissesLastDay | PrayerTimeService.ChunksTile |
| masjid-suite/src/renderer/components/PrayerTimePlayer.tsx:223-229 | the one-second interval is set up when `prayerTimes` changes. It keeps calling the `updateNextPrayer` of that render, whose `currentPrayer` is still the old value, so the guard at line 110 never sees the prayer it has just fired. The same closure also reads the `isMuted` of that render, so muting or unmuting after the interval started does not change whether line 112 plays the azan | Dhuhr at 13:15 with ticks at 13:14:59, 13:15:00 and 13:15:01: the callback reports Dhuhr three times and starts the azan three times | the guard reads the live `currentPrayer`, so one prayer fires once per window | not executed | PrayerTimePlayer.StaleGuardRefires | PrayerTimePlayer.LiveGuardFiresOnce |
| masjid-suite/src/renderer/store.ts:186-187 | `retryPendingActions` re-attempts each queued add, and a failed re-attempt queues it again. The run then sets `pendingActions` to `[]`, so those failures are dropped | a queued add whose re-attempt fails again: afterwards the queue is empty and the add is lost | keep the adds that failed again queued ("Clear successful actions") | not executed | Store.ListStore.FailedReattemptIsRequeued | Store.ListStore.RetryKeepingFailures |

=== FILE: background_sync.dfy ===
/**
 * The background sync service: a periodic pass that keeps the prayer-time
 * cache filled for the next two weeks (and, on the first of the month, for
 * the next two months), guarded by an in-flight flag, with one pending
 * six-hour timer that going offline or stopping cancels.
 *
 * A pass awaits storage work, so it is split at that point: `BeginSync` is
 * the synchronous prologue up to the first `await`, `CompleteSync` the rest
 * including the `finally`. Timers are handles registered with the runtime
 * (`pending`); the runtime firing one is the event `TimerFires`.
 */
module BackgroundSync {
  import opened Wrappers
  import opened PrayerTimeService

  /** Six hours in milliseconds. */
  const SyncInterval: int := 6 * 60 * 60 * 1000
  /** Days verified ahead of today on every pass. */
  const VerifyDaysAhead: int := 14
  /** Months preloaded on the first of the month. */
  const PreloadMonths: int := 2

  class BackgroundSyncService {
    /** The handle held in `syncTimer`, if any. */
    var syncTimer: Option<nat>
    /** Timers registered with the runtime and not yet fired or cleared: handle to delay. */
    var pending: map<nat, int>
    /** The next handle `setTimeout` returns. */
    var nextHandle: nat
    var isSyncing: bool
    /** Whether the `online`/`offline` listeners are registered. */
    var listening: bool
    const service: PrayerTimeService

    /**
     * At most one timer is pending, it is the one `syncTimer` holds, and it
     * was set for six hours; handles are never reused.
     */
    ghost predicate Valid()
      reads this, service
    {
      && service.Valid()
      && (forall h :: h in pending ==> syncTimer == Some(h) && pending[h] == SyncInterval)
      && (forall h :: h in pending ==> h < nextHandle)
      && (syncTimer.Some? ==> syncTimer.value < nextHandle)
    }

    constructor (service: PrayerTimeService)
      requires service.Valid()
      ensures Valid()
      ensures this.service == service && syncTimer == None && pending == map[]
      ensures !isSyncing && !listening
    {
      syncTimer := None;
      pending := map[];
      nextHandle := 0;
      isSyncing := false;
      listening := false;
      this.service := service;
    }

    /**
     * `scheduleNextSync`: clears the held timer, then sets a new six-hour
     * timer, so exactly one timer is pending afterwards.
     */
    method ScheduleNextSync()
      requires Valid()
      modifies this
      ensures Valid()
      ensures syncTimer == Some(old(nextHandle)) && pending == map[old(nextHandle) := SyncInterval]
      ensures nextHandle == old(nextHandle) + 1
      ensures isSyncing == old(isSyncing) && listening == old(listening)
    {
      if syncTimer.Some? {
        pending := pending - {syncTimer.value};
      }
      assert pending == map[];
      var h := nextHandle;
      nextHandle := nextHandle + 1;
      pending := pending[h := SyncInterval];
      syncTimer := Some(h);
    }

    /** Clears the held timer, if any, and forgets it. */
    method CancelTimer()
      requires Valid()
      modifies this
      ensures Valid()
      ensures syncTimer == None && pending == map[]
      ensures nextHandle == old(nextHandle) && isSyncing == old(isSyncing) && listening == old(listening)
    {
      if syncTimer.Some? {
        pending := pending - {syncTimer.value};
        syncTimer := None;
      }
    }

    /** `stop`: cancels the pending timer and removes the listeners. */
    method Stop()
      requires Valid()
      modifies this
      ensures Valid()
      ensures syncTimer == None && pending == map[] && !listening
      ensures isSyncing == old(isSyncing)
    {
      CancelTimer();
      listening := false;
    }

    /** `handleOffline`: cancels the pending timer; the listeners stay. */
    method HandleOffline()
      requires Valid()
      modifies this
      ensures Valid()
      ensures syncTimer == None && pending == map[]
      ensures isSyncing == old(isSyncing) && listening == old(listening)
    {
      CancelTimer();
    }

    /**
     * The synchronous start of `syncPrayerTimes`. A pass already in flight
     * makes this return at once with nothing changed and nothing
     * rescheduled. Otherwise the flag is raised; offline, the pass ends
     * there through its `finally` (flag lowered, one six-hour timer
     * pending); online, the pass goes on to `CompleteSync`.
     */
    method BeginSync(online: bool) returns (started: bool)
      requires Valid()
      modifies this
      ensures Valid()
      ensures started <==> !old(isSyncing) && online
      ensures old(isSyncing) ==> unchanged(this)
      ensures started ==> isSyncing && syncTimer == old(syncTimer) && pending == old(pending) && nextHandle == old(nextHandle)
      ensures !old(isSyncing) && !online ==>
        !isSyncing && syncTimer == Some(old(nextHandle)) && pending == map[old(nextHandle) := SyncInterval]
      ensures listening == old(listening)
      ensures unchanged(service)
    {
      if isSyncing {
        return false;
      }
      isSyncing := true;
      if !online {
        isSyncing := false;
        ScheduleNextSync();
        return false;
      }
      started := true;
    }

    /**
     * The awaited part of a pass and its `finally`. Unless storage fails,
     * every day from today through today + 14 is cached and, exactly when
     * `dayOfMonth` is 1, the two-month window too; a storage failure is
     * caught inside the pass and leaves the cache as it was. Stored records
     * stay, added ones are calculated for the current location with this
     * pass's stamp, and the settings are only seeded (by `init`) when none
     * were stored. Either way the flag is lowered and exactly one six-hour
     * timer is pending.
     */
    method CompleteSync(today: int, dayOfMonth: int, stamp: int, storageFails: bool)
      requires Valid() && isSyncing
      modifies this, service
      ensures Valid()
      ensures !isSyncing && syncTimer == Some(old(nextHandle)) && pending == map[old(nextHandle) := SyncInterval]
      ensures listening == old(listening)
      ensures storageFails ==> unchanged(service)
      ensures !storageFails ==> forall d :: today <= d <= today + VerifyDaysAhead ==> d in service.cache
      ensures !storageFails && dayOfMonth == 1 ==>
        forall d :: today <= d <= service.addMonths(today, PreloadMonths) ==> d in service.cache
      ensures dayOfMonth != 1 ==>
        forall d :: d in service.cache ==> d in old(service.cache) || today <= d <= today + VerifyDaysAhead
      ensures dayOfMonth == 1 ==>
        forall d :: d in service.cache ==>
          d in old(service.cache) || today <= d <= today + VerifyDaysAhead || today <= d <= service.addMonths(today, PreloadMonths)
      ensures forall d :: d in old(service.cache) ==> d in service.cache && service.cache[d] == old(service.cache)[d]
      ensures forall d :: d in service.cache && d !in old(service.cache) ==>
        service.cache[d] == CalculatePrayerTimes(service.astronomy, d, service.CurrentCoordinates(), stamp)
      ensures !storageFails ==> service.SeededFrom(old(service.location), old(service.calculationMethod), old(service.adjustments))
    {
      if !storageFails {
        var _ := service.GetPrayerTimesRange(today, today + VerifyDaysAhead, stamp);
        if dayOfMonth == 1 {
          ghost var _ := service.PreloadPrayerTimes(PreloadMonths, today, stamp);
        }
      }
      isSyncing := false;
      ScheduleNextSync();
    }

    /**
     * `handleOnline`: starts a pass at once; whether it gets past the
     * in-flight guard is as in `BeginSync`.
     */
    method HandleOnline() returns (started: bool)
      requires Valid()
      modifies this
      ensures Valid()
      ensures started <==> !old(isSyncing)
      ensures old(isSyncing) ==> unchanged(this)
      ensures started ==> isSyncing && syncTimer == old(syncTimer) && pending == old(pending)
    {
      started := BeginSync(true);
    }

    /**
     * The runtime fires pending timer `h`: it is no longer pending, and its
     * callback starts a pass.
     */
    method TimerFires(h: nat, online: bool) returns (started: bool)
      requires Valid() && h in pending
      modifies this
      ensures Valid()
      ensures started <==> !old(isSyncing) && online
      ensures old(isSyncing) ==> syncTimer == old(syncTimer) && pending == map[] && isSyncing
      ensures started ==> isSyncing && pending == map[]
    {
      pending := pending - {h};
      started := BeginSync(online);
    }

    /**
     * `start`: one full pass (none when a pass is already in flight or
     * offline), then `scheduleNextSync` again, then the listeners; afterwards
     * exactly one timer is pending, stored records stay and the pass's
     * additions are as in `CompleteSync`.
     */
    method Start(online: bool, today: int, dayOfMonth: int, stamp: int, storageFails: bool)
      requires Valid()
      modifies this, service
      ensures Valid()
      ensures isSyncing == old(isSyncing) && listening
      ensures syncTimer.Some? && pending == map[syncTimer.value := SyncInterval]
      ensures !old(isSyncing) && online && !storageFails ==>
        forall d :: today <= d <= today + VerifyDaysAhead ==> d in service.cache
      ensures !old(isSyncing) && online && !storageFails && dayOfMonth == 1 ==>
        forall d :: today <= d <= service.addMonths(today, PreloadMonths) ==> d in service.cache
      ensures !old(isSyncing) && online && !storageFails ==>
        service.SeededFrom(old(service.location), old(service.calculationMethod), old(service.adjustments))
      ensures dayOfMonth != 1 ==>
        forall d :: d in service.cache ==> d in old(service.cache) || today <= d <= today + VerifyDaysAhead
      ensures dayOfMonth == 1 ==>
        forall d :: d in service.cache ==>
          d in old(service.cache) || today <= d <= today + VerifyDaysAhead || today <= d <= service.addMonths(today, PreloadMonths)
      ensures forall d :: d in old(service.cache) ==> d in service.cache && service.cache[d] == old(service.cache)[d]
      ensures forall d :: d in service.cache && d !in old(service.cache) ==>
        service.cache[d] == CalculatePrayerTimes(service.astronomy, d, service.CurrentCoordinates(), stamp)
      ensures old(isSyncing) || !online || storageFails ==> unchanged(service)
    {
      var started := BeginSync(online);
      if started {
        CompleteSync(today, dayOfMonth, stamp, storageFails);
      }
      ScheduleNextSync();
      listening := true;
    }
  }
}

=== FILE: backup_policy.dfy ===
/**
 * The main process's backup policy: the auto-backup interval table, the
 * record counts stored with a backup, and the backup host's restore, delete
 * and newest-N cleanup over the `backup_meta` table and the files on disk.
 * File contents are byte strings, the checksum is a function-valued
 * constant (the sha256 hex digest), and file-system failures that are not
 * decided by the files present are parameters.
 */
module BackupPolicy {
  import opened Wrappers
  import opened Seqs

  // ------------------------------------------------------------------ interval

  const HourMs: nat := 60 * 60 * 1000
  const DayMs: nat := 24 * HourMs

  /**
   * `getBackupIntervalMs`: one day for "daily", seven for "weekly", thirty
   * for "monthly", and seven for anything else.
   */
  function BackupIntervalMs(interval: string): (r: nat)
    ensures r == DayMs <==> interval == "daily"
    ensures r == 30 * DayMs <==> interval == "monthly"
    ensures r == 7 * DayMs <==> interval != "daily" && interval != "monthly"
    ensures r % DayMs == 0
  {
    if interval == "daily" then DayMs
    else if interval == "weekly" then 7 * DayMs
    else if interval == "monthly" then 30 * DayMs
    else 7 * DayMs
  }

  /** The three table values in milliseconds. */
  lemma IntervalTable()
    ensures BackupIntervalMs("daily") == 86_400_000
    ensures BackupIntervalMs("weekly") == 604_800_000
    ensures BackupIntervalMs("monthly") == 2_592_000_000
    ensures BackupIntervalMs("hourly") == 604_800_000
  {
  }

  /** `backupSettings` as far as the auto-backup reads it. */
  datatype BackupSettings = BackupSettings(autoBackup: bool, backupInterval: string, maxBackupFiles: int)

  /**
   * `startAutoBackup`: the period of the interval it starts, or None when
   * auto-backup is off and nothing is scheduled.
   */
  function AutoBackupPeriod(settings: BackupSettings): (r: Option<nat>)
    ensures r.None? <==> !settings.autoBackup
    ensures r.Some? ==> r.value == BackupIntervalMs(settings.backupInterval) && r.value >= DayMs
  {
    if !settings.autoBackup then None else Some(BackupIntervalMs(settings.backupInterval))
  }

  // ------------------------------------------------------------- record counts

  /** A database query's `{ success, data? }` result. */
  datatype DbResult<T> = DbResult(success: bool, data: Option<T>)

  /** `r.success ? r.data?.length || 0 : 0`. */
  function CountOf<T>(r: DbResult<seq<T>>): (n: nat)
    ensures n > 0 <==> r.success && r.data.Some? && |r.data.value| > 0
    ensures r.data.Some? ==> n <= |r.data.value|
    ensures r.success && r.data.Some? ==> n == |r.data.value|
  {
    if r.success then (if r.data.Some? then |r.data.value| else 0) else 0
  }

  datatype RecordCounts = RecordCounts(prayerTimes: nat, communityMembers: nat, announcements: nat, settings: nat)

  /**
   * The counts `createBackup` stores: the length of each list read back,
   * zero for a failed read, and one for the settings exactly when they were
   * read.
   */
  function CountRecords<P, M, A, S>(prayers: DbResult<seq<P>>, members: DbResult<seq<M>>,
                                    announcements: DbResult<seq<A>>, settings: DbResult<S>): (c: RecordCounts)
    ensures c.prayerTimes == CountOf(prayers) && c.communityMembers == CountOf(members)
    ensures c.announcements == CountOf(announcements)
    ensures c.settings <= 1 && (c.settings == 1 <==> settings.success)
  {
    RecordCounts(CountOf(prayers), CountOf(members), CountOf(announcements), if settings.success then 1 else 0)
  }

  // --------------------------------------------------------------- backup_meta

  /** A `backup_meta` row; `backupDate` is the instant of its ISO date text. */
  datatype BackupMeta = BackupMeta(
    id: int,
    filePath: string,
    backupDate: int,
    checksum: string,
    recordCounts: RecordCounts,
    notes: string)

  const ListFailed: string := "Failed to get backup list"
  const BackupNotFound: string := "Backup not found"
  const FileNotFound: string := "Backup file not found"
  const IntegrityFailed: string := "Backup file integrity check failed"
  const MetaNotFound: string := "Backup metadata not found"
  const RestoreFailed: string := "Failed to restore backup: "
  const DeleteFailed: string := "Failed to delete backup: "
  const CreateFailed: string := "Failed to create backup: "

  /** Newest first, as an ascending key. */
  function Newest(b: BackupMeta): int {
    -b.backupDate
  }

  /** `getBackupList`, re-sorted by `cleanupOldBackups`: newest first. */
  function BackupList(backups: seq<BackupMeta>): (r: seq<BackupMeta>)
    ensures multiset(r) == multiset(backups)
  {
    SortBy(backups, Newest)
  }

  /**
   * `backups.data.find(b => b.id === backupId)`. The list is the table
   * newest first, but `id` is the primary key, so the row found does not
   * depend on the order: the table is searched in its own order.
   */
  function ById(backups: seq<BackupMeta>, id: int): (r: Option<BackupMeta>)
    ensures r.None? <==> forall i :: 0 <= i < |backups| ==> backups[i].id != id
    ensures r.Some? ==> r.value in backups && r.value.id == id
  {
    var found := Find(backups, (b: BackupMeta) => b.id == id);
    if found.None? then None else Some(backups[found.value])
  }

  /** `id` is the table's primary key. */
  predicate DistinctIds(s: seq<BackupMeta>) {
    forall i, j :: 0 <= i < j < |s| ==> s[i].id != s[j].id
  }

  function Ids(s: seq<BackupMeta>): (r: seq<int>)
    ensures |r| == |s| && forall k :: 0 <= k < |s| ==> r[k] == s[k].id
  {
    seq(|s|, k requires 0 <= k < |s| => s[k].id)
  }

  /** Keeps the rows whose id is not listed. */
  function NotIn(ids: seq<int>): BackupMeta -> bool {
    (b: BackupMeta) => b.id !in ids
  }

  /** The files of the rows with a listed id. */
  function PathsOf(backups: seq<BackupMeta>, ids: seq<int>): set<string> {
    set b | b in backups && b.id in ids :: b.filePath
  }

  function Min(a: int, b: int): int {
    if a <= b then a else b
  }

  /** The ids `cleanupOldBackups` deletes: those past the first `max` of the newest-first list. */
  function EvictedIds(backups: seq<BackupMeta>, max: nat): seq<int> {
    var list := BackupList(backups);
    Ids(list[Min(max, |list|)..])
  }

  /** The rows a cleanup keeps, in table order. */
  function Retained(backups: seq<BackupMeta>, max: nat): seq<BackupMeta> {
    Filter(backups, NotIn(EvictedIds(backups, max)))
  }

  /** Deleting the rows of one more id after some others is deleting all of them at once. */
  lemma {:induction false} NotInSnoc(s: seq<BackupMeta>, ids: seq<int>, id: int)
    ensures Filter(Filter(s, NotIn(ids)), NotIn([id])) == Filter(s, NotIn(ids + [id]))
  {
    if s != [] {
      NotInSnoc(s[1..], ids, id);
    }
  }

  /** A row set aside among several ids is one set aside with the first ids or with the last. */
  lemma PathsSnoc(backups: seq<BackupMeta>, ids: seq<int>, id: int)
    ensures PathsOf(backups, ids) + PathsOf(Filter(backups, NotIn(ids)), [id]) == PathsOf(backups, ids + [id])
  {
    var kept := Filter(backups, NotIn(ids));
    forall p | p in PathsOf(backups, ids + [id])
      ensures p in PathsOf(backups, ids) + PathsOf(kept, [id])
    {
      var b :| b in backups && b.id in ids + [id] && b.filePath == p;
      if b.id !in ids {
        assert b in kept;
      }
    }
  }

  /** `ids` are all below `bound`. */
  predicate IdsBelow(backups: seq<BackupMeta>, bound: int) {
    forall i :: 0 <= i < |backups| ==> backups[i].id < bound
  }

  /** Filtering keeps the ids below a bound. */
  lemma FilterKeepsBelow(s: seq<BackupMeta>, p: BackupMeta -> bool, bound: int)
    requires IdsBelow(s, bound)
    ensures IdsBelow(Filter(s, p), bound)
  {
    var r := Filter(s, p);
    forall i | 0 <= i < |r|
      ensures r[i].id < bound
    {
      assert r[i] in s;
    }
  }

  /** A row kept by a filter keeps its id distinct from the others kept. */
  lemma {:induction false} FilterKeepsDistinct(s: seq<BackupMeta>, p: BackupMeta -> bool)
    requires DistinctIds(s)
    ensures DistinctIds(Filter(s, p))
  {
    if s != [] {
      FilterKeepsDistinct(s[1..], p);
      var rest := Filter(s[1..], p);
      if p(s[0]) {
        forall j | 0 <= j < |rest|
          ensures s[0].id != rest[j].id
        {
          assert rest[j] in s[1..];
        }
      }
    }
  }

  /** No element occurs twice in a table whose ids are distinct. */
  lemma {:induction false} DistinctOnce(s: seq<BackupMeta>)
    requires DistinctIds(s)
    ensures forall x :: multiset(s)[x] <= 1
  {
    if s != [] {
      DistinctOnce(s[1..]);
      assert s == [s[0]] + s[1..];
      assert s[0] !in s[1..];
    }
  }

  /** An element at two positions occurs at least twice. */
  lemma Twice(s: seq<BackupMeta>, i: nat, j: nat)
    requires i < j < |s| && s[i] == s[j]
    ensures multiset(s)[s[i]] >= 2
  {
    assert s == s[..j] + [s[j]] + s[j + 1..];
    assert s[i] in s[..j];
  }

  /** Reordering a table with distinct ids keeps them distinct. */
  lemma DistinctIdsPermutation(a: seq<BackupMeta>, b: seq<BackupMeta>)
    requires multiset(a) == multiset(b) && DistinctIds(a)
    ensures DistinctIds(b)
  {
    DistinctOnce(a);
    forall i, j | 0 <= i < j < |b|
      ensures b[i].id != b[j].id
    {
      if b[i] == b[j] {
        Twice(b, i, j);
      }
      assert b[i] in multiset(a) && b[j] in multiset(a);
      var p :| 0 <= p < |a| && a[p] == b[i];
      var q :| 0 <= q < |a| && a[q] == b[j];
      assert p != q;
    }
  }

  /** With distinct ids, no entry before `m` shares an id with one past it. */
  lemma FrontIdNotInTail(list: seq<BackupMeta>, m: nat, i: nat)
    requires DistinctIds(list) && i < m <= |list|
    ensures list[i].id !in Ids(list[m..])
  {
  }

  /** Every entry past `m` has its id among the ids past `m`. */
  lemma TailIdInTail(list: seq<BackupMeta>, m: nat, i: nat)
    requires m + i < |list|
    ensures list[m..][i].id in Ids(list[m..])
  {
    assert Ids(list[m..])[i] == list[m..][i].id;
  }

  /** In a newest-first list with distinct ids, deleting the ids past `m` keeps the first `m`. */
  lemma KeepsPrefix(list: seq<BackupMeta>, m: nat)
    requires DistinctIds(list) && m <= |list|
    ensures Filter(list, NotIn(Ids(list[m..]))) == list[..m]
  {
    var p := NotIn(Ids(list[m..]));
    var front, tail := list[..m], list[m..];
    assert list == front + tail;
    FilterConcat(front, tail, p);
    forall i | 0 <= i < |front|
      ensures p(front[i])
    {
      FrontIdNotInTail(list, m, i);
    }
    FilterAll(front, p);
    forall i | 0 <= i < |tail|
      ensures !p(tail[i])
    {
      TailIdInTail(list, m, i);
    }
    FilterNone(tail, p);
  }

  /**
   * With distinct ids, a cleanup keeping `max` backups keeps min(n, max) of
   * them: exactly the first `max` of the newest-first list.
   */
  lemma RetainsFirst(backups: seq<BackupMeta>, max: nat)
    requires DistinctIds(backups)
    ensures |Retained(backups, max)| == Min(max, |backups|)
    ensures multiset(Retained(backups, max)) == multiset(BackupList(backups)[..Min(max, |backups|)])
  {
    var list := BackupList(backups);
    var m := Min(max, |list|);
    var kept := Retained(backups, max);
    DistinctIdsPermutation(backups, list);
    FilterPermutation(backups, list, NotIn(EvictedIds(backups, max)));
    KeepsPrefix(list, m);
    assert |kept| == |multiset(kept)| == |multiset(list[..m])| == m;
  }

  /** In a newest-first list, an entry among the first `m` is no older than one past them. */
  lemma PrefixIsNewer(list: seq<BackupMeta>, m: nat, x: BackupMeta, y: BackupMeta)
    requires SortedBy(list, Newest) && m <= |list|
    requires x in list[..m] && y in list && y !in list[..m]
    ensures x.backupDate >= y.backupDate
  {
    var a :| 0 <= a < m && list[a] == x;
    var c :| 0 <= c < |list| && list[c] == y;
    assert Newest(list[a]) <= Newest(list[c]);
  }

  /** ... and none of those it keeps is older than one it deletes. */
  lemma RetainsNewest(backups: seq<BackupMeta>, max: nat)
    requires DistinctIds(backups)
    ensures forall x, y :: x in Retained(backups, max) && y in backups && y !in Retained(backups, max) ==>
      x.backupDate >= y.backupDate
  {
    var list := BackupList(backups);
    var m := Min(max, |list|);
    var kept := Retained(backups, max);
    RetainsFirst(backups, max);
    SortBySorted(backups, Newest);
    forall x, y | x in kept && y in backups && y !in kept
      ensures x.backupDate >= y.backupDate
    {
      assert x in multiset(kept) && y !in multiset(kept) && y in multiset(list);
      PrefixIsNewer(list, m, x, y);
    }
  }
}

module BackupHost {
  import opened Wrappers
  import opened Seqs
  import opened BackupPolicy

  /** Digits of a natural number, as a template literal renders it. */
  function Decimal(n: nat): string
    decreases n
  {
    if n < 10 then [('0' as int + n) as char] else Decimal(n / 10) + [('0' as int + n % 10) as char]
  }

  /** `${dbPath}.pre-restore.${Date.now()}`: never the database file itself. */
  function PreRestorePath(dbPath: string, stamp: nat): (r: string)
    ensures r != dbPath && |r| > |dbPath| && r[..|dbPath|] == dbPath
  {
    dbPath + ".pre-restore." + Decimal(stamp)
  }

  /** The file a row names is present and has the checksum the row records. */
  predicate Intact(b: BackupMeta, files: map<string, seq<bv8>>, checksum: seq<bv8> -> string) {
    b.filePath in files && checksum(files[b.filePath]) == b.checksum
  }

  /**
   * The checks `restoreBackup` makes before it touches the database, in
   * order: the row, then its file, then the file's checksum.
   */
  function RestoreCheck(backups: seq<BackupMeta>, files: map<string, seq<bv8>>, checksum: seq<bv8> -> string, id: int)
    : (r: Result<BackupMeta>)
    ensures r == Err(BackupNotFound) <==> forall i :: 0 <= i < |backups| ==> backups[i].id != id
    ensures r == Err(FileNotFound) <==> ById(backups, id).Some? && ById(backups, id).value.filePath !in files
    ensures r == Err(IntegrityFailed) <==>
      (ById(backups, id).Some? && ById(backups, id).value.filePath in files && !Intact(ById(backups, id).value, files, checksum))
    ensures r.Ok? <==> ById(backups, id).Some? && Intact(ById(backups, id).value, files, checksum)
    ensures r.Ok? ==> r.value in backups && r.value.id == id
  {
    assert |BackupNotFound| == 16 && |FileNotFound| == 21 && |IntegrityFailed| == 34;
    var found := ById(backups, id);
    if found.None? then Err(BackupNotFound)
    else if found.value.filePath !in files then Err(FileNotFound)
    else if checksum(files[found.value.filePath]) != found.value.checksum then Err(IntegrityFailed)
    else Ok(found.value)
  }

  /** A backup just recorded under a fresh id, whose file is intact, passes every restore check. */
  lemma FreshBackupRestorable(backups: seq<BackupMeta>, files: map<string, seq<bv8>>, checksum: seq<bv8> -> string,
                              b: BackupMeta)
    requires IdsBelow(backups, b.id) && Intact(b, files, checksum)
    ensures RestoreCheck(backups + [b], files, checksum, b.id) == Ok(b)
  {
    var all := backups + [b];
    assert all[|backups|].id == b.id;
    var found := ById(all, b.id);
    var k :| 0 <= k < |all| && all[k] == found.value;
    assert k == |backups|;
  }

  /** `notes || 'Manual backup'`: missing or empty notes fall back to the label. */
  function NotesOr(notes: Option<string>): (r: string)
    ensures r != ""
    ensures notes.Some? && notes.value != "" ==> r == notes.value
    ensures notes.None? || notes.value == "" ==> r == "Manual backup"
  {
    if notes.Some? && notes.value != "" then notes.value else "Manual backup"
  }

  /**
   * The IPC handler's backup side: the `backup_meta` table with its next
   * id, the files on disk, and whether the database connection is open.
   */
  class Host {
    var backups: seq<BackupMeta>
    var nextId: int
    var files: map<string, seq<bv8>>
    var dbOpen: bool
    const dbPath: string
    const checksum: seq<bv8> -> string

    /** `id` is the primary key and `AUTOINCREMENT` runs ahead of every id. */
    predicate Valid()
      reads this
    {
      DistinctIds(backups) && IdsBelow(backups, nextId)
    }

    constructor (dbPath: string, checksum: seq<bv8> -> string, files: map<string, seq<bv8>>)
      ensures Valid() && backups == [] && nextId == 1 && this.files == files && dbOpen
      ensures this.dbPath == dbPath && this.checksum == checksum
    {
      this.dbPath := dbPath;
      this.checksum := checksum;
      this.files := files;
      backups := [];
      nextId := 1;
      dbOpen := true;
    }

    /**
     * `createBackup`: copies the database file to `backupPath` and records
     * it with its checksum, the record counts read back and the notes; a
     * missing database file makes the copy throw.
     */
    method CreateBackup<P, M, A, S>(backupPath: string, backupDate: int, notes: Option<string>,
                                    prayers: DbResult<seq<P>>, members: DbResult<seq<M>>,
                                    announcements: DbResult<seq<A>>, settings: DbResult<S>, ioMessage: string)
      returns (r: Result<BackupMeta>)
      requires Valid()
      modifies this
      ensures Valid() && dbOpen == old(dbOpen)
      ensures dbPath !in old(files) ==>
        r == Err(CreateFailed + ioMessage) && backups == old(backups) && files == old(files) && nextId == old(nextId)
      ensures dbPath in old(files) ==>
        && r == Ok(BackupMeta(old(nextId), backupPath, backupDate, checksum(old(files)[dbPath]),
                              CountRecords(prayers, members, announcements, settings), NotesOr(notes)))
        && files == old(files)[backupPath := old(files)[dbPath]]
        && backups == old(backups) + [r.value] && nextId == old(nextId) + 1
      ensures r.Ok? ==> Intact(r.value, files, checksum) && files[r.value.filePath] == old(files)[dbPath]
    {
      if dbPath !in files {
        return Err(CreateFailed + ioMessage);
      }
      files := files[backupPath := files[dbPath]];
      var sum := checksum(files[backupPath]);
      var meta := BackupMeta(nextId, backupPath, backupDate, sum,
                             CountRecords(prayers, members, announcements, settings), NotesOr(notes));
      backups := backups + [meta];
      nextId := nextId + 1;
      r := Ok(meta);
    }

    /**
     * `restoreBackup`: after the checks, the database is closed, copied
     * aside, overwritten with the backup and reopened; if that copy fails
     * the copy aside is put back. The copy aside is removed on both paths.
     * A missing database file makes the copy aside throw, with the
     * connection left closed.
     */
    method RestoreBackup(id: int, listFails: bool, stamp: nat, copyFails: bool, ioMessage: string)
      returns (r: Result<()>)
      modifies this
      ensures backups == old(backups) && nextId == old(nextId)
      ensures listFails ==> r == Err(ListFailed) && files == old(files) && dbOpen == old(dbOpen)
      ensures !listFails && RestoreCheck(old(backups), old(files), checksum, id).Err? ==>
        && r == Err(RestoreCheck(old(backups), old(files), checksum, id).error)
        && files == old(files) && dbOpen == old(dbOpen)
      ensures !listFails && RestoreCheck(old(backups), old(files), checksum, id).Ok? && dbPath !in old(files) ==>
        r == Err(RestoreFailed + ioMessage) && files == old(files) && !dbOpen
      ensures !listFails && RestoreCheck(old(backups), old(files), checksum, id).Ok? && dbPath in old(files) ==>
        var b := RestoreCheck(old(backups), old(files), checksum, id).value;
        var aside := PreRestorePath(dbPath, stamp);
        && dbOpen && aside !in files
        && (r.Ok? <==> !copyFails)
        && (copyFails ==> r == Err(RestoreFailed + ioMessage) && files == old(files) - {aside})
        && (!copyFails ==> files == (old(files) - {aside})[dbPath := old(files)[aside := old(files)[dbPath]][b.filePath]])
        && (!copyFails && b.filePath != aside ==> checksum(files[dbPath]) == b.checksum)
    {
      if listFails {
        return Err(ListFailed);
      }
      var found := ById(backups, id);
      if found.None? {
        return Err(BackupNotFound);
      }
      var backup := found.value;
      if backup.filePath !in files {
        return Err(FileNotFound);
      }
      if checksum(files[backup.filePath]) != backup.checksum {
        return Err(IntegrityFailed);
      }
      dbOpen := false;
      var aside := PreRestorePath(dbPath, stamp);
      if dbPath !in files {
        return Err(RestoreFailed + ioMessage);
      }
      r := CopyOver(backup.filePath, aside, copyFails, ioMessage);
    }

    /**
     * The copy step of a restore: the live database is set aside, the backup
     * copied over it (or, when the copy fails, the set-aside copy put back),
     * the connection reopened and the set-aside copy removed.
     */
    method CopyOver(source: string, aside: string, copyFails: bool, ioMessage: string) returns (r: Result<()>)
      requires dbPath in files && source in files && aside != dbPath
      modifies this
      ensures backups == old(backups) && nextId == old(nextId)
      ensures dbOpen && aside !in files && (r.Ok? <==> !copyFails)
      ensures copyFails ==> r == Err(RestoreFailed + ioMessage) && files == old(files) - {aside}
      ensures !copyFails ==> files == (old(files) - {aside})[dbPath := old(files)[aside := old(files)[dbPath]][source]]
    {
      files := files[aside := files[dbPath]];
      if copyFails {
        files := files[dbPath := files[aside]];
        dbOpen := true;
        r := Err(RestoreFailed + ioMessage);
      } else {
        files := files[dbPath := files[source]];
        dbOpen := true;
        r := Ok(());
      }
      if aside in files {
        files := files - {aside};
      }
    }

    /**
     * `deleteBackupMeta`: deletes the rows with that id; when no row
     * changed it reports "Backup metadata not found".
     */
    method DeleteBackupMeta(id: int) returns (r: Result<()>)
      requires Valid()
      modifies this
      ensures Valid() && nextId == old(nextId) && files == old(files) && dbOpen == old(dbOpen)
      ensures backups == Filter(old(backups), NotIn([id]))
      ensures r.Err? <==> forall i :: 0 <= i < |old(backups)| ==> old(backups)[i].id != id
      ensures r.Err? ==> r.error == MetaNotFound && backups == old(backups)
    {
      var remaining := Filter(backups, NotIn([id]));
      var changes := |backups| - |remaining|;
      if forall i :: 0 <= i < |backups| ==> backups[i].id != id {
        FilterAll(backups, NotIn([id]));
      } else {
        var k :| 0 <= k < |backups| && backups[k].id == id;
        FilterShorter(backups, NotIn([id]), k);
      }
      FilterKeepsDistinct(backups, NotIn([id]));
      FilterKeepsBelow(backups, NotIn([id]), nextId);
      backups := remaining;
      if changes == 0 {
        return Err(MetaNotFound);
      }
      r := Ok(());
    }

    /**
     * `deleteBackup`: after the list and the row are found, the row's file
     * goes if present, then its metadata.
     */
    method DeleteBackup(id: int, listFails: bool, unlinkFails: bool, ioMessage: string) returns (r: Result<()>)
      requires Valid()
      modifies this
      ensures Valid() && nextId == old(nextId) && dbOpen == old(dbOpen)
      ensures listFails ==> r == Err(ListFailed) && backups == old(backups) && files == old(files)
      ensures !listFails && ById(old(backups), id).None? ==>
        r == Err(BackupNotFound) && backups == old(backups) && files == old(files)
      ensures !listFails && ById(old(backups), id).Some? ==>
        var b := ById(old(backups), id).value;
        && (b.filePath in old(files) && unlinkFails ==>
              r == Err(DeleteFailed + ioMessage) && backups == old(backups) && files == old(files))
        && (b.filePath !in old(files) || !unlinkFails ==>
              r.Ok? && files == old(files) - {b.filePath} && backups == Filter(old(backups), NotIn([id])))
      ensures !listFails && !unlinkFails ==>
        backups == Filter(old(backups), NotIn([id])) && files == old(files) - PathsOf(old(backups), [id])
    {
      if listFails {
        return Err(ListFailed);
      }
      var found := ById(backups, id);
      if found.None? {
        assert forall i :: 0 <= i < |backups| ==> NotIn([id])(backups[i]);
        FilterAll(backups, NotIn([id]));
        assert PathsOf(backups, [id]) == {};
        return Err(BackupNotFound);
      }
      var backup := found.value;
      OnlyRowWithId(backups, backup);
      ghost var k :| 0 <= k < |backups| && backups[k] == backup;
      assert backups[k].id == id;
      if backup.filePath in files {
        if unlinkFails {
          return Err(DeleteFailed + ioMessage);
        }
        files := files - {backup.filePath};
      } else {
        assert files - {backup.filePath} == files;
      }
      r := DeleteBackupMeta(id);
    }

    /**
     * `cleanupOldBackups`: deletes every backup past the first
     * `maxBackupFiles` of the newest-first list. A negative limit reads
     * `sortedBackups[-1].id`, which throws and is caught, so nothing goes.
     */
    method CleanupOldBackups(maxBackupFiles: int, listFails: bool)
      requires Valid()
      modifies this
      ensures Valid() && nextId == old(nextId) && dbOpen == old(dbOpen)
      ensures listFails || maxBackupFiles < 0 ==> backups == old(backups) && files == old(files)
      ensures !listFails && maxBackupFiles >= 0 ==>
        && backups == Retained(old(backups), maxBackupFiles)
        && files == old(files) - PathsOf(old(backups), EvictedIds(old(backups), maxBackupFiles))
    {
      if listFails {
        return;
      }
      var sortedBackups := BackupList(backups);
      if maxBackupFiles < 0 {
        return;
      }
      DeleteFrom(sortedBackups, Min(maxBackupFiles, |sortedBackups|));
      FilesAfterRemovesPaths(old(files), old(backups), EvictedIds(old(backups), maxBackupFiles));
    }

    /**
     * The loop of `cleanupOldBackups`: `deleteBackup` on each id of the
     * list from position `start` on, with the list read before the loop.
     */
    method DeleteFrom(sorted: seq<BackupMeta>, start: nat)
      requires Valid() && start <= |sorted|
      modifies this
      ensures Valid() && nextId == old(nextId) && dbOpen == old(dbOpen)
      ensures backups == Filter(old(backups), NotIn(Ids(sorted[start..])))
      ensures files == FilesAfter(old(files), old(backups), Ids(sorted[start..]))
    {
      ghost var done: seq<int> := [];
      FilterAll(backups, NotIn([]));
      var i := start;
      while i < |sorted|
        invariant start <= i <= |sorted|
        invariant done == Ids(sorted[start..i])
        invariant Valid() && nextId == old(nextId) && dbOpen == old(dbOpen)
        invariant backups == Filter(old(backups), NotIn(done))
        invariant files == FilesAfter(old(files), old(backups), done)
      {
        var x := sorted[i].id;
        IdsSnoc(sorted, start, i);
        DeleteNext(old(backups), old(files), done, x);
        done := done + [x];
        i := i + 1;
      }
      assert sorted[start..i] == sorted[start..];
    }

    /** One step of the cleanup loop: `deleteBackup` on the next id, with nothing to fail. */
    method DeleteNext(ghost backups0: seq<BackupMeta>, ghost files0: map<string, seq<bv8>>, ghost done: seq<int>, x: int)
      requires Valid() && backups == Filter(backups0, NotIn(done)) && files == FilesAfter(files0, backups0, done)
      modifies this
      ensures Valid() && nextId == old(nextId) && dbOpen == old(dbOpen)
      ensures backups == Filter(backups0, NotIn(done + [x])) && files == FilesAfter(files0, backups0, done + [x])
    {
      NotInSnoc(backups0, done, x);
      FilesAfterSnoc(files0, backups0, done, x);
      var _ := DeleteBackup(x, false, false, "");
    }

    /**
     * One tick of the auto-backup interval: an automatic backup, then, if it
     * was recorded, a cleanup down to the configured number of files.
     */
    method AutoBackupTick<P, M, A, S>(settings: BackupSettings, backupPath: string, backupDate: int,
                                      prayers: DbResult<seq<P>>, members: DbResult<seq<M>>,
                                      announcements: DbResult<seq<A>>, settingsRead: DbResult<S>, ioMessage: string)
      returns (created: Result<BackupMeta>)
      requires Valid()
      modifies this
      ensures Valid() && dbOpen == old(dbOpen)
      ensures created.Err? ==> backups == old(backups) && files == old(files)
      ensures created.Ok? ==> created.value.notes == "Automatic backup" && created.value.id == old(nextId)
      ensures created.Ok? && settings.maxBackupFiles >= 0 ==>
        && backups == Retained(old(backups) + [created.value], settings.maxBackupFiles)
        && |backups| == Min(settings.maxBackupFiles, |old(backups)| + 1)
    {
      created := CreateBackup(backupPath, backupDate, Some("Automatic backup"), prayers, members, announcements, settingsRead,
                              ioMessage);
      if created.Ok? {
        ghost var before := backups;
        CleanupOldBackups(settings.maxBackupFiles, false);
        if settings.maxBackupFiles >= 0 {
          RetainsFirst(before, settings.maxBackupFiles);
        }
      }
    }
  }

  /** The ids of a slice one longer. */
  lemma IdsSnoc(s: seq<BackupMeta>, lo: nat, i: nat)
    requires lo <= i < |s|
    ensures Ids(s[lo..i + 1]) == Ids(s[lo..i]) + [s[i].id]
  {
    assert s[lo..i + 1] == s[lo..i] + [s[i]];
  }

  /** Removing two sets of files one after the other is removing their union. */
  lemma MinusUnion(files: map<string, seq<bv8>>, a: set<string>, b: set<string>)
    ensures files - a - b == files - (a + b)
  {
  }

  /**
   * The files left after `deleteBackup` ran on each id in turn: each call
   * removes the file of the row with its id among the rows still there.
   */
  function FilesAfter(files: map<string, seq<bv8>>, backups: seq<BackupMeta>, ids: seq<int>): map<string, seq<bv8>>
    decreases |ids|
  {
    if ids == [] then files
    else
      var done := ids[..|ids| - 1];
      FilesAfter(files, backups, done) - PathsOf(Filter(backups, NotIn(done)), [ids[|ids| - 1]])
  }

  /** One more deletion removes the file of the row with that id among the rows still there. */
  lemma FilesAfterSnoc(files: map<string, seq<bv8>>, backups: seq<BackupMeta>, done: seq<int>, x: int)
    ensures FilesAfter(files, backups, done + [x]) == FilesAfter(files, backups, done) - PathsOf(Filter(backups, NotIn(done)), [x])
  {
    assert (done + [x])[..|done|] == done;
  }

  /** Deleting one id after another removes exactly the files of all their rows. */
  lemma {:induction false} FilesAfterRemovesPaths(files: map<string, seq<bv8>>, backups: seq<BackupMeta>, ids: seq<int>)
    ensures FilesAfter(files, backups, ids) == files - PathsOf(backups, ids)
    decreases |ids|
  {
    if ids == [] {
      assert PathsOf(backups, []) == {};
      assert files - {} == files;
    } else {
      var done, x := ids[..|ids| - 1], ids[|ids| - 1];
      assert ids == done + [x];
      FilesAfterRemovesPaths(files, backups, done);
      PathsSnoc(backups, done, x);
      MinusUnion(files, PathsOf(backups, done), PathsOf(Filter(backups, NotIn(done)), [x]));
    }
  }

  /** With distinct ids, the row with a row's id is that row. */
  lemma OnlyRowWithId(backups: seq<BackupMeta>, b: BackupMeta)
    requires DistinctIds(backups) && b in backups
    ensures PathsOf(backups, [b.id]) == {b.filePath}
    ensures forall x :: x in backups && x.id == b.id ==> x == b
  {
  }
}

=== FILE: clock.dfy ===
/**
 * Wall-clock arithmetic shared by the next-prayer views.
 *
 * Times of day are minutes after local midnight (the `HH:mm` strings of a
 * prayer record) and "now" is milliseconds after local midnight of today.
 * The `HH:mm` text, the lexicographic string comparison the views apply to
 * it, and the `Xh Ym` / `HH:MM:SS` renderings of a millisecond delta are
 * modelled exactly.
 */
module Clock {
  import opened Wrappers

  const MsPerSecond: int := 1000
  const MsPerMinute: int := 60000
  const MsPerHour: int := 3600000
  const MsPerDay: int := 86400000

  /** A minute of the day, 00:00 .. 23:59. */
  type Minute = m: int | 0 <= m < 1440

  /** A named prayer and the minute its `HH:mm` text denotes. */
  datatype NamedTime = NamedTime(name: string, time: Minute)

  /** Milliseconds after local midnight of today. */
  type Instant = t: int | 0 <= t < 86400000

  /** The instant today at which minute `m` begins (`setHours(h, m, 0, 0)`). */
  function AtMinute(m: Minute): int {
    m * MsPerMinute
  }

  /** The minute shown by `format(now, 'HH:mm')` or `toTimeString().slice(0, 5)`. */
  function MinuteOf(now: Instant): (m: Minute)
    ensures AtMinute(m) <= now < AtMinute(m) + MsPerMinute
  {
    now / MsPerMinute
  }

  /**
   * The view's string test `time > format(now, 'HH:mm')` holds exactly when
   * the time's minute begins after now.
   */
  lemma TextAfterIffLater(t: Minute, now: Instant)
    ensures LexLess(FormatHHMM(MinuteOf(now)), FormatHHMM(t)) <==> AtMinute(t) > now
  {
    FormatOrder(MinuteOf(now), t);
  }

  function Digit(d: int): char
    requires 0 <= d < 10
  {
    ('0' as int + d) as char
  }

  /** `n.toString()` for a non-negative integer. */
  function NatToString(n: nat): (s: string)
    ensures |s| >= 1
  {
    if n < 10 then [Digit(n)] else NatToString(n / 10) + [Digit(n % 10)]
  }

  /** The number a string of decimal digits spells, most significant digit first. */
  function DecimalValue(s: string): int {
    if s == [] then 0 else 10 * DecimalValue(s[..|s| - 1]) + DigitValue(s[|s| - 1])
  }

  /**
   * `n.toString()` reads back as `n`: it is all digits and, unless it is
   * "0", has no leading zero.
   */
  lemma {:induction false} NatToStringValue(n: nat)
    ensures var s := NatToString(n);
      && (forall i :: 0 <= i < |s| ==> IsDigit(s[i]))
      && DecimalValue(s) == n
      && (|s| > 1 ==> s[0] != '0')
  {
    if n >= 10 {
      NatToStringValue(n / 10);
      var s := NatToString(n);
      assert s[..|s| - 1] == NatToString(n / 10);
    }
  }

  /** `n.toString().padStart(2, '0')`. */
  function Pad2(n: nat): (s: string)
    ensures n < 100 ==> |s| == 2
  {
    if n < 100 then [Digit(n / 10), Digit(n % 10)] else NatToString(n)
  }

  /**
   * The padded text reads back as `n`, is all digits, and below 100 is
   * exactly two characters, a leading zero filling in for a one-digit `n`.
   */
  lemma Pad2Value(n: nat)
    ensures var s := Pad2(n);
      && (forall i :: 0 <= i < |s| ==> IsDigit(s[i]))
      && DecimalValue(s) == n
      && (n < 100 ==> |s| == 2 && (n < 10 <==> s[0] == '0'))
  {
    if n < 100 {
      var s := Pad2(n);
      assert s[..1] == [Digit(n / 10)] && s[..1][..0] == [];
      assert DecimalValue(s[..1]) == n / 10;
    } else {
      NatToStringValue(n);
    }
  }

  /** `format(t, 'HH:mm')`. */
  function FormatHHMM(m: Minute): (s: string)
    ensures |s| == 5 && s[2] == ':'
  {
    Pad2(m / 60) + ":" + Pad2(m % 60)
  }

  /** JavaScript's `a < b` on strings: code-unit lexicographic order. */
  predicate LexLess(a: string, b: string)
    decreases |a|
  {
    if |a| == 0 then |b| > 0
    else if |b| == 0 then false
    else if a[0] != b[0] then a[0] < b[0]
    else LexLess(a[1..], b[1..])
  }

  function DigitValue(c: char): int {
    c as int - '0' as int
  }

  predicate IsDigit(c: char) {
    '0' <= c <= '9'
  }

  /**
   * `s.split(':').map(Number)` for a string of the shape `DD:DD`; other
   * shapes (which give NaN in the source) are not modelled and yield None.
   */
  function ParseHHMM(s: string): (r: Option<(int, int)>)
    ensures r.Some? ==> 0 <= r.value.0 < 100 && 0 <= r.value.1 < 100
  {
    if |s| == 5 && s[2] == ':' && IsDigit(s[0]) && IsDigit(s[1]) && IsDigit(s[3]) && IsDigit(s[4])
    then Some((10 * DigitValue(s[0]) + DigitValue(s[1]), 10 * DigitValue(s[3]) + DigitValue(s[4])))
    else None
  }

  /** Parsing the text of a minute gives back its hour and minute. */
  lemma ParseFormat(m: Minute)
    ensures ParseHHMM(FormatHHMM(m)) == Some((m / 60, m % 60))
  {
    var s := FormatHHMM(m);
    assert s == [Digit(m / 60 / 10), Digit(m / 60 % 10), ':', Digit(m % 60 / 10), Digit(m % 60 % 10)];
  }

  /** The hour and minute read back from an `HH:mm` string, as a minute of the day. */
  function ParseMinute(s: string): (r: Option<int>)
    ensures forall m: Minute :: s == FormatHHMM(m) ==> r == Some(m)
  {
    match ParseHHMM(s)
    case Some((h, mm)) =>
      assert forall m: Minute :: s == FormatHHMM(m) ==> h == m / 60 && mm == m % 60 by {
        forall m: Minute | s == FormatHHMM(m)
          ensures h == m / 60 && mm == m % 60
        {
          ParseFormat(m);
        }
      }
      Some(h * 60 + mm)
    case None =>
      assert forall m: Minute :: s != FormatHHMM(m) by {
        forall m: Minute
          ensures s != FormatHHMM(m)
        {
          ParseFormat(m);
        }
      }
      None
  }

  lemma DigitOrder(x: int, y: int)
    requires 0 <= x < 10 && 0 <= y < 10
    ensures Digit(x) < Digit(y) <==> x < y
    ensures Digit(x) == Digit(y) <==> x == y
  {
  }

  /** String order on two `??:??` texts compares the four characters around the colon in turn. */
  lemma LexLessClock(c0: char, c1: char, c2: char, c3: char, e0: char, e1: char, e2: char, e3: char)
    ensures LexLess([c0, c1, ':', c2, c3], [e0, e1, ':', e2, e3]) <==>
      c0 < e0 || (c0 == e0 && (c1 < e1 || (c1 == e1 && (c2 < e2 || (c2 == e2 && c3 < e3)))))
  {
    var a, b := [c0, c1, ':', c2, c3], [e0, e1, ':', e2, e3];
    assert a[1..] == [c1, ':', c2, c3] && b[1..] == [e1, ':', e2, e3];
    assert a[2..] == [':', c2, c3] && b[2..] == [':', e2, e3];
    assert a[3..] == [c2, c3] && b[3..] == [e2, e3];
    assert a[4..] == [c3] && b[4..] == [e3];
    assert LexLess(a[4..], b[4..]) == (c3 < e3) by {
      assert a[4..][1..] == [] && b[4..][1..] == [];
    }
    assert LexLess(a[3..], b[3..]) == if c2 != e2 then c2 < e2 else LexLess(a[4..], b[4..]);
    assert LexLess(a[2..], b[2..]) == LexLess(a[3..], b[3..]);
    assert LexLess(a[1..], b[1..]) == if c1 != e1 then c1 < e1 else LexLess(a[2..], b[2..]);
    assert LexLess(a, b) == if c0 != e0 then c0 < e0 else LexLess(a[1..], b[1..]);
  }

  /** The four digits of a minute's `HH:mm` text, and the minute they spell. */
  lemma FormatDigits(x: Minute) returns (d0: int, d1: int, d2: int, d3: int)
    ensures 0 <= d0 < 3 && 0 <= d1 < 10 && 0 <= d2 < 6 && 0 <= d3 < 10
    ensures FormatHHMM(x) == [Digit(d0), Digit(d1), ':', Digit(d2), Digit(d3)]
    ensures x == 600 * d0 + 60 * d1 + 10 * d2 + d3
  {
    var h, m := x / 60, x % 60;
    d0, d1, d2, d3 := h / 10, h % 10, m / 10, m % 10;
    assert x == 60 * h + m;
    assert h == 10 * d0 + d1;
    assert m == 10 * d2 + d3;
  }

  /**
   * For zero-padded `HH:mm` strings, the string order the views use is the
   * order of the times of day.
   */
  lemma {:induction false} FormatOrder(x: Minute, y: Minute)
    ensures LexLess(FormatHHMM(x), FormatHHMM(y)) <==> x < y
  {
    var a0, a1, a2, a3 := FormatDigits(x);
    var b0, b1, b2, b3 := FormatDigits(y);
    DigitOrder(a0, b0);
    DigitOrder(a1, b1);
    DigitOrder(a2, b2);
    DigitOrder(a3, b3);
    LexLessClock(Digit(a0), Digit(a1), Digit(a2), Digit(a3), Digit(b0), Digit(b1), Digit(b2), Digit(b3));
  }

  /**
   * Whole hours and the remaining whole minutes of a non-negative delta:
   * `Math.floor(d / 3600000)` and `Math.floor((d % 3600000) / 60000)`.
   */
  function SplitHM(d: nat): (r: (nat, nat))
    ensures r.1 < 60
    ensures r.0 * MsPerHour + r.1 * MsPerMinute <= d < r.0 * MsPerHour + (r.1 + 1) * MsPerMinute
  {
    (d / MsPerHour, (d % MsPerHour) / MsPerMinute)
  }

  /** `${h}h ${m}m`. */
  function DurationText(h: nat, m: nat): string {
    NatToString(h) + "h " + NatToString(m) + "m"
  }

  /**
   * Whole hours, minutes and seconds of a non-negative delta, the fields of
   * the `HH:MM:SS` countdown.
   */
  function SplitHMS(d: nat): (r: (nat, nat, nat))
    ensures r.1 < 60 && r.2 < 60
    ensures r.0 * MsPerHour + r.1 * MsPerMinute + r.2 * MsPerSecond <= d
    ensures d < r.0 * MsPerHour + r.1 * MsPerMinute + (r.2 + 1) * MsPerSecond
  {
    var h, rest := d / MsPerHour, d % MsPerHour;
    var m, sub := rest / MsPerMinute, rest % MsPerMinute;
    assert d == h * MsPerHour + rest && rest == m * MsPerMinute + sub;
    assert d == (h * 60 + m) * MsPerMinute + sub;
    MinuteRemainder(d, h * 60 + m, sub);
    (h, m, (d % MsPerMinute) / MsPerSecond)
  }

  lemma MinuteRemainder(d: nat, q: nat, r: nat)
    requires r < MsPerMinute && d == q * MsPerMinute + r
    ensures d % MsPerMinute == r
  {
  }

  /** The `HH:MM:SS` text, each field `padStart(2, '0')`. */
  function ClockText(h: nat, m: nat, s: nat): (t: string)
    ensures h < 100 && m < 100 && s < 100 ==> |t| == 8 && t[2] == ':' && t[5] == ':'
  {
    Pad2(h) + ":" + Pad2(m) + ":" + Pad2(s)
  }

  /**
   * Each two-character field of the `HH:MM:SS` text is the zero-padded
   * field and reads back as the hours, minutes and seconds given.
   */
  lemma ClockTextFields(h: nat, m: nat, s: nat)
    requires h < 100 && m < 100 && s < 100
    ensures var t := ClockText(h, m, s);
      && t[0..2] == Pad2(h) && t[3..5] == Pad2(m) && t[6..8] == Pad2(s)
      && DecimalValue(t[0..2]) == h && DecimalValue(t[3..5]) == m && DecimalValue(t[6..8]) == s
  {
    var t := ClockText(h, m, s);
    assert t == Pad2(h) + [':'] + Pad2(m) + [':'] + Pad2(s);
    Pad2Value(h);
    Pad2Value(m);
    Pad2Value(s);
  }

  /**
   * Both renderings of a delta agree on hours and minutes: the `HH:MM:SS`
   * fields and the `Xh Ym` fields come from the same millisecond value.
   */
  lemma HMSAgreesWithHM(d: nat)
    ensures SplitHMS(d).0 == SplitHM(d).0 && SplitHMS(d).1 == SplitHM(d).1
  {
  }
}

=== FILE: db.dfy ===
/**
 * The main process's database manager, over an abstraction of its tables:
 * the migration runner, the partial-update clause builders and the
 * prayer-time and settings rows. SQL text is not parsed: an `UPDATE … SET`
 * clause is a list of assignments, and running it is `Apply`.
 */
module Db {
  import opened Wrappers
  import opened Seqs
  import opened Entities

  // ---------------------------------------------------------------- migrations

  /** A schema migration, identified by its version; its script is not modelled. */
  datatype Migration = Migration(version: string)

  /** The migration list, in order. */
  const Migrations: seq<Migration> := [Migration("001_initial_schema"), Migration("002_default_settings")]

  function Versions(ms: seq<Migration>): (r: seq<string>)
    ensures |r| == |ms|
    ensures forall i :: 0 <= i < |ms| ==> r[i] == ms[i].version
  {
    seq(|ms|, i requires 0 <= i < |ms| => ms[i].version)
  }

  predicate NoDuplicates(s: seq<string>) {
    forall i, j :: 0 <= i < j < |s| ==> s[i] != s[j]
  }

  /**
   * The migrations a run applies, in list order, when `applied` are the
   * versions already recorded: each one whose version is not recorded yet,
   * recording it before the next is looked up.
   */
  function Pending(applied: seq<string>, migrations: seq<Migration>): (r: seq<Migration>)
    ensures |r| <= |migrations|
    ensures forall i :: 0 <= i < |r| ==> r[i].version !in applied
    decreases |migrations|
  {
    if migrations == [] then []
    else if migrations[0].version in applied then Pending(applied, migrations[1..])
    else [migrations[0]] + Pending(applied + [migrations[0].version], migrations[1..])
  }

  /** One step of a run: the next migration is applied exactly when its version is not recorded. */
  lemma PendingStep(applied: seq<string>, migrations: seq<Migration>, i: nat)
    requires i < |migrations|
    ensures migrations[i].version in applied ==>
      Versions(Pending(applied, migrations[i..])) == Versions(Pending(applied, migrations[i + 1..]))
    ensures migrations[i].version !in applied ==>
      Versions(Pending(applied, migrations[i..])) ==
        [migrations[i].version] + Versions(Pending(applied + [migrations[i].version], migrations[i + 1..]))
  {
    assert migrations[i..][0] == migrations[i] && migrations[i..][1..] == migrations[i + 1..];
  }

  lemma VersionsCons(m: Migration, ms: seq<Migration>)
    ensures Versions([m] + ms) == [m.version] + Versions(ms)
  {
    assert forall i :: 1 <= i <= |ms| ==> ([m] + ms)[i] == ms[i - 1];
  }

  /** Recording a version not yet recorded keeps the versions distinct. */
  lemma NoDuplicatesSnoc(s: seq<string>, x: string)
    requires NoDuplicates(s) && x !in s
    ensures NoDuplicates(s + [x])
  {
    forall i, j | 0 <= i < j < |s| + 1
      ensures (s + [x])[i] != (s + [x])[j]
    {
      if j == |s| {
        assert s[i] in s;
      }
    }
  }

  /** What is recorded after the rest of a run does not change when the next migration is looked up. */
  lemma RunStep(applied: seq<string>, migrations: seq<Migration>, i: nat)
    requires i < |migrations|
    ensures var v := migrations[i].version;
      var next := if v in applied then applied else applied + [v];
      next + Versions(Pending(next, migrations[i + 1..])) == applied + Versions(Pending(applied, migrations[i..]))
  {
    var v := migrations[i].version;
    PendingStep(applied, migrations, i);
    if v !in applied {
      var rest := Versions(Pending(applied + [v], migrations[i + 1..]));
      assert applied + ([v] + rest) == (applied + [v]) + rest;
    }
  }

  /** A run keeps the recorded versions free of duplicates: no migration is applied twice. */
  lemma {:induction false} PendingKeepsDistinct(applied: seq<string>, migrations: seq<Migration>)
    requires NoDuplicates(applied)
    ensures NoDuplicates(applied + Versions(Pending(applied, migrations)))
    decreases |migrations|
  {
    if migrations != [] {
      var m := migrations[0];
      if m.version in applied {
        PendingKeepsDistinct(applied, migrations[1..]);
      } else {
        var next := applied + [m.version];
        NoDuplicatesSnoc(applied, m.version);
        PendingKeepsDistinct(next, migrations[1..]);
        VersionsCons(m, Pending(next, migrations[1..]));
        assert applied + ([m.version] + Versions(Pending(next, migrations[1..])))
          == next + Versions(Pending(next, migrations[1..]));
      }
    }
  }

  /** After a run every listed version is recorded. */
  lemma {:induction false} PendingCovers(applied: seq<string>, migrations: seq<Migration>)
    ensures forall i :: 0 <= i < |migrations| ==> migrations[i].version in applied + Versions(Pending(applied, migrations))
    decreases |migrations|
  {
    if migrations != [] {
      var m, rest := migrations[0], migrations[1..];
      var after := applied + Versions(Pending(applied, migrations));
      var next := if m.version in applied then applied else applied + [m.version];
      PendingCovers(next, rest);
      if m.version !in applied {
        VersionsCons(m, Pending(next, rest));
        assert applied + ([m.version] + Versions(Pending(next, rest))) == next + Versions(Pending(next, rest));
      }
      assert after == next + Versions(Pending(next, rest));
      assert m.version in next;
      forall i | 1 <= i < |migrations|
        ensures migrations[i].version in after
      {
        assert migrations[i] == rest[i - 1];
      }
    }
  }

  /** With every listed version recorded, a run applies nothing. */
  lemma {:induction false} NothingPendingWhenRecorded(applied: seq<string>, migrations: seq<Migration>)
    requires forall i :: 0 <= i < |migrations| ==> migrations[i].version in applied
    ensures Pending(applied, migrations) == []
    decreases |migrations|
  {
    if migrations != [] {
      var rest := migrations[1..];
      forall i | 0 <= i < |rest|
        ensures rest[i].version in applied
      {
        assert rest[i] == migrations[i + 1];
      }
      NothingPendingWhenRecorded(applied, rest);
    }
  }

  /** A second run right after a first applies nothing. */
  lemma SecondRunAppliesNothing(applied: seq<string>, migrations: seq<Migration>)
    ensures Pending(applied + Versions(Pending(applied, migrations)), migrations) == []
  {
    PendingCovers(applied, migrations);
    NothingPendingWhenRecorded(applied + Versions(Pending(applied, migrations)), migrations);
  }

  /** The `migrations` table: the versions recorded so far, in the order they were applied. */
  class MigrationTable {
    var applied: seq<string>

    constructor ()
      ensures applied == []
    {
      applied := [];
    }

    /**
     * `runMigrations`: each migration whose version is not recorded has its
     * script run and its version recorded; the others are skipped.
     */
    method RunMigrations(migrations: seq<Migration>)
      modifies this
      ensures applied == old(applied) + Versions(Pending(old(applied), migrations))
    {
      var i := 0;
      while i < |migrations|
        invariant 0 <= i <= |migrations|
        invariant applied + Versions(Pending(applied, migrations[i..])) == old(applied) + Versions(Pending(old(applied), migrations))
      {
        var migration := migrations[i];
        RunStep(applied, migrations, i);
        if migration.version !in applied {
          applied := applied + [migration.version];
        }
        i := i + 1;
      }
    }
  }

  // ------------------------------------------------------ update clause builder

  /** The columns the update builders assign. */
  datatype Column =
    | DateCol | FajrCol | SunriseCol | DhuhrCol | AsrCol | MaghribCol | IshaCol | LocationCol | HijriDateCol
    | MasjidNameCol | SettingsLocationCol | PrayerSettingsCol | DisplaySettingsCol | NotificationSettingsCol
    | BackupSettingsCol | UpdatedAtCol

  datatype SqlValue = Int(i: int) | Text(s: string)

  /** One entry of a `SET` list: `col = ?`, or `col = CURRENT_TIMESTAMP`. */
  datatype Assignment = SetParam(column: Column) | SetNow(column: Column)

  /** The number of `?` placeholders in a `SET` list. */
  function Params(updates: seq<Assignment>): nat {
    if updates == [] then 0 else Params(updates[..|updates| - 1]) + (if updates[|updates| - 1].SetParam? then 1 else 0)
  }

  /**
   * Running a `SET` list on a row: the `?` placeholders take the bound
   * values in order (paired here from the end, which is the same pairing
   * when the counts agree), each through `assign`; the timestamp column is
   * not part of the model.
   */
  function Apply<R>(row: R, assign: (R, Column, SqlValue) -> R, updates: seq<Assignment>, values: seq<SqlValue>): R
    decreases |updates|
  {
    if updates == [] then row
    else match updates[|updates| - 1]
      case SetNow(_) => Apply(row, assign, updates[..|updates| - 1], values)
      case SetParam(c) =>
        if values == [] then row
        else assign(Apply(row, assign, updates[..|updates| - 1], values[..|values| - 1]), c, values[|values| - 1])
  }

  /** The assignments and the bound values that one field adds: none when it is undefined. */
  function Pushed(c: Column, field: Option<SqlValue>): (r: (seq<Assignment>, seq<SqlValue>))
    ensures Params(r.0) == |r.1|
  {
    if field.Some? then ([SetParam(c)], [field.value]) else ([], [])
  }

  /** A row with one column set from a field when the field is defined. */
  function Assigned<R>(assign: (R, Column, SqlValue) -> R, row: R, c: Column, field: Option<SqlValue>): R {
    if field.Some? then assign(row, c, field.value) else row
  }

  /** Running a `SET` list that ends in a defined field's `col = ?` is running the rest, then setting that column. */
  lemma ApplyPushed<R>(row: R, assign: (R, Column, SqlValue) -> R, updates: seq<Assignment>, values: seq<SqlValue>,
                       c: Column, field: Option<SqlValue>)
    ensures Apply(row, assign, updates + Pushed(c, field).0, values + Pushed(c, field).1) ==
      Assigned(assign, Apply(row, assign, updates, values), c, field)
  {
    if field.Some? {
      var u, v := updates + [SetParam(c)], values + [field.value];
      assert u[..|u| - 1] == updates && v[..|v| - 1] == values;
    } else {
      assert updates + [] == updates && values + [] == values;
    }
  }

  /** A `SET` list with one more entry for a field, and its count of placeholders. */
  lemma ParamsPushed(updates: seq<Assignment>, c: Column, field: Option<SqlValue>)
    ensures Params(updates + Pushed(c, field).0) == Params(updates) + |Pushed(c, field).1|
  {
    if field.Some? {
      var u := updates + [SetParam(c)];
      assert u[..|u| - 1] == updates;
    } else {
      assert updates + [] == updates;
    }
  }

  /** `updated_at = CURRENT_TIMESTAMP` binds no value and sets no modelled column. */
  lemma AppendNow<R>(row: R, assign: (R, Column, SqlValue) -> R, updates: seq<Assignment>, values: seq<SqlValue>, c: Column)
    ensures Apply(row, assign, updates + [SetNow(c)], values) == Apply(row, assign, updates, values)
  {
    assert (updates + [SetNow(c)])[..|updates|] == updates;
  }

  /** ... and leaves the count of placeholders as it was. */
  lemma ParamsNow(updates: seq<Assignment>, c: Column)
    ensures Params(updates + [SetNow(c)]) == Params(updates)
  {
    assert (updates + [SetNow(c)])[..|updates|] == updates;
  }

  /**
   * `if (field !== undefined) { updates.push('col = ?'); values.push(field); }`:
   * a defined field becomes the last assignment, and its value the last bound value.
   */
  method PushIfDefined(updates: seq<Assignment>, values: seq<SqlValue>, c: Column, field: Option<SqlValue>)
    returns (updates': seq<Assignment>, values': seq<SqlValue>)
    requires Params(updates) == |values|
    ensures Params(updates') == |values'|
    ensures updates' == updates + Pushed(c, field).0 && values' == values + Pushed(c, field).1
  {
    ParamsPushed(updates, c, field);
    updates', values' := updates, values;
    if field.Some? {
      updates' := updates + [SetParam(c)];
      values' := values + [field.value];
    } else {
      assert updates + [] == updates && values + [] == values;
    }
  }

  /** A stored prayer-time row's column, set from a bound value of the column's kind. */
  function AssignPrayer(row: PrayerTime, c: Column, v: SqlValue): PrayerTime {
    match c
    case DateCol => if v.Int? then row.(date := v.i) else row
    case FajrCol => if v.Text? then row.(fajr := v.s) else row
    case SunriseCol => if v.Text? then row.(sunrise := v.s) else row
    case DhuhrCol => if v.Text? then row.(dhuhr := v.s) else row
    case AsrCol => if v.Text? then row.(asr := v.s) else row
    case MaghribCol => if v.Text? then row.(maghrib := v.s) else row
    case IshaCol => if v.Text? then row.(isha := v.s) else row
    case LocationCol => if v.Text? then row.(location := v.s) else row
    case HijriDateCol => if v.Text? then row.(hijriDate := Some(v.s)) else row
    case _ => row
  }

  function TextOf(s: Option<string>): Option<SqlValue> {
    if s.Some? then Some(Text(s.value)) else None
  }

  /** The first four columns: date and the two morning times, then dhuhr. */
  lemma PrayerFrontColumns(row: PrayerTime, patch: PrayerTimePatch)
    ensures
      var date := if patch.date.Some? then Some(Int(patch.date.value)) else None;
      Assigned(AssignPrayer, Assigned(AssignPrayer, Assigned(AssignPrayer, Assigned(AssignPrayer, row,
        DateCol, date), FajrCol, TextOf(patch.fajr)), SunriseCol, TextOf(patch.sunrise)), DhuhrCol, TextOf(patch.dhuhr))
      == row.(date := patch.date.GetOr(row.date), fajr := patch.fajr.GetOr(row.fajr),
              sunrise := patch.sunrise.GetOr(row.sunrise), dhuhr := patch.dhuhr.GetOr(row.dhuhr))
  {
    var date := if patch.date.Some? then Some(Int(patch.date.value)) else None;
    var r1 := Assigned(AssignPrayer, row, DateCol, date);
    assert r1 == row.(date := patch.date.GetOr(row.date));
    var r2 := Assigned(AssignPrayer, r1, FajrCol, TextOf(patch.fajr));
    assert r2 == r1.(fajr := patch.fajr.GetOr(row.fajr));
    var r3 := Assigned(AssignPrayer, r2, SunriseCol, TextOf(patch.sunrise));
    assert r3 == r2.(sunrise := patch.sunrise.GetOr(row.sunrise));
  }

  /** The last five columns: the afternoon and evening times, the location and the Hijri date. */
  lemma PrayerBackColumns(row: PrayerTime, patch: PrayerTimePatch)
    ensures
      Assigned(AssignPrayer, Assigned(AssignPrayer, Assigned(AssignPrayer, Assigned(AssignPrayer,
        Assigned(AssignPrayer, row,
          AsrCol, TextOf(patch.asr)), MaghribCol, TextOf(patch.maghrib)),
          IshaCol, TextOf(patch.isha)), LocationCol, TextOf(patch.location)), HijriDateCol, TextOf(patch.hijriDate))
      == row.(asr := patch.asr.GetOr(row.asr), maghrib := patch.maghrib.GetOr(row.maghrib),
              isha := patch.isha.GetOr(row.isha), location := patch.location.GetOr(row.location),
              hijriDate := if patch.hijriDate.Some? then patch.hijriDate else row.hijriDate)
  {
    var r1 := Assigned(AssignPrayer, row, AsrCol, TextOf(patch.asr));
    assert r1 == row.(asr := patch.asr.GetOr(row.asr));
    var r2 := Assigned(AssignPrayer, r1, MaghribCol, TextOf(patch.maghrib));
    assert r2 == r1.(maghrib := patch.maghrib.GetOr(row.maghrib));
    var r3 := Assigned(AssignPrayer, r2, IshaCol, TextOf(patch.isha));
    assert r3 == r2.(isha := patch.isha.GetOr(row.isha));
  }

  /** Setting the nine columns one after another from the patch's fields is merging the patch. */
  lemma PrayerColumnsMerge(row: PrayerTime, patch: PrayerTimePatch)
    ensures
      var date := if patch.date.Some? then Some(Int(patch.date.value)) else None;
      Assigned(AssignPrayer, Assigned(AssignPrayer, Assigned(AssignPrayer, Assigned(AssignPrayer,
        Assigned(AssignPrayer, Assigned(AssignPrayer, Assigned(AssignPrayer, Assigned(AssignPrayer,
        Assigned(AssignPrayer, row,
          DateCol, date), FajrCol, TextOf(patch.fajr)), SunriseCol, TextOf(patch.sunrise)),
          DhuhrCol, TextOf(patch.dhuhr)), AsrCol, TextOf(patch.asr)), MaghribCol, TextOf(patch.maghrib)),
          IshaCol, TextOf(patch.isha)), LocationCol, TextOf(patch.location)), HijriDateCol, TextOf(patch.hijriDate))
      == MergePatch(row, patch)
  {
    var date := if patch.date.Some? then Some(Int(patch.date.value)) else None;
    var r4 := Assigned(AssignPrayer, Assigned(AssignPrayer, Assigned(AssignPrayer, Assigned(AssignPrayer, row,
      DateCol, date), FajrCol, TextOf(patch.fajr)), SunriseCol, TextOf(patch.sunrise)), DhuhrCol, TextOf(patch.dhuhr));
    PrayerFrontColumns(row, patch);
    PrayerBackColumns(r4, patch);
  }

  /**
   * The clause builder of `updatePrayerTime`: one `col = ?` per defined
   * field, in column order, then `updated_at = CURRENT_TIMESTAMP`; the bound
   * values are the defined fields in the same order, then the id. Every `?`
   * has its value, and running the clause on any row is merging the patch
   * into it.
   */
  method BuildPrayerTimeUpdate(id: int, patch: PrayerTimePatch) returns (updates: seq<Assignment>, values: seq<SqlValue>)
    ensures |values| >= 1 && values[|values| - 1] == Int(id)
    ensures |updates| >= 1 && updates[|updates| - 1] == SetNow(UpdatedAtCol)
    ensures Params(updates) + 1 == |values|
    ensures forall row :: Apply(row, AssignPrayer, updates, values[..|values| - 1]) == MergePatch(row, patch)
  {
    var date := if patch.date.Some? then Some(Int(patch.date.value)) else None;
    updates, values := PushIfDefined([], [], DateCol, date);
    var u1, v1 := updates, values;
    updates, values := PushIfDefined(updates, values, FajrCol, TextOf(patch.fajr));
    var u2, v2 := updates, values;
    updates, values := PushIfDefined(updates, values, SunriseCol, TextOf(patch.sunrise));
    var u3, v3 := updates, values;
    updates, values := PushIfDefined(updates, values, DhuhrCol, TextOf(patch.dhuhr));
    var u4, v4 := updates, values;
    updates, values := PushIfDefined(updates, values, AsrCol, TextOf(patch.asr));
    var u5, v5 := updates, values;
    updates, values := PushIfDefined(updates, values, MaghribCol, TextOf(patch.maghrib));
    var u6, v6 := updates, values;
    updates, values := PushIfDefined(updates, values, IshaCol, TextOf(patch.isha));
    var u7, v7 := updates, values;
    updates, values := PushIfDefined(updates, values, LocationCol, TextOf(patch.location));
    var u8, v8 := updates, values;
    updates, values := PushIfDefined(updates, values, HijriDateCol, TextOf(patch.hijriDate));
    var fields := values;
    forall row
      ensures Apply(row, AssignPrayer, updates + [SetNow(UpdatedAtCol)], fields) == MergePatch(row, patch)
    {
      AppendNow(row, AssignPrayer, updates, fields, UpdatedAtCol);
      ApplyPushed(row, AssignPrayer, [], [], DateCol, date);
      ApplyPushed(row, AssignPrayer, u1, v1, FajrCol, TextOf(patch.fajr));
      ApplyPushed(row, AssignPrayer, u2, v2, SunriseCol, TextOf(patch.sunrise));
      ApplyPushed(row, AssignPrayer, u3, v3, DhuhrCol, TextOf(patch.dhuhr));
      ApplyPushed(row, AssignPrayer, u4, v4, AsrCol, TextOf(patch.asr));
      ApplyPushed(row, AssignPrayer, u5, v5, MaghribCol, TextOf(patch.maghrib));
      ApplyPushed(row, AssignPrayer, u6, v6, IshaCol, TextOf(patch.isha));
      ApplyPushed(row, AssignPrayer, u7, v7, LocationCol, TextOf(patch.location));
      ApplyPushed(row, AssignPrayer, u8, v8, HijriDateCol, TextOf(patch.hijriDate));
      PrayerColumnsMerge(row, patch);
    }
    ParamsNow(updates, UpdatedAtCol);
    updates := updates + [SetNow(UpdatedAtCol)];
    values := values + [Int(id)];
    assert values[..|values| - 1] == fields;
  }

  // ---------------------------------------------------------------- prayer_times

  const PrayerTimeNotFound: string := "Prayer time not found"
  /** SQLite's message for a second row with the same date and location. */
  const UniqueViolation: string := "UNIQUE constraint failed: prayer_times.date, prayer_times.location"

  /** Two rows with the same `(date, location)`, which `UNIQUE(date, location)` forbids. */
  predicate SameSlot(a: PrayerTime, b: PrayerTime) {
    a.date == b.date && a.location == b.location
  }

  /** `ORDER BY date DESC`, as an ascending key. */
  function DateDescending(pt: PrayerTime): int {
    -pt.date
  }

  /** Every row has a distinct id below the next one, and no two rows share a date and location. */
  predicate ValidRows(rows: seq<PrayerTime>, nextId: int) {
    && (forall i :: 0 <= i < |rows| ==> rows[i].id.Some? && rows[i].id.value < nextId)
    && (forall i, j :: 0 <= i < j < |rows| ==> rows[i].id != rows[j].id)
    && (forall i, j :: 0 <= i < j < |rows| ==> !SameSlot(rows[i], rows[j]))
  }

  /** The `prayer_times` table: its rows and the next `AUTOINCREMENT` id. */
  class PrayerTable {
    var rows: seq<PrayerTime>
    var nextId: int

    predicate Valid()
      reads this
    {
      ValidRows(rows, nextId)
    }

    constructor ()
      ensures Valid() && rows == [] && nextId == 1
    {
      rows := [];
      nextId := 1;
    }

    /**
     * `getPrayerTimes(date?)`: the rows with that date, or all rows without
     * one, newest date first.
     */
    method Get(date: Option<int>) returns (r: seq<PrayerTime>)
      ensures forall x :: x in r <==> x in rows && (date.None? || x.date == date.value)
      ensures multiset(r) == multiset(Filter(rows, (x: PrayerTime) => date.None? || x.date == date.value))
      ensures forall i, j :: 0 <= i < j < |r| ==> r[i].date >= r[j].date
    {
      var matching := Filter(rows, (x: PrayerTime) => date.None? || x.date == date.value);
      r := SortBy(matching, DateDescending);
      SortBySorted(matching, DateDescending);
      SortByMembers(matching, DateDescending);
    }

    /**
     * `addPrayerTime`: a row with a fresh id, unless one with the same date
     * and location exists, in which case nothing is stored.
     */
    method Add(pt: PrayerTime) returns (r: Result<PrayerTime>)
      requires Valid()
      modifies this
      ensures Valid()
      ensures r.Err? <==> exists i :: 0 <= i < |old(rows)| && SameSlot(old(rows)[i], pt)
      ensures r.Err? ==> r.error == UniqueViolation && rows == old(rows) && nextId == old(nextId)
      ensures r.Ok? ==>
        && r.value == pt.(id := Some(old(nextId)))
        && rows == old(rows) + [r.value] && nextId == old(nextId) + 1
    {
      var clash := Find(rows, (x: PrayerTime) => SameSlot(x, pt));
      if clash.Some? {
        return Err(UniqueViolation);
      }
      var row := pt.(id := Some(nextId));
      rows := rows + [row];
      nextId := nextId + 1;
      r := Ok(row);
    }

    /**
     * `updatePrayerTime`: the clause runs on the row with that id; no such
     * row reports not found, and a result clashing with another row's date
     * and location is refused. Either failure leaves the table as it was.
     */
    method Update(id: int, patch: PrayerTimePatch) returns (r: Result<PrayerTime>)
      requires Valid()
      modifies this
      ensures Valid() && nextId == old(nextId)
      ensures r == Err(PrayerTimeNotFound) <==> forall i :: 0 <= i < |old(rows)| ==> old(rows)[i].id != Some(id)
      ensures r.Err? ==> rows == old(rows)
      ensures forall i :: 0 <= i < |old(rows)| && old(rows)[i].id == Some(id) ==>
        var merged := MergePatch(old(rows)[i], patch);
        && (r.Ok? <==> forall j :: 0 <= j < |old(rows)| && j != i ==> !SameSlot(old(rows)[j], merged))
        && (r.Ok? ==> r.value == merged && rows == old(rows)[i := merged])
    {
      var updates, values := BuildPrayerTimeUpdate(id, patch);
      var found := Find(rows, (x: PrayerTime) => x.id == Some(id));
      if found.None? {
        return Err(PrayerTimeNotFound);
      }
      var k := found.value;
      var updated := Apply(rows[k], AssignPrayer, updates, values[..|values| - 1]);
      assert updated == MergePatch(rows[k], patch);
      var clash := Find(rows, (x: PrayerTime) => x.id != Some(id) && SameSlot(x, updated));
      if clash.Some? {
        return Err(UniqueViolation);
      }
      rows := rows[k := updated];
      r := Ok(updated);
    }

    /** `deletePrayerTime`: the row with that id goes; no such row reports not found. */
    method Delete(id: int) returns (r: Result<()>)
      requires Valid()
      modifies this
      ensures Valid() && nextId == old(nextId)
      ensures r.Err? <==> forall i :: 0 <= i < |old(rows)| ==> old(rows)[i].id != Some(id)
      ensures r.Err? ==> r.error == PrayerTimeNotFound && rows == old(rows)
      ensures r.Ok? ==> |rows| == |old(rows)| - 1
      ensures forall x :: x in rows <==> x in old(rows) && x.id != Some(id)
    {
      var found := Find(rows, (x: PrayerTime) => x.id == Some(id));
      if found.None? {
        return Err(PrayerTimeNotFound);
      }
      FilterDropsOne(rows, OtherThan(id), found.value);
      RemoveKeepsValid(rows, nextId, found.value);
      rows := Filter(rows, OtherThan(id));
      r := Ok(());
    }
  }

  /** Keeps every row but the one with that id. */
  function OtherThan(id: int): PrayerTime -> bool {
    (x: PrayerTime) => x.id != Some(id)
  }

  /** Removing one row keeps the table's invariant. */
  lemma RemoveKeepsValid(rows: seq<PrayerTime>, nextId: int, k: nat)
    requires ValidRows(rows, nextId) && k < |rows|
    ensures ValidRows(rows[..k] + rows[k + 1..], nextId)
  {
    var rest := rows[..k] + rows[k + 1..];
    assert forall i :: 0 <= i < |rest| ==> rest[i] == rows[if i < k then i else i + 1];
  }

  // ---------------------------------------------------------------- app_settings

  /** The settings row; the five nested objects are held as their JSON text. */
  datatype SettingsRow = SettingsRow(
    id: int,
    masjidName: string,
    location: string,
    prayerSettings: string,
    displaySettings: string,
    notificationSettings: string,
    backupSettings: string)

  /** A `Partial<AppSettings>`, each object already given as its JSON text. */
  datatype SettingsPatch = SettingsPatch(
    masjidName: Option<string>,
    location: Option<string>,
    prayerSettings: Option<string>,
    displaySettings: Option<string>,
    notificationSettings: Option<string>,
    backupSettings: Option<string>)

  const SettingsNotFound: string := "Settings not found"

  /** Every present field of the patch replaces the row's. */
  function MergeSettings(row: SettingsRow, patch: SettingsPatch): (r: SettingsRow)
    ensures r.id == row.id
  {
    SettingsRow(
      row.id,
      patch.masjidName.GetOr(row.masjidName),
      patch.location.GetOr(row.location),
      patch.prayerSettings.GetOr(row.prayerSettings),
      patch.displaySettings.GetOr(row.displaySettings),
      patch.notificationSettings.GetOr(row.notificationSettings),
      patch.backupSettings.GetOr(row.backupSettings))
  }

  /** A settings-row column, set from a bound text value. */
  function AssignSettings(row: SettingsRow, c: Column, v: SqlValue): SettingsRow {
    if !v.Text? then row
    else match c
      case MasjidNameCol => row.(masjidName := v.s)
      case SettingsLocationCol => row.(location := v.s)
      case PrayerSettingsCol => row.(prayerSettings := v.s)
      case DisplaySettingsCol => row.(displaySettings := v.s)
      case NotificationSettingsCol => row.(notificationSettings := v.s)
      case BackupSettingsCol => row.(backupSettings := v.s)
      case _ => row
  }

  /** The three columns set first: the name, the location and the prayer settings. */
  lemma SettingsFrontColumns(row: SettingsRow, patch: SettingsPatch)
    ensures
      Assigned(AssignSettings, Assigned(AssignSettings, Assigned(AssignSettings, row,
        MasjidNameCol, TextOf(patch.masjidName)), SettingsLocationCol, TextOf(patch.location)),
        PrayerSettingsCol, TextOf(patch.prayerSettings))
      == row.(masjidName := patch.masjidName.GetOr(row.masjidName), location := patch.location.GetOr(row.location),
              prayerSettings := patch.prayerSettings.GetOr(row.prayerSettings))
  {
    var r1 := Assigned(AssignSettings, row, MasjidNameCol, TextOf(patch.masjidName));
    assert r1 == row.(masjidName := patch.masjidName.GetOr(row.masjidName));
    var r2 := Assigned(AssignSettings, r1, SettingsLocationCol, TextOf(patch.location));
    assert r2 == r1.(location := patch.location.GetOr(row.location));
  }

  /** The three columns set last: the display, notification and backup settings. */
  lemma SettingsBackColumns(row: SettingsRow, patch: SettingsPatch)
    ensures
      Assigned(AssignSettings, Assigned(AssignSettings, Assigned(AssignSettings, row,
        DisplaySettingsCol, TextOf(patch.displaySettings)), NotificationSettingsCol, TextOf(patch.notificationSettings)),
        BackupSettingsCol, TextOf(patch.backupSettings))
      == row.(displaySettings := patch.displaySettings.GetOr(row.displaySettings),
              notificationSettings := patch.notificationSettings.GetOr(row.notificationSettings),
              backupSettings := patch.backupSettings.GetOr(row.backupSettings))
  {
    var r1 := Assigned(AssignSettings, row, DisplaySettingsCol, TextOf(patch.displaySettings));
    assert r1 == row.(displaySettings := patch.displaySettings.GetOr(row.displaySettings));
    var r2 := Assigned(AssignSettings, r1, NotificationSettingsCol, TextOf(patch.notificationSettings));
    assert r2 == r1.(notificationSettings := patch.notificationSettings.GetOr(row.notificationSettings));
  }

  /** Setting the six columns one after another from the patch's fields is merging the patch. */
  lemma SettingsColumnsMerge(row: SettingsRow, patch: SettingsPatch)
    ensures
      Assigned(AssignSettings, Assigned(AssignSettings, Assigned(AssignSettings,
        Assigned(AssignSettings, Assigned(AssignSettings, Assigned(AssignSettings, row,
          MasjidNameCol, TextOf(patch.masjidName)), SettingsLocationCol, TextOf(patch.location)),
          PrayerSettingsCol, TextOf(patch.prayerSettings)), DisplaySettingsCol, TextOf(patch.displaySettings)),
          NotificationSettingsCol, TextOf(patch.notificationSettings)), BackupSettingsCol, TextOf(patch.backupSettings))
      == MergeSettings(row, patch)
  {
    var r3 := Assigned(AssignSettings, Assigned(AssignSettings, Assigned(AssignSettings, row,
      MasjidNameCol, TextOf(patch.masjidName)), SettingsLocationCol, TextOf(patch.location)),
      PrayerSettingsCol, TextOf(patch.prayerSettings));
    SettingsFrontColumns(row, patch);
    SettingsBackColumns(r3, patch);
  }

  /** The clause builder of `updateSettings`: as for prayer times, with the id always 1. */
  method BuildSettingsUpdate(patch: SettingsPatch) returns (updates: seq<Assignment>, values: seq<SqlValue>)
    ensures |values| >= 1 && values[|values| - 1] == Int(1)
    ensures |updates| >= 1 && updates[|updates| - 1] == SetNow(UpdatedAtCol)
    ensures Params(updates) + 1 == |values|
    ensures forall row :: Apply(row, AssignSettings, updates, values[..|values| - 1]) == MergeSettings(row, patch)
  {
    updates, values := PushIfDefined([], [], MasjidNameCol, TextOf(patch.masjidName));
    var u1, v1 := updates, values;
    updates, values := PushIfDefined(updates, values, SettingsLocationCol, TextOf(patch.location));
    var u2, v2 := updates, values;
    updates, values := PushIfDefined(updates, values, PrayerSettingsCol, TextOf(patch.prayerSettings));
    var u3, v3 := updates, values;
    updates, values := PushIfDefined(updates, values, DisplaySettingsCol, TextOf(patch.displaySettings));
    var u4, v4 := updates, values;
    updates, values := PushIfDefined(updates, values, NotificationSettingsCol, TextOf(patch.notificationSettings));
    var u5, v5 := updates, values;
    updates, values := PushIfDefined(updates, values, BackupSettingsCol, TextOf(patch.backupSettings));
    var fields := values;
    forall row
      ensures Apply(row, AssignSettings, updates + [SetNow(UpdatedAtCol)], fields) == MergeSettings(row, patch)
    {
      AppendNow(row, AssignSettings, updates, fields, UpdatedAtCol);
      ApplyPushed(row, AssignSettings, [], [], MasjidNameCol, TextOf(patch.masjidName));
      ApplyPushed(row, AssignSettings, u1, v1, SettingsLocationCol, TextOf(patch.location));
      ApplyPushed(row, AssignSettings, u2, v2, PrayerSettingsCol, TextOf(patch.prayerSettings));
      ApplyPushed(row, AssignSettings, u3, v3, DisplaySettingsCol, TextOf(patch.displaySettings));
      ApplyPushed(row, AssignSettings, u4, v4, NotificationSettingsCol, TextOf(patch.notificationSettings));
      ApplyPushed(row, AssignSettings, u5, v5, BackupSettingsCol, TextOf(patch.backupSettings));
      SettingsColumnsMerge(row, patch);
    }
    ParamsNow(updates, UpdatedAtCol);
    updates := updates + [SetNow(UpdatedAtCol)];
    values := values + [Int(1)];
    assert values[..|values| - 1] == fields;
  }

  /** The `app_settings` table, which holds at most the row with id 1. */
  class SettingsTable {
    var row: Option<SettingsRow>

    predicate Valid()
      reads this
    {
      row.Some? ==> row.value.id == 1
    }

    constructor (row: Option<SettingsRow>)
      requires row.Some? ==> row.value.id == 1
      ensures Valid() && this.row == row
    {
      this.row := row;
    }

    /** `getSettings`: row 1, or "Settings not found". */
    method GetSettings() returns (r: Result<SettingsRow>)
      ensures r.Ok? <==> row.Some?
      ensures r.Ok? ==> r.value == row.value
      ensures r.Err? ==> r.error == SettingsNotFound
    {
      if row.None? {
        return Err(SettingsNotFound);
      }
      r := Ok(row.value);
    }

    /**
     * `updateSettings`: the clause runs on row 1; without that row it reports
     * "Settings not found" and changes nothing.
     */
    method UpdateSettings(patch: SettingsPatch) returns (r: Result<SettingsRow>)
      requires Valid()
      modifies this
      ensures Valid()
      ensures old(row).None? ==> r == Err(SettingsNotFound) && row == old(row)
      ensures old(row).Some? ==> r == Ok(MergeSettings(old(row).value, patch)) && row == Some(r.value)
    {
      var updates, values := BuildSettingsUpdate(patch);
      if row.None? || values[|values| - 1] != Int(row.value.id) {
        return Err(SettingsNotFound);
      }
      var updated := Apply(row.value, AssignSettings, updates, values[..|values| - 1]);
      assert updated == MergeSettings(row.value, patch);
      row := Some(updated);
      r := Ok(updated);
    }
  }
}

=== FILE: entities.dfy ===
/**
 * The records the renderer stores and the selectors read. Dates are day
 * numbers and instants are milliseconds; `HH:MM` prayer times stay text,
 * as the records carry them.
 */
module Entities {
  import opened Wrappers

  /** A day's prayer times as stored: `id` is absent before insertion. */
  datatype PrayerTime = PrayerTime(
    id: Option<int>,
    date: int,
    fajr: string,
    sunrise: string,
    dhuhr: string,
    asr: string,
    maghrib: string,
    isha: string,
    location: string,
    hijriDate: Option<string>)

  /**
   * A `Partial<PrayerTime>` without `id`: a field is present (Some) or
   * absent (None).
   */
  datatype PrayerTimePatch = PrayerTimePatch(
    date: Option<int>,
    fajr: Option<string>,
    sunrise: Option<string>,
    dhuhr: Option<string>,
    asr: Option<string>,
    maghrib: Option<string>,
    isha: Option<string>,
    location: Option<string>,
    hijriDate: Option<string>)

  /**
   * `{ ...pt, ...patch }`: every field present in the patch wins, every
   * absent one keeps the record's value, and the id is never patched.
   */
  function MergePatch(pt: PrayerTime, patch: PrayerTimePatch): (r: PrayerTime)
    ensures r.id == pt.id
    ensures patch.date.Some? ==> r.date == patch.date.value
    ensures patch.date.None? ==> r.date == pt.date
    ensures patch.fajr.Some? ==> r.fajr == patch.fajr.value
    ensures patch.fajr.None? ==> r.fajr == pt.fajr
    ensures patch.sunrise.Some? ==> r.sunrise == patch.sunrise.value
    ensures patch.sunrise.None? ==> r.sunrise == pt.sunrise
    ensures patch.dhuhr.Some? ==> r.dhuhr == patch.dhuhr.value
    ensures patch.dhuhr.None? ==> r.dhuhr == pt.dhuhr
    ensures patch.asr.Some? ==> r.asr == patch.asr.value
    ensures patch.asr.None? ==> r.asr == pt.asr
    ensures patch.maghrib.Some? ==> r.maghrib == patch.maghrib.value
    ensures patch.maghrib.None? ==> r.maghrib == pt.maghrib
    ensures patch.isha.Some? ==> r.isha == patch.isha.value
    ensures patch.isha.None? ==> r.isha == pt.isha
    ensures patch.location.Some? ==> r.location == patch.location.value
    ensures patch.location.None? ==> r.location == pt.location
    ensures patch.hijriDate.Some? ==> r.hijriDate == patch.hijriDate
    ensures patch.hijriDate.None? ==> r.hijriDate == pt.hijriDate
  {
    PrayerTime(
      pt.id,
      patch.date.GetOr(pt.date),
      patch.fajr.GetOr(pt.fajr),
      patch.sunrise.GetOr(pt.sunrise),
      patch.dhuhr.GetOr(pt.dhuhr),
      patch.asr.GetOr(pt.asr),
      patch.maghrib.GetOr(pt.maghrib),
      patch.isha.GetOr(pt.isha),
      patch.location.GetOr(pt.location),
      if patch.hijriDate.Some? then patch.hijriDate else pt.hijriDate)
  }

  /** A patch with no field present. */
  const EmptyPatch: PrayerTimePatch := PrayerTimePatch(None, None, None, None, None, None, None, None, None)

  /** Merging the empty patch changes nothing, and merging a patch twice is merging it once. */
  lemma MergeLaws(pt: PrayerTime, patch: PrayerTimePatch)
    ensures MergePatch(pt, EmptyPatch) == pt
    ensures MergePatch(MergePatch(pt, patch), patch) == MergePatch(pt, patch)
  {
  }

  datatype MembershipType = Regular | Family | Student | Senior

  datatype CommunityMember = CommunityMember(
    id: Option<int>,
    firstName: string,
    lastName: string,
    membershipType: MembershipType,
    joinDate: int,
    isActive: bool)

  /** The announcement `type` field. */
  datatype AnnouncementType = General | Event | Urgent | PrayerNotice | Fundraising

  datatype Priority = Low | Medium | High

  /** An announcement; `publishDate` and `expiryDate` are instants. */
  datatype Announcement = Announcement(
    id: Option<int>,
    title: string,
    content: string,
    kind: AnnouncementType,
    priority: Priority,
    publishDate: int,
    expiryDate: Option<int>,
    isActive: bool)
}

=== FILE: network_manager.dfy ===
/**
 * The renderer's network manager: it follows the browser's online and
 * offline events, pushes the status to the four stores, and on coming
 * online asks each store to retry its queued actions through a timer,
 * backing off exponentially when a retry throws.
 *
 * Timers are handles in `timers` (the live ones: scheduled, neither fired
 * nor cleared); `retryTimeouts` maps a store key to the handle last set for
 * it. A timer's callback is taken as one step that fires and settles
 * (`TimerFires`), with the outcome of the store's retry as a parameter.
 */
module NetworkManager {
  import Selectors

  const MaxRetries: nat := 3
  const BaseRetryDelay: nat := 1000

  const PrayerKey: string := "prayer"
  const CommunityKey: string := "community"
  const AnnouncementsKey: string := "announcements"
  const SettingsKey: string := "settings"

  function Pow2(n: nat): (r: nat)
    ensures r >= 1
  {
    if n == 0 then 1 else 2 * Pow2(n - 1)
  }

  /** `baseRetryDelay * Math.pow(2, attemptCount)`. */
  function Delay(attempt: nat): nat {
    BaseRetryDelay * Pow2(attempt)
  }

  /** Each further attempt waits twice as long as the one before. */
  lemma {:induction false} DelayDoubles(attempt: nat)
    ensures Delay(attempt + 1) == 2 * Delay(attempt)
    ensures Delay(attempt) >= BaseRetryDelay
  {
  }

  /** The backed-off retries wait 2 and 4 seconds; a third would wait 8 but is never scheduled. */
  lemma BackoffSchedule()
    ensures Delay(1) == 2000 && Delay(2) == 4000 && Delay(MaxRetries) == 8000
  {
  }

  /** A live timer: the store it retries, which attempt it is, and its delay. */
  datatype Timer = Timer(key: string, attempt: nat, delay: nat)

  /** What the connection probe (`db.getPath()`) gave: a value, or a rejection. */
  datatype Probe = Answered(truthy: bool) | Threw

  /**
   * Every live timer is the one its key's entry names, and is one of the
   * allowed attempts with its backed-off delay; so a store never has two
   * retries pending. Handles are fresh, so no two keys name the same one.
   */
  predicate Consistent(retryTimeouts: map<string, nat>, timers: map<nat, Timer>, nextHandle: nat) {
    && (forall h :: h in timers ==> h < nextHandle)
    && (forall h :: h in timers ==> timers[h].key in retryTimeouts && retryTimeouts[timers[h].key] == h)
    && (forall h :: h in timers ==> timers[h].attempt < MaxRetries && timers[h].delay == Delay(timers[h].attempt))
    && (forall k :: k in retryTimeouts ==> retryTimeouts[k] < nextHandle)
    && (forall k1, k2 :: k1 in retryTimeouts && k2 in retryTimeouts && retryTimeouts[k1] == retryTimeouts[k2] ==> k1 == k2)
  }

  /** No live timer retries `key`. */
  predicate NoTimerFor(timers: map<nat, Timer>, key: string) {
    forall h :: h in timers ==> timers[h].key != key
  }

  /** `clearTimeout` on the handle the key names, if it names one. */
  function ClearFor(retryTimeouts: map<string, nat>, timers: map<nat, Timer>, key: string): map<nat, Timer> {
    if key in retryTimeouts then timers - {retryTimeouts[key]} else timers
  }

  /** Clearing the handle a key names removes exactly that key's timer and keeps the state consistent. */
  lemma ClearKey(retryTimeouts: map<string, nat>, timers: map<nat, Timer>, nextHandle: nat, key: string)
    requires Consistent(retryTimeouts, timers, nextHandle)
    ensures Consistent(retryTimeouts, ClearFor(retryTimeouts, timers, key), nextHandle)
    ensures NoTimerFor(ClearFor(retryTimeouts, timers, key), key)
    ensures forall h :: h in ClearFor(retryTimeouts, timers, key) <==> h in timers && timers[h].key != key
    ensures forall h :: h in ClearFor(retryTimeouts, timers, key) ==> ClearFor(retryTimeouts, timers, key)[h] == timers[h]
  {
  }

  /** A fresh timer for a key with none pending, recorded for the key, keeps the state consistent. */
  lemma SetTimer(retryTimeouts: map<string, nat>, timers: map<nat, Timer>, nextHandle: nat, t: Timer)
    requires Consistent(retryTimeouts, timers, nextHandle) && NoTimerFor(timers, t.key)
    requires t.attempt < MaxRetries && t.delay == Delay(t.attempt)
    ensures Consistent(retryTimeouts[t.key := nextHandle], timers[nextHandle := t], nextHandle + 1)
  {
  }

  /** Once a live timer has fired, its key has none pending. */
  lemma Fired(retryTimeouts: map<string, nat>, timers: map<nat, Timer>, nextHandle: nat, handle: nat)
    requires Consistent(retryTimeouts, timers, nextHandle) && handle in timers
    ensures Consistent(retryTimeouts, timers - {handle}, nextHandle)
    ensures NoTimerFor(timers - {handle}, timers[handle].key)
  {
  }

  /** Forgetting a key with no timer pending keeps the state consistent. */
  lemma Forget(retryTimeouts: map<string, nat>, timers: map<nat, Timer>, nextHandle: nat, key: string)
    requires Consistent(retryTimeouts, timers, nextHandle) && NoTimerFor(timers, key)
    ensures Consistent(retryTimeouts - {key}, timers, nextHandle)
  {
  }

  class Manager {
    var isOnline: bool
    var prayerOnline: bool
    var communityOnline: bool
    var announcementsOnline: bool
    var settingsOnline: bool
    var retryTimeouts: map<string, nat>
    var timers: map<nat, Timer>
    var nextHandle: nat

    predicate Valid()
      reads this
    {
      Consistent(retryTimeouts, timers, nextHandle)
    }

    /** The stores' flags all equal `b`. */
    predicate StoresAre(b: bool)
      reads this
    {
      prayerOnline == b && communityOnline == b && announcementsOnline == b && settingsOnline == b
    }

    /** The live timer the key names is its store's first attempt. */
    predicate FirstAttemptPending(key: string)
      reads this
    {
      key in retryTimeouts && retryTimeouts[key] in timers && timers[retryTimeouts[key]] == Timer(key, 0, BaseRetryDelay)
    }

    /** Each of the four stores has its first attempt pending. */
    predicate AllFirstAttemptsPending()
      reads this
    {
      && FirstAttemptPending(PrayerKey) && FirstAttemptPending(CommunityKey)
      && FirstAttemptPending(AnnouncementsKey) && FirstAttemptPending(SettingsKey)
    }

    /** At most one retry timer is pending per store. */
    lemma OneTimerPerKey()
      requires Valid()
      ensures forall h1, h2 :: h1 in timers && h2 in timers && timers[h1].key == timers[h2].key ==> h1 == h2
    {
    }

    /** The stores' flags pushed at start-up, with no timers. */
    constructor (online: bool)
      ensures Valid() && isOnline == online && StoresAre(online)
      ensures retryTimeouts == map[] && timers == map[]
    {
      isOnline := online;
      prayerOnline, communityOnline, announcementsOnline, settingsOnline := online, online, online, online;
      retryTimeouts := map[];
      timers := map[];
      nextHandle := 0;
    }

    method UpdateAllStoresOnlineStatus(online: bool)
      modifies this
      ensures StoresAre(online)
      ensures Selectors.NetworkOnline(prayerOnline, communityOnline, announcementsOnline, settingsOnline) == online
      ensures isOnline == old(isOnline) && retryTimeouts == old(retryTimeouts) && timers == old(timers)
      ensures nextHandle == old(nextHandle)
    {
      prayerOnline := online;
      communityOnline := online;
      announcementsOnline := online;
      settingsOnline := online;
    }

    /**
     * `retryStoreActions`: the key's pending timer, if any, is cleared and a
     * first-attempt timer with the base delay takes its place.
     */
    method RetryStoreActions(key: string)
      requires Valid()
      modifies this
      ensures Valid()
      ensures retryTimeouts == old(retryTimeouts)[key := old(nextHandle)] && nextHandle == old(nextHandle) + 1
      ensures forall h :: h in timers <==> h == old(nextHandle) || (h in old(timers) && old(timers)[h].key != key)
      ensures forall h :: h in old(timers) && old(timers)[h].key != key ==> timers[h] == old(timers)[h]
      ensures timers[old(nextHandle)] == Timer(key, 0, BaseRetryDelay) && FirstAttemptPending(key)
      ensures forall k :: k != key && old(FirstAttemptPending(k)) ==> FirstAttemptPending(k)
      ensures isOnline == old(isOnline)
      ensures prayerOnline == old(prayerOnline) && communityOnline == old(communityOnline)
      ensures announcementsOnline == old(announcementsOnline) && settingsOnline == old(settingsOnline)
    {
      ClearKey(retryTimeouts, timers, nextHandle, key);
      timers := ClearFor(retryTimeouts, timers, key);
      SetTimer(retryTimeouts, timers, nextHandle, Timer(key, 0, BaseRetryDelay));
      var handle := nextHandle;
      nextHandle := nextHandle + 1;
      timers := timers[handle := Timer(key, 0, BaseRetryDelay)];
      retryTimeouts := retryTimeouts[key := handle];
    }

    /**
     * `scheduleRetry`: from the third attempt on nothing is scheduled;
     * otherwise a timer with the backed-off delay is set and recorded for the
     * key. Called only by the key's own callback, when no timer for the key
     * is pending.
     */
    method ScheduleRetry(key: string, attempt: nat)
      requires Valid()
      requires NoTimerFor(timers, key)
      modifies this
      ensures Valid()
      ensures attempt >= MaxRetries ==> timers == old(timers) && retryTimeouts == old(retryTimeouts) && nextHandle == old(nextHandle)
      ensures attempt < MaxRetries ==>
        && timers == old(timers)[old(nextHandle) := Timer(key, attempt, Delay(attempt))]
        && retryTimeouts == old(retryTimeouts)[key := old(nextHandle)]
        && nextHandle == old(nextHandle) + 1
      ensures isOnline == old(isOnline)
      ensures prayerOnline == old(prayerOnline) && communityOnline == old(communityOnline)
      ensures announcementsOnline == old(announcementsOnline) && settingsOnline == old(settingsOnline)
    {
      if attempt >= MaxRetries {
        return;
      }
      SetTimer(retryTimeouts, timers, nextHandle, Timer(key, attempt, Delay(attempt)));
      var handle := nextHandle;
      nextHandle := nextHandle + 1;
      timers := timers[handle := Timer(key, attempt, Delay(attempt))];
      retryTimeouts := retryTimeouts[key := handle];
    }

    /**
     * A live timer fires and its store's retry settles: resolved, the key's
     * entry is deleted; thrown, the next attempt is scheduled, unless this
     * was the last allowed one, after which the key has no retry pending.
     */
    method TimerFires(handle: nat, resolved: bool)
      requires Valid() && handle in timers
      modifies this
      ensures Valid()
      ensures var t := old(timers)[handle];
        && (resolved ==> timers == old(timers) - {handle} && retryTimeouts == old(retryTimeouts) - {t.key})
        && (!resolved && t.attempt + 1 < MaxRetries ==>
              && timers == (old(timers) - {handle})[old(nextHandle) := Timer(t.key, t.attempt + 1, Delay(t.attempt + 1))]
              && retryTimeouts == old(retryTimeouts)[t.key := old(nextHandle)])
        && (!resolved && t.attempt + 1 >= MaxRetries ==>
              timers == old(timers) - {handle} && retryTimeouts == old(retryTimeouts))
        && (forall h :: h in timers && timers[h].key == t.key ==> !resolved && timers[h].attempt == t.attempt + 1)
      ensures isOnline == old(isOnline)
      ensures prayerOnline == old(prayerOnline) && communityOnline == old(communityOnline)
      ensures announcementsOnline == old(announcementsOnline) && settingsOnline == old(settingsOnline)
    {
      var t := timers[handle];
      Fired(retryTimeouts, timers, nextHandle, handle);
      timers := timers - {handle};
      if resolved {
        Forget(retryTimeouts, timers, nextHandle, t.key);
        retryTimeouts := retryTimeouts - {t.key};
      } else {
        ScheduleRetry(t.key, t.attempt + 1);
      }
    }

    /**
     * `clearAllRetryTimeouts`: the timer each key names is cleared, then the
     * map is emptied; as every live timer is named by its key, none is left.
     */
    method ClearAllRetryTimeouts()
      requires Valid()
      modifies this
      ensures Valid()
      ensures timers == map[] && retryTimeouts == map[]
      ensures nextHandle == old(nextHandle) && isOnline == old(isOnline)
      ensures prayerOnline == old(prayerOnline) && communityOnline == old(communityOnline)
      ensures announcementsOnline == old(announcementsOnline) && settingsOnline == old(settingsOnline)
    {
      var keys := retryTimeouts.Keys;
      while keys != {}
        invariant keys <= retryTimeouts.Keys
        invariant retryTimeouts == old(retryTimeouts) && nextHandle == old(nextHandle)
        invariant forall h :: h in timers ==> h in old(timers) && timers[h] == old(timers)[h] && timers[h].key in keys
        invariant isOnline == old(isOnline)
        invariant prayerOnline == old(prayerOnline) && communityOnline == old(communityOnline)
        invariant announcementsOnline == old(announcementsOnline) && settingsOnline == old(settingsOnline)
        decreases keys
      {
        var key :| key in keys;
        var handle := retryTimeouts[key];
        timers := timers - {handle};
        keys := keys - {key};
      }
      retryTimeouts := map[];
    }

    /** `retryAllPendingActions`: a fresh first-attempt timer for each of the four stores. */
    method RetryAllPendingActions()
      requires Valid()
      modifies this
      ensures Valid()
      ensures AllFirstAttemptsPending()
      ensures isOnline == old(isOnline)
      ensures prayerOnline == old(prayerOnline) && communityOnline == old(communityOnline)
      ensures announcementsOnline == old(announcementsOnline) && settingsOnline == old(settingsOnline)
    {
      assert |PrayerKey| == 6 && |CommunityKey| == 9 && |AnnouncementsKey| == 13 && |SettingsKey| == 8;
      RetryStoreActions(PrayerKey);
      RetryStoreActions(CommunityKey);
      RetryStoreActions(AnnouncementsKey);
      RetryStoreActions(SettingsKey);
    }
  
    /**
     * `handleOnline`: online (as `getConnectionStatus` then reports), pushed
     * to the stores, and every store's retry is (re)started.
     */
    method HandleOnline()
      requires Valid()
      modifies this
      ensures Valid() && isOnline && StoresAre(true) && GetConnectionStatus()
      ensures AllFirstAttemptsPending()
    {
      isOnline := true;
      UpdateAllStoresOnlineStatus(true);
      RetryAllPendingActions();
    }

    /**
     * `handleOffline`: offline (as `getConnectionStatus` then reports),
     * pushed to the stores, and no retry is left pending.
     */
    method HandleOffline()
      requires Valid()
      modifies this
      ensures Valid() && !isOnline && StoresAre(false) && !GetConnectionStatus()
      ensures !Selectors.NetworkOnline(prayerOnline, communityOnline, announcementsOnline, settingsOnline)
      ensures timers == map[] && retryTimeouts == map[]
    {
      isOnline := false;
      UpdateAllStoresOnlineStatus(false);
      ClearAllRetryTimeouts();
    }

    /**
     * `verifyConnection`: a truthy answer means connected (going online if
     * the manager thought otherwise); a rejection means disconnected (going
     * offline if it thought otherwise); a falsy answer changes nothing.
     */
    method VerifyConnection(probe: Probe) returns (connected: bool)
      requires Valid()
      modifies this
      ensures Valid()
      ensures connected <==> probe == Answered(true)
      ensures probe == Answered(true) ==> isOnline && (!old(isOnline) ==> StoresAre(true) && AllFirstAttemptsPending())
      ensures probe == Threw ==> !isOnline && (old(isOnline) ==> StoresAre(false) && timers == map[] && retryTimeouts == map[])
      ensures probe == Answered(false) ==> unchanged(this)
      ensures old(isOnline) == isOnline ==> unchanged(this)
    {
      connected := false;
      match probe
      case Answered(truthy) =>
        if truthy {
          if !isOnline {
            HandleOnline();
          }
          connected := true;
        }
      case Threw =>
        if isOnline {
          HandleOffline();
        }
    }

    /** `handleVisibilityChange`: the connection is probed only when visible and believed online. */
    method HandleVisibilityChange(hidden: bool, probe: Probe)
      requires Valid()
      modifies this
      ensures Valid()
      ensures hidden || !old(isOnline) || probe != Threw ==> unchanged(this)
      ensures !hidden && old(isOnline) && probe == Threw ==> !isOnline && StoresAre(false) && timers == map[]
    {
      if !hidden && isOnline {
        var _ := VerifyConnection(probe);
      }
    }

    /** `forceRetry`: restarts every store's retry, only while online. */
    method ForceRetry()
      requires Valid()
      modifies this
      ensures Valid()
      ensures !isOnline ==> unchanged(this)
      ensures isOnline ==> AllFirstAttemptsPending()
    {
      if isOnline {
        RetryAllPendingActions();
      }
    }

    /** `getConnectionStatus`: the manager's own flag. */
    function GetConnectionStatus(): (r: bool)
      reads this
      ensures r == isOnline
    {
      isOnline
    }

    /** `destroy`: every pending retry is cleared (the listeners' removal is not modelled). */
    method Destroy()
      requires Valid()
      modifies this
      ensures Valid() && timers == map[] && retryTimeouts == map[] && isOnline == old(isOnline)
    {
      ClearAllRetryTimeouts();
    }
  }
}

=== FILE: next_prayer_agreement.dfy ===
/**
 * The independent next-prayer searches agree: the display's string-
 * comparison search and the countdown's roll-and-minimum search pick the
 * same prayer, with the same time left, whenever the times are strictly
 * ascending; and the `upcomingPrayer` selector picks the display's prayer
 * for a record whose times are well-formed `HH:MM` text.
 */
module NextPrayerAgreement {
  import opened Clock
  import opened Seqs
  import PrayerTimeService
  import PrayerTimesDisplay
  import PrayerCountdown
  import Entities
  import Selectors

  predicate StrictlyAscending(prayers: seq<NamedTime>) {
    forall i, j :: 0 <= i < j < |prayers| ==> prayers[i].time < prayers[j].time
  }

  /**
   * For a non-empty, strictly ascending list the countdown's nearest entry
   * is the display's chosen entry, and its time left is the display's.
   */
  lemma DisplayAndCountdownAgree(prayers: seq<NamedTime>, now: Instant)
    requires prayers != [] && StrictlyAscending(prayers)
    ensures PrayerTimesDisplay.DisplayChoice(prayers, now).Some?
    ensures PrayerCountdown.Nearest(PrayerCountdown.RollAll(prayers, now)).Some?
    ensures var c := PrayerTimesDisplay.DisplayChoice(prayers, now).value;
      var cs := PrayerCountdown.RollAll(prayers, now);
      && c.index < |prayers|
      && PrayerCountdown.Nearest(cs).value == c.index
      && cs[c.index].name == prayers[c.index].name
      && cs[c.index].remaining == PrayerTimesDisplay.DiffMs(prayers, c, now)
  {
    PrayerTimesDisplay.DisplayChoiceByTime(prayers, now);
    var c := PrayerTimesDisplay.DisplayChoice(prayers, now).value;
    var cs := PrayerCountdown.RollAll(prayers, now);
    var i := c.index;
    forall j | 0 <= j < |prayers| && j != i
      ensures cs[i].remaining < cs[j].remaining
    {
      if !c.nextDay && j < i {
        assert AtMinute(prayers[i].time) < MsPerDay;
      }
    }
  }

  /** A stored record whose six times are the text of the display's minutes. */
  predicate TextOf(pt: Entities.PrayerTime, t: PrayerTimeService.DayTimes) {
    && pt.fajr == FormatHHMM(t.fajr) && pt.sunrise == FormatHHMM(t.sunrise)
    && pt.dhuhr == FormatHHMM(t.dhuhr) && pt.asr == FormatHHMM(t.asr)
    && pt.maghrib == FormatHHMM(t.maghrib) && pt.isha == FormatHHMM(t.isha)
  }

  /**
   * When each entry's text is the `HH:MM` of the display's minute, the
   * selector's search for a later entry and the display's stop at the same
   * index, from any starting point.
   */
  lemma {:induction false} FirstLaterAgrees(slots: seq<Selectors.Slot>, prayers: seq<NamedTime>, nowText: string, i: nat)
    requires i <= |slots| == |prayers|
    requires forall j :: 0 <= j < |slots| ==> slots[j].time == FormatHHMM(prayers[j].time)
    ensures FindFrom(slots, (s: Selectors.Slot) => Selectors.IsLater(s, nowText), i)
      == PrayerTimesDisplay.FirstAfterFrom(prayers, nowText, i)
    decreases |slots| - i
  {
    if i < |slots| {
      assert slots[i].time == FormatHHMM(prayers[i].time);
      FirstLaterAgrees(slots, prayers, nowText, i + 1);
    }
  }

  /**
   * For such a record, `upcomingPrayer` at the current `HH:MM` names the
   * display's choice and carries its `HH:mm` text.
   */
  lemma SelectorAndDisplayAgree(pt: Entities.PrayerTime, t: PrayerTimeService.DayTimes, now: Instant)
    requires TextOf(pt, t)
    ensures PrayerTimesDisplay.DisplayChoice(PrayerTimesDisplay.DisplayPrayers(t), now).Some?
    ensures var prayers := PrayerTimesDisplay.DisplayPrayers(t);
      var c := PrayerTimesDisplay.DisplayChoice(prayers, now).value;
      c.index < |prayers| &&
      Selectors.Upcoming(Selectors.Slots(pt), FormatHHMM(MinuteOf(now))) ==
        Selectors.Slot(prayers[c.index].name, FormatHHMM(prayers[c.index].time))
  {
    var prayers := PrayerTimesDisplay.DisplayPrayers(t);
    var slots := Selectors.Slots(pt);
    assert forall j :: 0 <= j < 6 ==> slots[j] == Selectors.Slot(prayers[j].name, FormatHHMM(prayers[j].time));
    FirstLaterAgrees(slots, prayers, FormatHHMM(MinuteOf(now)), 0);
  }
}

=== FILE: prayer_countdown.dfy ===
/**
 * The prayer countdown's once-a-second callback: every time at or before
 * now is moved to tomorrow, the entry with the least time left is taken
 * (a reduce without a seed, keeping the earlier entry on ties), the time
 * left is shown as `HH:MM:SS`, and under five minutes a screen-reader
 * announcement is stored when its text changed.
 */
module PrayerCountdown {
  import opened Wrappers
  import opened Clock

  /** The default `prayerTimes` prop. */
  const DefaultSchedule: seq<NamedTime> := [
    NamedTime("Fajr", 330),
    NamedTime("Dhuhr", 765),
    NamedTime("Asr", 975),
    NamedTime("Maghrib", 1110),
    NamedTime("Isha", 1200)
  ]

  /** One mapped entry: its name and the milliseconds left until it. */
  datatype Candidate = Candidate(name: string, remaining: int)

  /**
   * An entry as the `map` step rolls it: today's time, or tomorrow's when
   * today's is at or before now; the time left is then positive and at most
   * one day.
   */
  function Rolled(p: NamedTime, now: Instant): (c: Candidate)
    ensures c.name == p.name && 0 < c.remaining <= MsPerDay
    ensures AtMinute(p.time) <= now <==> c.remaining == MsPerDay + AtMinute(p.time) - now
  {
    var t := AtMinute(p.time);
    Candidate(p.name, if t <= now then MsPerDay + t - now else t - now)
  }

  /**
   * The mapped list, entry by entry: every candidate keeps its entry's name
   * and is between a millisecond and a day away, and waiting its time left
   * from now lands on its entry's time of day.
   */
  function RollAll(prayers: seq<NamedTime>, now: Instant): (cs: seq<Candidate>)
    ensures |cs| == |prayers|
    ensures forall i :: 0 <= i < |prayers| ==> cs[i] == Rolled(prayers[i], now)
    ensures forall i :: 0 <= i < |cs| ==>
      && cs[i].name == prayers[i].name && 0 < cs[i].remaining <= MsPerDay
      && (now + cs[i].remaining) % MsPerDay == AtMinute(prayers[i].time)
  {
    seq(|prayers|, i requires 0 <= i < |prayers| => Rolled(prayers[i], now))
  }

  /** An entry exactly at now is rolled a full day ahead. */
  lemma AtNowRolledToTomorrow(p: NamedTime, now: Instant)
    requires AtMinute(p.time) == now
    ensures Rolled(p, now).remaining == MsPerDay
  {
  }

  /**
   * The reduce `(nearest, current) => current.remaining < nearest.remaining
   * ? current : nearest` from position `i` on, with `best` the accumulator's
   * index: the result has the least time left, and every earlier entry has
   * strictly more.
   */
  function NearestFrom(cs: seq<Candidate>, best: nat, i: nat): (r: nat)
    requires best < i <= |cs|
    requires forall j :: 0 <= j < i ==> cs[best].remaining <= cs[j].remaining
    requires forall j :: 0 <= j < best ==> cs[j].remaining > cs[best].remaining
    ensures r < |cs|
    ensures forall j :: 0 <= j < |cs| ==> cs[r].remaining <= cs[j].remaining
    ensures forall j :: 0 <= j < r ==> cs[j].remaining > cs[r].remaining
    decreases |cs| - i
  {
    if i == |cs| then best
    else NearestFrom(cs, if cs[i].remaining < cs[best].remaining then i else best, i + 1)
  }

  /** The reduce without a seed: it throws on an empty list (None). */
  function Nearest(cs: seq<Candidate>): (r: Option<nat>)
    ensures r.None? <==> cs == []
    ensures r.Some? ==> r.value < |cs|
    ensures r.Some? ==> forall j :: 0 <= j < |cs| ==> cs[r.value].remaining <= cs[j].remaining
    ensures r.Some? ==> forall j :: 0 <= j < r.value ==> cs[j].remaining > cs[r.value].remaining
  {
    if cs == [] then None else Some(NearestFrom(cs, 0, 1))
  }

  /** The announcement text for the minutes and seconds left. */
  function AnnouncementText(name: string, minutes: nat, seconds: nat): string {
    name + " prayer in " + NatToString(minutes) + " minutes and " + NatToString(seconds) + " seconds"
  }

  /** What the callback shows: the chosen name and its `HH:MM:SS` text. */
  datatype Shown = Shown(name: string, timeRemaining: string)

  /**
   * The `HH:MM:SS` text for a time left of at most one day is eight
   * characters whose three fields read back as whole hours (at most 24),
   * minutes and seconds that add up to the time left, to the second.
   */
  lemma ClockTextShape(remaining: int)
    requires 0 < remaining <= MsPerDay
    ensures var f := SplitHMS(remaining);
      var t := ClockText(f.0, f.1, f.2);
      && f.0 <= 24 && |t| == 8 && t[2] == ':' && t[5] == ':'
      && var secs := DecimalValue(t[0..2]) * 3600 + DecimalValue(t[3..5]) * 60 + DecimalValue(t[6..8]);
         secs * MsPerSecond <= remaining < (secs + 1) * MsPerSecond
  {
    var f := SplitHMS(remaining);
    ClockTextFields(f.0, f.1, f.2);
  }

  class Countdown {
    var prayerTimes: seq<NamedTime>
    var nextPrayer: Option<Shown>
    var lastAnnouncement: string

    constructor (prayerTimes: seq<NamedTime>)
      ensures this.prayerTimes == prayerTimes && nextPrayer == None && lastAnnouncement == ""
    {
      this.prayerTimes := prayerTimes;
      nextPrayer := None;
      lastAnnouncement := "";
    }

    /**
     * One tick. With no entries the reduce throws and nothing is shown.
     * Otherwise the nearest candidate is shown with its `HH:MM:SS` text, and
     * when zero hours and under five minutes are left the announcement
     * replaces the stored one if it differs; at any other time the stored
     * announcement is kept.
     */
    method Tick(now: Instant)
      modifies this
      ensures prayerTimes == old(prayerTimes)
      ensures prayerTimes == [] ==> nextPrayer == old(nextPrayer) && lastAnnouncement == old(lastAnnouncement)
      ensures prayerTimes != [] ==>
        var cs := RollAll(prayerTimes, now);
        var k := Nearest(cs).value;
        var f := SplitHMS(cs[k].remaining);
        && nextPrayer == Some(Shown(cs[k].name, ClockText(f.0, f.1, f.2)))
        && (f.0 == 0 && f.1 < 5 ==> lastAnnouncement == AnnouncementText(cs[k].name, f.1, f.2))
        && (!(f.0 == 0 && f.1 < 5) ==> lastAnnouncement == old(lastAnnouncement))
    {
      var todayPrayers := RollAll(prayerTimes, now);
      var upcoming := Nearest(todayPrayers);
      if upcoming.None? {
        return;
      }
      var up := todayPrayers[upcoming.value];
      var f := SplitHMS(up.remaining);
      var hoursRemaining, minutesRemaining, secondsRemaining := f.0, f.1, f.2;
      nextPrayer := Some(Shown(up.name, ClockText(hoursRemaining, minutesRemaining, secondsRemaining)));
      if minutesRemaining < 5 && hoursRemaining == 0 {
        var announcement := AnnouncementText(up.name, minutesRemaining, secondsRemaining);
        if announcement != lastAnnouncement {
          lastAnnouncement := announcement;
        }
      }
    }
  }
}

=== FILE: prayer_time_player.dfy ===
/**
 * The prayer-time player: once a second it finds the next prayer (the first
 * in time order strictly after now, else the earliest one tomorrow), renders
 * the time left as `Xh Ym`, and fires the call to prayer for the first
 * listed prayer within 30 seconds of now unless that prayer is already the
 * remembered `currentPrayer`. Stopping, finishing or muting the azan forgets
 * the remembered prayer; unmuting during a prayer plays it again.
 *
 * A prayer's `HH:MM` text is modelled by the minute it denotes
 * (`Clock.ParseMinute` reads it back); "now" is milliseconds after midnight.
 * Audio is modelled by the sources handed to the player, in order.
 */
module PrayerTimePlayer {
  import opened Wrappers
  import opened Clock
  import opened Seqs

  /** One entry of the `prayerTimes` prop; `audioFile` is "" when not given. */
  datatype PrayerEntry = PrayerEntry(name: string, time: Minute, audioFile: string)

  /** The next prayer and whether its time is tomorrow (`timeObj` set to tomorrow). */
  datatype Upcoming = Upcoming(prayer: PrayerEntry, tomorrow: bool)

  /** Half-width of the call-to-prayer window, in milliseconds. */
  const TriggerWindow: int := 30000

  const FajrAudio: string := "/sounds/azan-fajr.mp3"
  const DefaultAudio: string := "/sounds/azan.mp3"

  /**
   * `prayer.audioFile || defaultAudioFiles[prayer.name] || '/sounds/azan.mp3'`:
   * never an empty source; an entry's own file wins, and the defaults differ
   * only for Fajr.
   */
  function AudioFileFor(p: PrayerEntry): (src: string)
    ensures src != ""
    ensures src == p.audioFile || src == FajrAudio || src == DefaultAudio
    ensures p.audioFile != "" ==> src == p.audioFile
    ensures p.audioFile == "" ==> src == (if p.name == "Fajr" then FajrAudio else DefaultAudio)
  {
    if p.audioFile != "" then p.audioFile
    else if p.name == "Fajr" then FajrAudio
    else DefaultAudio
  }

  /**
   * The fallback is applied once when the entries get their audio files and
   * again when the azan is played; the second application changes nothing.
   */
  lemma AudioFileStable(p: PrayerEntry)
    ensures AudioFileFor(p.(audioFile := AudioFileFor(p))) == AudioFileFor(p)
  {
  }

  /** The sort key of the comparator `parseTime(a) - parseTime(b)`. */
  function TimeKey(p: PrayerEntry): int {
    p.time
  }

  /** `parseTime(prayer.time) > now`. */
  predicate Later(p: PrayerEntry, now: Instant) {
    AtMinute(p.time) > now
  }

  /** The first entry of `s` strictly after now, in list order. */
  function FirstLater(s: seq<PrayerEntry>, now: Instant): (r: Option<PrayerEntry>)
    ensures r.None? <==> forall i :: 0 <= i < |s| ==> !Later(s[i], now)
    ensures r.Some? ==> r.value in s && Later(r.value, now)
  {
    if s == [] then None
    else if Later(s[0], now) then Some(s[0])
    else FirstLater(s[1..], now)
  }

  /** The entry `FirstLater` returns sits at an index before which no entry is later. */
  lemma {:induction false} FirstLaterIndex(s: seq<PrayerEntry>, now: Instant)
    requires FirstLater(s, now).Some?
    ensures exists k ::
      0 <= k < |s| && s[k] == FirstLater(s, now).value && forall j :: 0 <= j < k ==> !Later(s[j], now)
  {
    if !Later(s[0], now) {
      FirstLaterIndex(s[1..], now);
      var k :| 0 <= k < |s[1..]| && s[1..][k] == FirstLater(s[1..], now).value &&
        forall j :: 0 <= j < k ==> !Later(s[1..][j], now);
      assert s[k + 1] == FirstLater(s, now).value;
      forall j | 0 <= j < k + 1
        ensures !Later(s[j], now)
      {
        if j > 0 {
          assert s[j] == s[1..][j - 1];
        }
      }
    } else {
      assert s[0] == FirstLater(s, now).value;
    }
  }

  /** The next prayer `updateNextPrayer` chooses, over the entries sorted by time. */
  function NextPrayer(prayers: seq<PrayerEntry>, now: Instant): Option<Upcoming> {
    var sorted := SortBy(prayers, TimeKey);
    match FirstLater(sorted, now)
    case Some(p) => Some(Upcoming(p, false))
    case None => if |sorted| > 0 then Some(Upcoming(sorted[0], true)) else None
  }

  /** In a time-sorted list, the first later entry has the earliest time among the later ones. */
  lemma FirstLaterSortedMin(s: seq<PrayerEntry>, now: Instant)
    requires SortedBy(s, TimeKey) && FirstLater(s, now).Some?
    ensures forall q :: q in s && Later(q, now) ==> FirstLater(s, now).value.time <= q.time
  {
    FirstLaterIndex(s, now);
    var k :| 0 <= k < |s| && s[k] == FirstLater(s, now).value &&
      forall j :: 0 <= j < k ==> !Later(s[j], now);
    forall q | q in s && Later(q, now)
      ensures s[k].time <= q.time
    {
      var j :| 0 <= j < |s| && s[j] == q;
      if k < j {
        assert TimeKey(s[k]) <= TimeKey(s[j]);
      }
    }
  }

  /** In a time-sorted list, the head has the earliest time. */
  lemma SortedHeadMin(s: seq<PrayerEntry>)
    requires SortedBy(s, TimeKey) && s != []
    ensures forall q :: q in s ==> s[0].time <= q.time
  {
    forall q | q in s
      ensures s[0].time <= q.time
    {
      var j :| 0 <= j < |s| && s[j] == q;
      if 0 < j {
        assert TimeKey(s[0]) <= TimeKey(s[j]);
      }
    }
  }

  /**
   * The next prayer is null exactly for an empty list. When some entry is
   * strictly after now, the choice is today's and has the earliest such
   * time; otherwise it is tomorrow's and has the earliest time of all.
   */
  lemma NextPrayerChoice(prayers: seq<PrayerEntry>, now: Instant)
    ensures NextPrayer(prayers, now).None? <==> prayers == []
    ensures NextPrayer(prayers, now).Some? ==> NextPrayer(prayers, now).value.prayer in prayers
    ensures (exists q :: q in prayers && Later(q, now)) <==>
      NextPrayer(prayers, now).Some? && !NextPrayer(prayers, now).value.tomorrow
    ensures NextPrayer(prayers, now).Some? && !NextPrayer(prayers, now).value.tomorrow ==>
      var p := NextPrayer(prayers, now).value.prayer;
      Later(p, now) && forall q :: q in prayers && Later(q, now) ==> p.time <= q.time
    ensures NextPrayer(prayers, now).Some? && NextPrayer(prayers, now).value.tomorrow ==>
      forall q :: q in prayers ==> NextPrayer(prayers, now).value.prayer.time <= q.time
  {
    var sorted := SortBy(prayers, TimeKey);
    SortBySorted(prayers, TimeKey);
    SortByMembers(prayers, TimeKey);
    var first := FirstLater(sorted, now);
    if first.Some? {
      FirstLaterSortedMin(sorted, now);
    } else {
      if sorted != [] {
        SortedHeadMin(sorted);
        assert sorted[0] in sorted;
      }
      forall q | q in prayers
        ensures !Later(q, now)
      {
        var j :| 0 <= j < |sorted| && sorted[j] == q;
      }
    }
  }

  /** An entry exactly at now is not later, so it is never today's next prayer. */
  lemma NextPrayerStrict(prayers: seq<PrayerEntry>, now: Instant, p: PrayerEntry)
    requires p in prayers && AtMinute(p.time) == now
    ensures NextPrayer(prayers, now).Some?
    ensures NextPrayer(prayers, now).value.tomorrow || NextPrayer(prayers, now).value.prayer.time > p.time
  {
    NextPrayerChoice(prayers, now);
  }

  /**
   * The time left until `next`: against today's time, or tomorrow's when
   * the choice is tomorrow's or today's time has already passed.
   */
  function RemainingMs(next: Upcoming, now: Instant): int {
    var target := if next.tomorrow then MsPerDay + AtMinute(next.prayer.time) else AtMinute(next.prayer.time);
    var diff := target - now;
    if diff < 0 then MsPerDay + AtMinute(next.prayer.time) - now else diff
  }

  /** The `${hours}h ${minutes}m` text for the time left. */
  function RemainingText(next: Upcoming, now: Instant): string {
    var diff := RemainingMs(next, now);
    if diff >= 0 then DurationText(SplitHM(diff).0, SplitHM(diff).1) else ""
  }

  /** For the chosen next prayer the time left is positive and at most a day. */
  lemma RemainingBounds(prayers: seq<PrayerEntry>, now: Instant)
    requires prayers != []
    ensures NextPrayer(prayers, now).Some?
    ensures 0 < RemainingMs(NextPrayer(prayers, now).value, now) <= MsPerDay
  {
    NextPrayerChoice(prayers, now);
    var next := NextPrayer(prayers, now).value;
    if next.tomorrow {
      assert !Later(next.prayer, now);
    }
  }

  /** `Math.abs(now - parseTime(time)) < 30000`. */
  predicate InWindow(p: PrayerEntry, now: Instant) {
    -TriggerWindow < now - AtMinute(p.time) < TriggerWindow
  }

  /**
   * The entry the `for…of` loop breaks on: the first listed one with
   * `|now - parseTime(time)| < 30000`; none exactly when no entry is that
   * close.
   */
  function FirstInWindow(s: seq<PrayerEntry>, now: Instant): (r: Option<PrayerEntry>)
    ensures r.Some? ==> r.value in s && InWindow(r.value, now)
    ensures r.None? ==> forall p :: p in s ==> !InWindow(p, now)
    ensures r.Some? ==> exists k :: 0 <= k < |s| && s[k] == r.value && forall j :: 0 <= j < k ==> !InWindow(s[j], now)
  {
    if s == [] then None
    else if InWindow(s[0], now) then Some(s[0])
    else
      var r := FirstInWindow(s[1..], now);
      if r.Some? then
        var k :| 0 <= k < |s[1..]| && s[1..][k] == r.value && forall j :: 0 <= j < k ==> !InWindow(s[1..][j], now);
        assert s[k + 1] == r.value && forall j :: 0 <= j < k + 1 ==> !InWindow(s[j], now);
        r
      else r
  }

  /** What the trigger remembers and has done: `currentPrayer`, the reached callbacks and the audio played. */
  datatype TriggerState = TriggerState(current: Option<string>, reached: seq<string>, played: seq<string>)

  /**
   * One trigger check: the first entry in the window fires unless `guard`
   * already names it; firing remembers it, reports it and, unless `muted`,
   * plays its audio.
   */
  function TriggerStep(guard: Option<string>, muted: bool, st: TriggerState, prayers: seq<PrayerEntry>, now: Instant): TriggerState {
    match FirstInWindow(prayers, now)
    case None => st
    case Some(p) =>
      if guard == Some(p.name) then st
      else TriggerState(Some(p.name), st.reached + [p.name], st.played + (if muted then [] else [AudioFileFor(p)]))
  }

  /** Trigger checks on successive ticks, each guarded by the live `currentPrayer`. */
  function Firings(muted: bool, st: TriggerState, prayers: seq<PrayerEntry>, ticks: seq<Instant>): TriggerState
    decreases |ticks|
  {
    if ticks == [] then st
    else Firings(muted, TriggerStep(st.current, muted, st, prayers, ticks[0]), prayers, ticks[1..])
  }

  /**
   * Trigger checks AS WRITTEN: the interval callback keeps the
   * `currentPrayer` and `isMuted` of the render in which it was created, so
   * every tick is guarded by that `captured` value.
   */
  function FiringsAsWritten(captured: Option<string>, muted: bool, st: TriggerState, prayers: seq<PrayerEntry>, ticks: seq<Instant>): TriggerState
    decreases |ticks|
  {
    if ticks == [] then st
    else FiringsAsWritten(captured, muted, TriggerStep(captured, muted, st, prayers, ticks[0]), prayers, ticks[1..])
  }

  /**
   * With the live guard, ticks that all find the same prayer in the window
   * fire it at most once, and not at all when it is already remembered.
   */
  lemma {:induction false} FiringsOnce(muted: bool, st: TriggerState, prayers: seq<PrayerEntry>, ticks: seq<Instant>, p: PrayerEntry)
    requires forall i :: 0 <= i < |ticks| ==> FirstInWindow(prayers, ticks[i]) == Some(p)
    ensures |Firings(muted, st, prayers, ticks).reached| <= |st.reached| + 1
    ensures st.current == Some(p.name) ==> Firings(muted, st, prayers, ticks) == st
    ensures ticks != [] ==> Firings(muted, st, prayers, ticks).current == Some(p.name)
    decreases |ticks|
  {
    if ticks != [] {
      var st' := TriggerStep(st.current, muted, st, prayers, ticks[0]);
      assert st'.current == Some(p.name);
      FiringsOnce(muted, st', prayers, ticks[1..], p);
    }
  }

  /** The schedule of the component's tests. */
  const TestSchedule: seq<PrayerEntry> := [
    PrayerEntry("Fajr", 330, ""),
    PrayerEntry("Dhuhr", 795, ""),
    PrayerEntry("Asr", 990, ""),
    PrayerEntry("Maghrib", 1160, ""),
    PrayerEntry("Isha", 1230, "")
  ]

  /** Within a second of 13:15 the first test entry in the window is Dhuhr. */
  lemma DhuhrInWindow(t: Instant)
    requires AtMinute(795) - 1000 <= t <= AtMinute(795) + 1000
    ensures FirstInWindow(TestSchedule, t) == Some(TestSchedule[1])
  {
    assert TestSchedule[1..] == [TestSchedule[1]] + TestSchedule[2..];
  }

  /** The three ticks around 13:15 of the stale-guard example. */
  const DhuhrTicks: seq<Instant> := [AtMinute(795) - 1000, AtMinute(795), AtMinute(795) + 1000]

  /**
   * Ticks at 13:14:59, 13:15:00 and 13:15:01 with Dhuhr at 13:15: as
   * written, the stale guard fires Dhuhr (and replays its audio) on every
   * tick.
   */
  lemma StaleGuardRefires()
    ensures FiringsAsWritten(None, false, TriggerState(None, [], []), TestSchedule, DhuhrTicks).reached == ["Dhuhr", "Dhuhr", "Dhuhr"]
    ensures FiringsAsWritten(None, false, TriggerState(None, [], []), TestSchedule, DhuhrTicks).played == [DefaultAudio, DefaultAudio, DefaultAudio]
  {
    var ticks := DhuhrTicks;
    DhuhrInWindow(ticks[0]);
    DhuhrInWindow(ticks[1]);
    DhuhrInWindow(ticks[2]);
    var s0 := TriggerState(None, [], []);
    var s1 := TriggerState(Some("Dhuhr"), ["Dhuhr"], [DefaultAudio]);
    var s2 := TriggerState(Some("Dhuhr"), ["Dhuhr", "Dhuhr"], [DefaultAudio, DefaultAudio]);
    var s3 := TriggerState(Some("Dhuhr"), ["Dhuhr", "Dhuhr", "Dhuhr"], [DefaultAudio, DefaultAudio, DefaultAudio]);
    assert TriggerStep(None, false, s0, TestSchedule, ticks[0]) == s1;
    assert TriggerStep(None, false, s1, TestSchedule, ticks[1]) == s2;
    assert TriggerStep(None, false, s2, TestSchedule, ticks[2]) == s3;
    assert ticks[1..][1..] == [ticks[2]];
    assert FiringsAsWritten(None, false, s2, TestSchedule, [ticks[2]]) == s3;
    assert FiringsAsWritten(None, false, s1, TestSchedule, ticks[1..]) == s3;
  }

  /** The same ticks with the live guard fire Dhuhr once. */
  lemma LiveGuardFiresOnce()
    ensures Firings(false, TriggerState(None, [], []), TestSchedule, DhuhrTicks).reached == ["Dhuhr"]
    ensures Firings(false, TriggerState(None, [], []), TestSchedule, DhuhrTicks).played == [DefaultAudio]
  {
    var ticks := DhuhrTicks;
    DhuhrInWindow(ticks[0]);
    DhuhrInWindow(ticks[1]);
    DhuhrInWindow(ticks[2]);
    var s0 := TriggerState(None, [], []);
    var s1 := TriggerState(Some("Dhuhr"), ["Dhuhr"], [DefaultAudio]);
    assert TriggerStep(None, false, s0, TestSchedule, ticks[0]) == s1;
    assert forall i :: 0 <= i < |ticks[1..]| ==> FirstInWindow(TestSchedule, ticks[1..][i]) == Some(TestSchedule[1]);
    FiringsOnce(false, s1, TestSchedule, ticks[1..], TestSchedule[1]);
    assert Firings(false, s0, TestSchedule, ticks) == Firings(false, s1, TestSchedule, ticks[1..]);
  }

  /**
   * An entry later than now before which no other later entry falls (ties
   * included) is the next prayer, today.
   */
  lemma NextPrayerIs(prayers: seq<PrayerEntry>, now: Instant, i: nat)
    requires i < |prayers| && Later(prayers[i], now)
    requires forall j :: 0 <= j < |prayers| && j != i && Later(prayers[j], now) ==> prayers[j].time > prayers[i].time
    ensures NextPrayer(prayers, now) == Some(Upcoming(prayers[i], false))
  {
    NextPrayerChoice(prayers, now);
    assert prayers[i] in prayers;
    var p := NextPrayer(prayers, now).value.prayer;
    var j :| 0 <= j < |prayers| && prayers[j] == p;
  }

  /** At 12:00 the test schedule's next prayer is Dhuhr at 13:15, today. */
  lemma NoonExample()
    ensures NextPrayer(TestSchedule, 12 * MsPerHour) == Some(Upcoming(TestSchedule[1], false))
  {
    NextPrayerIs(TestSchedule, 12 * MsPerHour, 1);
  }

  /** Seventy-five minutes ahead the time left reads "1h 15m". */
  lemma NoonRemainingExample()
    ensures RemainingText(Upcoming(TestSchedule[1], false), 12 * MsPerHour) == "1h 15m"
  {
    assert RemainingMs(Upcoming(TestSchedule[1], false), 12 * MsPerHour) == 75 * MsPerMinute;
    assert SplitHM(75 * MsPerMinute) == (1, 15);
    assert NatToString(15) == "15";
  }

  /** At 13:15:00 the first check remembers Dhuhr, and the next prayer is Asr. */
  lemma DhuhrActiveExample()
    ensures TriggerStep(None, false, TriggerState(None, [], []), TestSchedule, AtMinute(795)).current == Some("Dhuhr")
    ensures NextPrayer(TestSchedule, AtMinute(795)) == Some(Upcoming(TestSchedule[2], false))
  {
    assert FirstInWindow(TestSchedule, AtMinute(795)) == Some(TestSchedule[1]);
    NextPrayerIs(TestSchedule, AtMinute(795), 2);
  }

  /** `prayerTimes.find(p => p.name === name)`: the first listed entry with that name. */
  function FindByName(s: seq<PrayerEntry>, name: string): (r: Option<PrayerEntry>)
    ensures r.Some? ==> r.value in s && r.value.name == name
    ensures r.None? ==> forall p :: p in s ==> p.name != name
    ensures r.Some? ==> exists k :: 0 <= k < |s| && s[k] == r.value && forall j :: 0 <= j < k ==> s[j].name != name
  {
    if s == [] then None
    else if s[0].name == name then Some(s[0])
    else
      var r := FindByName(s[1..], name);
      if r.Some? then
        var k :| 0 <= k < |s[1..]| && s[1..][k] == r.value && forall j :: 0 <= j < k ==> s[1..][j].name != name;
        assert s[k + 1] == r.value && forall j :: 0 <= j < k + 1 ==> s[j].name != name;
        r
      else r
  }

  /**
   * The search of `updateNextPrayer`: walk the entries in time order and
   * stop at the first strictly after now; failing that, take the earliest
   * one for tomorrow.
   */
  method SearchNextPrayer(prayers: seq<PrayerEntry>, now: Instant) returns (r: Option<Upcoming>)
    ensures r == NextPrayer(prayers, now)
  {
    var sorted := SortBy(prayers, TimeKey);
    var found: Option<PrayerEntry> := None;
    var i := 0;
    while i < |sorted|
      invariant 0 <= i <= |sorted|
      invariant FirstLater(sorted, now) == FirstLater(sorted[i..], now)
    {
      assert sorted[i..][1..] == sorted[i + 1..];
      if Later(sorted[i], now) {
        found := Some(sorted[i]);
        break;
      }
      i := i + 1;
    }
    if found.Some? {
      r := Some(Upcoming(found.value, false));
    } else if |sorted| > 0 {
      r := Some(Upcoming(sorted[0], true));
    } else {
      r := None;
    }
  }

  /** The component's state. */
  class Player {
    var prayerTimes: seq<PrayerEntry>
    var nextPrayer: Option<Upcoming>
    var timeRemaining: string
    var currentPrayer: Option<string>
    var isMuted: bool
    var isPlaying: bool
    /** Whether `audioRef.current` holds an audio element. */
    var hasAudio: bool
    /** The names passed to `onPrayerTimeReached`, in order. */
    var reached: seq<string>
    /** The sources handed to the audio element, in order. */
    var played: seq<string>

    function Trigger(): TriggerState
      reads this
    {
      TriggerState(currentPrayer, reached, played)
    }

    constructor (prayerTimes: seq<PrayerEntry>, initialMuted: bool)
      ensures this.prayerTimes == prayerTimes && isMuted == initialMuted
      ensures nextPrayer == None && currentPrayer == None && !isPlaying && !hasAudio
      ensures reached == [] && played == [] && timeRemaining == ""
    {
      this.prayerTimes := prayerTimes;
      nextPrayer := None;
      timeRemaining := "";
      currentPrayer := None;
      isMuted := initialMuted;
      isPlaying := false;
      hasAudio := false;
      reached := [];
      played := [];
    }

    /** `playAzan`: (re)starts the audio element on `src`. */
    method PlayAzan(src: string)
      modifies this
      ensures hasAudio && isPlaying && played == old(played) + [src]
      ensures prayerTimes == old(prayerTimes) && nextPrayer == old(nextPrayer) && timeRemaining == old(timeRemaining)
      ensures currentPrayer == old(currentPrayer) && isMuted == old(isMuted) && reached == old(reached)
    {
      hasAudio := true;
      played := played + [src];
      isPlaying := true;
    }

    /**
     * `updateNextPrayer` with the live `currentPrayer` and `isMuted`: the
     * next prayer is searched in time order, the time left is rendered, and
     * the trigger check runs over the entries in list order.
     */
    method Tick(now: Instant)
      modifies this
      ensures nextPrayer == NextPrayer(prayerTimes, now)
      ensures nextPrayer.Some? ==> timeRemaining == RemainingText(nextPrayer.value, now)
      ensures nextPrayer.None? ==> timeRemaining == old(timeRemaining)
      ensures Trigger() == TriggerStep(old(currentPrayer), isMuted, old(Trigger()), prayerTimes, now)
      ensures prayerTimes == old(prayerTimes) && isMuted == old(isMuted)
      ensures played != old(played) ==> hasAudio && isPlaying
      ensures played == old(played) ==> hasAudio == old(hasAudio) && isPlaying == old(isPlaying)
    {
      nextPrayer := SearchNextPrayer(prayerTimes, now);
      if nextPrayer.Some? {
        timeRemaining := RemainingText(nextPrayer.value, now);
      }
      CheckTrigger(now);
    }

    /** The trigger half of `updateNextPrayer`: the first entry in the window fires once. */
    method CheckTrigger(now: Instant)
      modifies this
      ensures Trigger() == TriggerStep(old(currentPrayer), isMuted, old(Trigger()), prayerTimes, now)
      ensures prayerTimes == old(prayerTimes) && isMuted == old(isMuted)
      ensures nextPrayer == old(nextPrayer) && timeRemaining == old(timeRemaining)
      ensures played != old(played) ==> hasAudio && isPlaying
      ensures played == old(played) ==> hasAudio == old(hasAudio) && isPlaying == old(isPlaying)
    {
      var j := 0;
      while j < |prayerTimes|
        invariant 0 <= j <= |prayerTimes|
        invariant FirstInWindow(prayerTimes, now) == FirstInWindow(prayerTimes[j..], now)
        invariant Trigger() == old(Trigger()) && hasAudio == old(hasAudio) && isPlaying == old(isPlaying)
        invariant prayerTimes == old(prayerTimes) && isMuted == old(isMuted)
        invariant nextPrayer == old(nextPrayer) && timeRemaining == old(timeRemaining)
      {
        assert prayerTimes[j..][1..] == prayerTimes[j + 1..];
        var p := prayerTimes[j];
        if InWindow(p, now) {
          if currentPrayer != Some(p.name) {
            currentPrayer := Some(p.name);
            if !isMuted {
              PlayAzan(AudioFileFor(p));
            }
            reached := reached + [p.name];
          }
          break;
        }
        j := j + 1;
      }
    }

    /** `stopAzan`: with an audio element, stops it and forgets the prayer. */
    method StopAzan()
      modifies this
      ensures old(hasAudio) ==> !isPlaying && currentPrayer == None
      ensures !old(hasAudio) ==> isPlaying == old(isPlaying) && currentPrayer == old(currentPrayer)
      ensures hasAudio == old(hasAudio) && isMuted == old(isMuted) && played == old(played) && reached == old(reached)
      ensures prayerTimes == old(prayerTimes) && nextPrayer == old(nextPrayer) && timeRemaining == old(timeRemaining)
    {
      if hasAudio {
        isPlaying := false;
        currentPrayer := None;
      }
    }

    /** The audio's `ended` handler: playback over, prayer forgotten. */
    method AzanEnded()
      modifies this
      ensures !isPlaying && currentPrayer == None
      ensures hasAudio == old(hasAudio) && isMuted == old(isMuted) && played == old(played) && reached == old(reached)
      ensures prayerTimes == old(prayerTimes) && nextPrayer == old(nextPrayer) && timeRemaining == old(timeRemaining)
    {
      isPlaying := false;
      currentPrayer := None;
    }

    /**
     * `toggleMute`: muting stops the azan (forgetting the prayer when an
     * audio element exists); unmuting while a prayer is remembered plays the
     * audio of the first listed entry with that name, if there is one.
     */
    method ToggleMute()
      modifies this
      ensures isMuted == !old(isMuted)
      ensures isMuted ==> played == old(played) && hasAudio == old(hasAudio)
      ensures isMuted && old(hasAudio) ==> !isPlaying && currentPrayer == None
      ensures isMuted && !old(hasAudio) ==> currentPrayer == old(currentPrayer)
      ensures !isMuted ==> currentPrayer == old(currentPrayer)
      ensures !isMuted && old(currentPrayer).Some? && FindByName(prayerTimes, old(currentPrayer).value).Some? ==>
        played == old(played) + [AudioFileFor(FindByName(prayerTimes, old(currentPrayer).value).value)] && isPlaying
      ensures !isMuted && (old(currentPrayer).None? || FindByName(prayerTimes, old(currentPrayer).value).None?) ==>
        played == old(played) && isPlaying == old(isPlaying)
      ensures reached == old(reached) && prayerTimes == old(prayerTimes) && nextPrayer == old(nextPrayer)
    {
      var newMuted := !isMuted;
      isMuted := newMuted;
      if !newMuted && currentPrayer.Some? {
        var prayer := FindByName(prayerTimes, currentPrayer.value);
        if prayer.Some? {
          PlayAzan(AudioFileFor(prayer.value));
        }
      }
      if newMuted {
        StopAzan();
      }
    }
  }
}

=== FILE: prayer_time_service.dfy ===
/**
 * The prayer-time cache service: a date-keyed store of computed prayer
 * records, filled lazily on lookup (cache first, write-through on a miss),
 * by inclusive day ranges, and by a forward preload in weekly chunks; a
 * location change persists the new location, wipes the store and preloads
 * again.
 *
 * Dates are day numbers. The astronomical calculation and the calendar's
 * month arithmetic belong to libraries outside the model and are given to
 * the service as functions.
 */
module PrayerTimeService {
  import opened Wrappers
  import opened Clock

  /** Latitude/longitude in ten-thousandths of a degree (floating point is not modelled). */
  datatype Coordinates = Coordinates(latitude: int, longitude: int)

  /** The `location` setting. */
  datatype Location = Location(latitude: int, longitude: int, elevation: int, city: Option<string>, country: Option<string>)

  /** The argument of `updateLocation`; `elevation` may be absent. */
  datatype LocationInput = LocationInput(latitude: int, longitude: int, elevation: Option<int>, city: Option<string>, country: Option<string>)

  /** The `adjustments` setting: a minute offset per prayer. */
  datatype Adjustments = Adjustments(fajr: int, sunrise: int, dhuhr: int, asr: int, maghrib: int, isha: int)

  /** The six times of one day, each the minute of the day its `HH:mm` text names. */
  datatype DayTimes = DayTimes(fajr: Minute, sunrise: Minute, dhuhr: Minute, asr: Minute, maghrib: Minute, isha: Minute)

  /** One stored record; `date` is the store's key path. */
  datatype PrayerTimeRecord = PrayerTimeRecord(
    date: int,
    times: DayTimes,
    hijriDate: string,
    location: string,
    calculationMethod: string,
    lastUpdated: int)

  /** The astronomical library: the day's times at the given coordinates (Makkah angles). */
  type Astronomy = (int, Coordinates) -> DayTimes

  /** The calendar library: the day `months` calendar months after `day`. */
  type AddMonths = (int, int) -> int

  /** Kuala Lumpur: 3.1390, 101.6869, elevation 50. */
  const MalaysiaCoordinates: Coordinates := Coordinates(31390, 1016869)
  const DefaultLocation: Location :=
    Location(31390, 1016869, 50, Some("Kuala Lumpur"), Some("Malaysia"))
  const DefaultMethod: string := "Makkah"
  const ZeroAdjustments: Adjustments := Adjustments(0, 0, 0, 0, 0, 0)
  const HijriPlaceholder: string := "1445-01-01"
  const RecordLocation: string := "Kuala Lumpur, Malaysia"
  /** Days added to a chunk's first day to get its last day. */
  const ChunkSize: int := 7
  /** The look-ahead `updateLocation` and the start-up preload use. */
  const DefaultMonthsAhead: int := 2

  function CoordinatesOf(loc: Location): Coordinates {
    Coordinates(loc.latitude, loc.longitude)
  }

  /**
   * `calculatePrayerTimes`: a fresh record for `day`, keyed by that day, with
   * the library's times at `coords`; location label, method and Hijri date
   * are the fixed placeholders of the source.
   */
  function CalculatePrayerTimes(astronomy: Astronomy, day: int, coords: Coordinates, stamp: int): (r: PrayerTimeRecord)
    ensures r.date == day && r.times == astronomy(day, coords) && r.lastUpdated == stamp
    ensures r.hijriDate == HijriPlaceholder && r.location == RecordLocation && r.calculationMethod == DefaultMethod
  {
    PrayerTimeRecord(day, astronomy(day, coords), HijriPlaceholder, RecordLocation, DefaultMethod, stamp)
  }

  /**
   * A calculated record is dated and stamped as asked, and each of its six
   * `HH:mm` texts reads back as the library's time for that day at those
   * coordinates.
   */
  lemma CalculatedTimesReadBack(astronomy: Astronomy, day: int, coords: Coordinates, stamp: int)
    ensures var r := CalculatePrayerTimes(astronomy, day, coords, stamp);
      var t := astronomy(day, coords);
      && r.date == day && r.lastUpdated == stamp
      && ParseMinute(FormatHHMM(r.times.fajr)) == Some(t.fajr as int)
      && ParseMinute(FormatHHMM(r.times.sunrise)) == Some(t.sunrise as int)
      && ParseMinute(FormatHHMM(r.times.dhuhr)) == Some(t.dhuhr as int)
      && ParseMinute(FormatHHMM(r.times.asr)) == Some(t.asr as int)
      && ParseMinute(FormatHHMM(r.times.maghrib)) == Some(t.maghrib as int)
      && ParseMinute(FormatHHMM(r.times.isha)) == Some(t.isha as int)
  {
  }

  /** The inclusive day range `[first, last]` of one preload chunk. */
  datatype Chunk = Chunk(first: int, last: int)

  /**
   * The chunk starting at `c`: it ends at the earlier of a week on and
   * `end`, so inside the window it spans at most eight days and never
   * passes `end`.
   */
  function ChunkAt(c: int, end: int): (k: Chunk)
    ensures k.first == c
    ensures k.last <= c + ChunkSize && k.last <= end
    ensures k.last == c + ChunkSize || k.last == end
    ensures c <= end ==> c <= k.last <= end && k.last - k.first <= ChunkSize
  {
    Chunk(c, if c + ChunkSize > end then end else c + ChunkSize)
  }

  /** The chunks the preload loop visits AS WRITTEN, under the guard `currentChunkStart < endDate`. */
  function ChunksAsWritten(c: int, end: int): seq<Chunk>
    decreases end - c
  {
    if c < end then
      var k := ChunkAt(c, end);
      [k] + ChunksAsWritten(k.last + 1, end)
    else []
  }

  /** The chunks under the guard `currentChunkStart <= endDate`, which reach `end` itself. */
  function Chunks(c: int, end: int): seq<Chunk>
    decreases end - c
  {
    if c <= end then
      var k := ChunkAt(c, end);
      [k] + Chunks(k.last + 1, end)
    else []
  }

  predicate Covered(chunks: seq<Chunk>, d: int) {
    exists i :: 0 <= i < |chunks| && chunks[i].first <= d <= chunks[i].last
  }

  lemma CoveredCons(k: Chunk, rest: seq<Chunk>, d: int)
    ensures Covered([k] + rest, d) <==> (k.first <= d <= k.last) || Covered(rest, d)
  {
    var s := [k] + rest;
    if Covered(rest, d) {
      var i :| 0 <= i < |rest| && rest[i].first <= d <= rest[i].last;
      assert s[i + 1] == rest[i];
    }
    if Covered(s, d) {
      var i :| 0 <= i < |s| && s[i].first <= d <= s[i].last;
      if i > 0 {
        assert rest[i - 1] == s[i];
      }
    }
    if k.first <= d <= k.last {
      assert s[0] == k;
    }
  }

  /**
   * The corrected chunks are ascending, each spans at most eight days,
   * each starts the day after the previous one ends, and together they
   * cover exactly the days from `c` through `end`.
   */
  lemma {:induction false} ChunksTile(c: int, end: int)
    ensures var cs := Chunks(c, end);
      && (forall i :: 0 <= i < |cs| ==> cs[i].first <= cs[i].last <= cs[i].first + ChunkSize)
      && (forall i :: 0 < i < |cs| ==> cs[i].first == cs[i - 1].last + 1)
      && (c <= end ==> |cs| > 0 && cs[0].first == c && cs[|cs| - 1].last == end)
      && (forall d :: Covered(cs, d) <==> c <= d <= end)
    decreases end - c
  {
    if c <= end {
      var k := ChunkAt(c, end);
      var rest := Chunks(k.last + 1, end);
      ChunksTile(k.last + 1, end);
      var cs := [k] + rest;
      assert Chunks(c, end) == cs;
      forall i | 0 < i < |cs|
        ensures cs[i].first == cs[i - 1].last + 1
      {
        if i == 1 {
          assert cs[1] == rest[0];
        } else {
          assert cs[i] == rest[i - 1] && cs[i - 1] == rest[i - 2];
        }
      }
      forall d
        ensures Covered(cs, d) <==> c <= d <= end
      {
        CoveredCons(k, rest, d);
      }
    }
  }

  /**
   * What the loop as written covers: every day before `end`, and `end`
   * itself only when `end - c` is not a multiple of eight.
   */
  lemma {:induction false} ChunksAsWrittenCoverage(c: int, end: int, d: int)
    ensures Covered(ChunksAsWritten(c, end), d) <==>
      (c <= d < end || (c <= end && d == end && (end - c) % 8 != 0))
    decreases end - c
  {
    if c < end {
      var k := ChunkAt(c, end);
      var rest := ChunksAsWritten(k.last + 1, end);
      CoveredCons(k, rest, d);
      ChunksAsWrittenCoverage(k.last + 1, end, d);
      if k.last < end {
        assert (end - (c + 8)) % 8 == (end - c) % 8;
      }
    } else if c == end {
      assert (end - c) % 8 == 0;
    }
  }

  /**
   * `preloadPrayerTimes(4)` on 1 February of a common year ends on 1 June,
   * 120 days later: the as-written loop stops before that last day.
   */
  lemma PreloadMissesLastDay()
    ensures !Covered(ChunksAsWritten(0, 120), 120)
    ensures Covered(Chunks(0, 120), 120)
  {
    ChunksAsWrittenCoverage(0, 120, 120);
    ChunksTile(0, 120);
  }

  /**
   * A two-month window is 59 to 62 days long, never a multiple of eight, so
   * for it the loop as written covers exactly the days the corrected one
   * does.
   */
  lemma TwoMonthWindowUnaffected(c: int, end: int)
    requires 59 <= end - c <= 62
    ensures forall d :: Covered(ChunksAsWritten(c, end), d) <==> Covered(Chunks(c, end), d)
  {
    ChunksTile(c, end);
    forall d
      ensures Covered(ChunksAsWritten(c, end), d) <==> c <= d <= end
    {
      ChunksAsWrittenCoverage(c, end, d);
    }
  }

  /** The `prayer-times-db` database: the `prayerTimes` store and the `settings` store. */
  class PrayerTimeService {
    /** The `prayerTimes` object store: records by their `date`. */
    var cache: map<int, PrayerTimeRecord>
    /** The `settings` object store, one field per key. */
    var location: Option<Location>
    var calculationMethod: Option<string>
    var adjustments: Option<Adjustments>
    /** Whether the database connection has been opened (`this.db` is set). */
    var isOpen: bool
    const astronomy: Astronomy
    const addMonths: AddMonths

    /** The coordinates a miss is computed with: the location setting, else Kuala Lumpur. */
    function CurrentCoordinates(): Coordinates
      reads this
    {
      if location.Some? then CoordinatesOf(location.value) else MalaysiaCoordinates
    }

    /**
     * Every record is the calculation for the day it is stored under, at
     * the current location, and differs from a fresh calculation only in
     * its stamp; nothing is stored before the database is open, and an
     * open database always has a location.
     */
    ghost predicate Valid()
      reads this
    {
      && (forall d :: d in cache ==> cache[d] == CalculatePrayerTimes(astronomy, d, CurrentCoordinates(), cache[d].lastUpdated))
      && (!isOpen ==> cache == map[])
      && (isOpen ==> location.Some?)
    }

    /** The settings `init` leaves, from the settings it found. */
    ghost predicate SeededFrom(loc0: Option<Location>, method0: Option<string>, adj0: Option<Adjustments>)
      reads this
    {
      && isOpen
      && if loc0.Some? then location == loc0 && calculationMethod == method0 && adjustments == adj0
         else location == Some(DefaultLocation) && calculationMethod == Some(DefaultMethod) && adjustments == Some(ZeroAdjustments)
    }

    /** A fresh service over an empty database. */
    constructor (astronomy: Astronomy, addMonths: AddMonths)
      ensures Valid() && !isOpen && cache == map[]
      ensures location == None && calculationMethod == None && adjustments == None
      ensures this.astronomy == astronomy && this.addMonths == addMonths
    {
      cache := map[];
      location := None;
      calculationMethod := None;
      adjustments := None;
      isOpen := false;
      this.astronomy := astronomy;
      this.addMonths := addMonths;
    }

    /**
     * `init`: opens the database and seeds location, method and zero
     * adjustments only when no location is stored.
     */
    method Init()
      requires Valid()
      modifies this
      ensures Valid()
      ensures SeededFrom(old(location), old(calculationMethod), old(adjustments))
      ensures cache == old(cache)
    {
      isOpen := true;
      if location.None? {
        location := Some(DefaultLocation);
        calculationMethod := Some(DefaultMethod);
        adjustments := Some(ZeroAdjustments);
      }
    }

    /**
     * `getPrayerTimes`: a hit returns the stored record and changes nothing;
     * a miss computes the record for the current location, stores it under
     * its date and returns it.
     */
    method GetPrayerTimes(day: int, stamp: int) returns (r: PrayerTimeRecord)
      requires Valid()
      modifies this
      ensures Valid()
      ensures SeededFrom(old(location), old(calculationMethod), old(adjustments))
      ensures r.date == day && day in cache && cache[day] == r
      ensures r == CalculatePrayerTimes(astronomy, day, CurrentCoordinates(), r.lastUpdated)
      ensures old(day in cache) ==> r == old(cache[day]) && unchanged(this)
      ensures old(day !in cache) ==>
        r == CalculatePrayerTimes(astronomy, day, CurrentCoordinates(), stamp) && cache == old(cache)[day := r]
    {
      if !isOpen {
        Init();
      }
      if day in cache {
        return cache[day];
      }
      var coords := if location.Some? then CoordinatesOf(location.value) else MalaysiaCoordinates;
      r := CalculatePrayerTimes(astronomy, day, coords, stamp);
      cache := cache[r.date := r];
    }

    /**
     * `getPrayerTimesRange`: one record per day from `start` through `end`,
     * ascending; afterwards each of those days is cached, earlier entries
     * are untouched and no other day was added.
     */
    method GetPrayerTimesRange(start: int, end: int, stamp: int) returns (results: seq<PrayerTimeRecord>)
      requires Valid()
      modifies this
      ensures Valid()
      ensures start <= end ==> SeededFrom(old(location), old(calculationMethod), old(adjustments))
      ensures start > end ==> unchanged(this)
      ensures |results| == if start <= end then end - start + 1 else 0
      ensures forall d :: start <= d <= end ==> d in cache
      ensures forall i :: 0 <= i < |results| ==> results[i].date == start + i && results[i] == cache[start + i]
      ensures forall d :: d in old(cache) ==> d in cache && cache[d] == old(cache)[d]
      ensures forall d :: d in cache ==> d in old(cache) || start <= d <= end
      ensures forall d :: d in cache && d !in old(cache) ==> cache[d].lastUpdated == stamp
    {
      results := [];
      var current := start;
      while current <= end
        invariant Valid()
        invariant start <= current <= end + 1 || current == start
        invariant current > start ==> SeededFrom(old(location), old(calculationMethod), old(adjustments))
        invariant current == start ==> unchanged(this)
        invariant |results| == current - start
        invariant forall d :: start <= d < current ==> d in cache
        invariant forall i :: 0 <= i < |results| ==> results[i].date == start + i && results[i] == cache[start + i]
        invariant forall d :: d in old(cache) ==> d in cache && cache[d] == old(cache)[d]
        invariant forall d :: d in cache ==> d in old(cache) || start <= d < current
        invariant forall d :: d in cache && d !in old(cache) ==> cache[d].lastUpdated == stamp
        decreases end - current
      {
        var record := GetPrayerTimes(current, stamp);
        results := results + [record];
        current := current + 1;
      }
    }

    /**
     * `preloadPrayerTimes`: walks from `today` to `monthsAhead` months later
     * in chunks of `Chunks(today, end)`, caching every day of the window;
     * earlier entries are untouched and no day outside the window is added.
     * The loop guard is the corrected `<=` (see `ChunksAsWritten`).
     */
    method PreloadPrayerTimes(monthsAhead: int, today: int, stamp: int) returns (ghost visited: seq<Chunk>)
      requires Valid()
      modifies this
      ensures Valid()
      ensures visited == Chunks(today, addMonths(today, monthsAhead))
      ensures today <= addMonths(today, monthsAhead) ==> SeededFrom(old(location), old(calculationMethod), old(adjustments))
      ensures today > addMonths(today, monthsAhead) ==> unchanged(this)
      ensures forall d :: today <= d <= addMonths(today, monthsAhead) ==> d in cache
      ensures forall d :: d in old(cache) ==> d in cache && cache[d] == old(cache)[d]
      ensures forall d :: d in cache ==> d in old(cache) || today <= d <= addMonths(today, monthsAhead)
      ensures forall d :: d in cache && d !in old(cache) ==> cache[d].lastUpdated == stamp
    {
      var end := addMonths(today, monthsAhead);
      var chunkStart := today;
      visited := [];
      while chunkStart <= end
        invariant Valid()
        invariant today <= chunkStart <= end + 1 || chunkStart == today
        invariant visited + Chunks(chunkStart, end) == Chunks(today, end)
        invariant chunkStart > today ==> SeededFrom(old(location), old(calculationMethod), old(adjustments))
        invariant chunkStart == today ==> unchanged(this)
        invariant forall d :: today <= d < chunkStart ==> d in cache
        invariant forall d :: d in old(cache) ==> d in cache && cache[d] == old(cache)[d]
        invariant forall d :: d in cache ==> d in old(cache) || today <= d < chunkStart
        invariant forall d :: d in cache && d !in old(cache) ==> cache[d].lastUpdated == stamp
        decreases end - chunkStart
      {
        var chunk := ChunkAt(chunkStart, end);
        var _ := GetPrayerTimesRange(chunk.first, chunk.last, stamp);
        visited := visited + [chunk];
        chunkStart := chunk.last + 1;
      }
      assert Chunks(chunkStart, end) == [];
    }

    /**
     * `updateLocation`: stores the new location (elevation defaulting to 0),
     * clears every cached record and preloads the default window again, so
     * every record left afterwards was computed in this call, for the new
     * coordinates. The method and adjustments settings are kept (seeded by
     * `init` first when nothing was stored).
     */
    method UpdateLocation(input: LocationInput, today: int, stamp: int)
      requires Valid()
      modifies this
      ensures Valid()
      ensures location == Some(Location(input.latitude, input.longitude, input.elevation.GetOr(0), input.city, input.country))
      ensures isOpen
      ensures old(location).Some? ==> calculationMethod == old(calculationMethod) && adjustments == old(adjustments)
      ensures old(location).None? ==> calculationMethod == Some(DefaultMethod) && adjustments == Some(ZeroAdjustments)
      ensures forall d :: d in cache ==> cache[d] == CalculatePrayerTimes(astronomy, d, Coordinates(input.latitude, input.longitude), stamp)
      ensures forall d :: d in cache <==> today <= d <= addMonths(today, DefaultMonthsAhead)
    {
      if !isOpen {
        Init();
      }
      location := Some(Location(input.latitude, input.longitude, input.elevation.GetOr(0), input.city, input.country));
      cache := map[];
      ghost var _ := PreloadPrayerTimes(DefaultMonthsAhead, today, stamp);
    }
  }
}

=== FILE: prayer_times_display.dfy ===
/**
 * The next-prayer effect of the prayer-times display: over the fixed list
 * Fajr, Sunrise, Dhuhr, Asr, Maghrib, Isha it picks the first entry whose
 * `HH:mm` text is greater than the current `HH:mm` text, else Fajr
 * tomorrow, and renders the time left as `Xh Ym`; the card whose name
 * equals the chosen name is highlighted.
 */
module PrayerTimesDisplay {
  import opened Wrappers
  import opened Clock
  import PrayerTimeService

  /** The six cards, in their fixed order. */
  function DisplayPrayers(t: PrayerTimeService.DayTimes): (s: seq<NamedTime>)
    ensures |s| == 6
    ensures forall i, j :: 0 <= i < j < |s| ==> s[i].name != s[j].name
    ensures s[0].name == "Fajr" && s[0].time == t.fajr
  {
    [NamedTime("Fajr", t.fajr), NamedTime("Sunrise", t.sunrise), NamedTime("Dhuhr", t.dhuhr),
     NamedTime("Asr", t.asr), NamedTime("Maghrib", t.maghrib), NamedTime("Isha", t.isha)]
  }

  /** The position of the chosen entry, and whether it is tomorrow's (`isNextDay`). */
  datatype Choice = Choice(index: nat, nextDay: bool)

  /** The first index from `i` on whose `HH:mm` text is greater than `nowText`. */
  function FirstAfterFrom(prayers: seq<NamedTime>, nowText: string, i: nat): (r: Option<nat>)
    requires i <= |prayers|
    ensures r.Some? ==> i <= r.value < |prayers| && LexLess(nowText, FormatHHMM(prayers[r.value].time))
    ensures r.Some? ==> forall j :: i <= j < r.value ==> !LexLess(nowText, FormatHHMM(prayers[j].time))
    ensures r.None? ==> forall j :: i <= j < |prayers| ==> !LexLess(nowText, FormatHHMM(prayers[j].time))
    decreases |prayers| - i
  {
    if i == |prayers| then None
    else if LexLess(nowText, FormatHHMM(prayers[i].time)) then Some(i)
    else FirstAfterFrom(prayers, nowText, i + 1)
  }

  /** The entry the effect chooses at `now`, if the list is not empty. */
  function DisplayChoice(prayers: seq<NamedTime>, now: Instant): Option<Choice> {
    match FirstAfterFrom(prayers, FormatHHMM(MinuteOf(now)), 0)
    case Some(i) => Some(Choice(i, false))
    case None => if |prayers| > 0 then Some(Choice(0, true)) else None
  }

  /**
   * In time terms the choice is the first entry in list order whose minute
   * begins after now, or else the first entry, tomorrow.
   */
  lemma DisplayChoiceByTime(prayers: seq<NamedTime>, now: Instant)
    ensures DisplayChoice(prayers, now).None? <==> prayers == []
    ensures DisplayChoice(prayers, now).Some? ==> DisplayChoice(prayers, now).value.index < |prayers|
    ensures DisplayChoice(prayers, now).Some? && !DisplayChoice(prayers, now).value.nextDay ==>
      var i := DisplayChoice(prayers, now).value.index;
      AtMinute(prayers[i].time) > now && forall j :: 0 <= j < i ==> AtMinute(prayers[j].time) <= now
    ensures DisplayChoice(prayers, now).Some? && DisplayChoice(prayers, now).value.nextDay ==>
      DisplayChoice(prayers, now).value.index == 0 && forall j :: 0 <= j < |prayers| ==> AtMinute(prayers[j].time) <= now
  {
    forall j | 0 <= j < |prayers|
      ensures LexLess(FormatHHMM(MinuteOf(now)), FormatHHMM(prayers[j].time)) <==> AtMinute(prayers[j].time) > now
    {
      TextAfterIffLater(prayers[j].time, now);
    }
  }

  /** An entry in the current minute is never chosen for today. */
  lemma CurrentMinuteNotNext(prayers: seq<NamedTime>, now: Instant, i: nat)
    requires i < |prayers| && prayers[i].time == MinuteOf(now)
    ensures DisplayChoice(prayers, now).Some?
    ensures DisplayChoice(prayers, now).value.index != i || DisplayChoice(prayers, now).value.nextDay
  {
    DisplayChoiceByTime(prayers, now);
  }

  /** `prayerTime.getTime() - now.getTime()`, with a day added for tomorrow's choice. */
  function DiffMs(prayers: seq<NamedTime>, c: Choice, now: Instant): int
    requires c.index < |prayers|
  {
    AtMinute(prayers[c.index].time) + (if c.nextDay then MsPerDay else 0) - now
  }

  /** For the chosen entry the time left is positive and at most one day, on both branches. */
  lemma DiffBounds(prayers: seq<NamedTime>, now: Instant)
    requires prayers != []
    ensures DisplayChoice(prayers, now).Some?
    ensures var c := DisplayChoice(prayers, now).value;
      c.index < |prayers| && 0 < DiffMs(prayers, c, now) <= MsPerDay
  {
    DisplayChoiceByTime(prayers, now);
  }

  /**
   * `${Math.floor(diffMins / 60)}h ${diffMins % 60}m` with
   * `diffMins = Math.floor(diffMs / 60000)`, for a non-negative delta.
   */
  function RemainingText(diffMs: nat): string {
    var diffMins := diffMs / MsPerMinute;
    DurationText(diffMins / 60, diffMins % 60)
  }

  /**
   * The display's hours and minutes (via whole minutes) are the player's
   * hours and minutes (via whole hours) for the same delta.
   */
  lemma RemainingTextAgrees(diffMs: nat)
    ensures RemainingText(diffMs) == DurationText(SplitHM(diffMs).0, SplitHM(diffMs).1)
  {
    var q := diffMs / MsPerMinute;
    var h := q / 60;
    var m := q % 60;
    var sec := diffMs % MsPerMinute;
    assert diffMs == q * MsPerMinute + sec;
    assert q == h * 60 + m;
    assert diffMs == h * MsPerHour + (m * MsPerMinute + sec);
    assert 0 <= m * MsPerMinute + sec < MsPerHour;
    assert diffMs / MsPerHour == h;
    assert diffMs % MsPerHour == m * MsPerMinute + sec;
    assert (m * MsPerMinute + sec) / MsPerMinute == m;
  }

  /** What the effect stores: the chosen name, its `HH:mm` text and the time left. */
  datatype NextInfo = NextInfo(name: string, time: string, timeRemaining: string)

  /**
   * The card highlight: each card is current exactly when its name is the
   * next prayer's, so with distinct card names at most one card is lit, and
   * some card is lit exactly when the next prayer is one of the cards.
   */
  function Highlighted(cards: seq<NamedTime>, next: Option<NextInfo>): (h: seq<bool>)
    ensures |h| == |cards|
    ensures forall i :: 0 <= i < |cards| ==> (h[i] <==> next.Some? && next.value.name == cards[i].name)
    ensures (forall i, j :: 0 <= i < j < |cards| ==> cards[i].name != cards[j].name) ==>
      forall i, j :: 0 <= i < |h| && 0 <= j < |h| && h[i] && h[j] ==> i == j
    ensures (exists i :: 0 <= i < |h| && h[i]) <==>
      next.Some? && exists i :: 0 <= i < |cards| && cards[i].name == next.value.name
  {
    seq(|cards|, i requires 0 <= i < |cards| => next.Some? && next.value.name == cards[i].name)
  }

  class Display {
    var nextPrayer: Option<NextInfo>

    constructor ()
      ensures nextPrayer == None
    {
      nextPrayer := None;
    }

    /**
     * The effect on `[prayerTimes, currentTime]`: without a record nothing
     * changes; otherwise the stored next prayer is the chosen card, with its
     * time left.
     */
    method Recompute(record: Option<PrayerTimeService.DayTimes>, now: Instant)
      modifies this
      ensures record.None? ==> nextPrayer == old(nextPrayer)
      ensures record.Some? ==>
        var prayers := DisplayPrayers(record.value);
        var c := DisplayChoice(prayers, now).value;
        c.index < |prayers| && DiffMs(prayers, c, now) > 0 &&
        nextPrayer == Some(NextInfo(prayers[c.index].name, FormatHHMM(prayers[c.index].time), RemainingText(DiffMs(prayers, c, now))))
    {
      if record.None? {
        return;
      }
      var prayers := DisplayPrayers(record.value);
      var currentTimeStr := FormatHHMM(MinuteOf(now));
      var nextPrayerFound := false;
      var index := 0;
      var isNextDay := false;
      var i := 0;
      while i < |prayers|
        invariant 0 <= i <= |prayers|
        invariant !nextPrayerFound
        invariant FirstAfterFrom(prayers, currentTimeStr, 0) == FirstAfterFrom(prayers, currentTimeStr, i)
      {
        if LexLess(currentTimeStr, FormatHHMM(prayers[i].time)) {
          nextPrayerFound := true;
          index := i;
          break;
        }
        i := i + 1;
      }
      if !nextPrayerFound {
        index := 0;
        isNextDay := true;
      }
      DiffBounds(prayers, now);
      var c := Choice(index, isNextDay);
      var diffMs := DiffMs(prayers, c, now);
      nextPrayer := Some(NextInfo(prayers[index].name, FormatHHMM(prayers[index].time), RemainingText(diffMs)));
    }
  }

  /** After a recompute with a record, exactly the chosen card is highlighted. */
  lemma OneCardHighlighted(t: PrayerTimeService.DayTimes, now: Instant, next: Option<NextInfo>)
    requires var prayers := DisplayPrayers(t);
      var c := DisplayChoice(prayers, now);
      c.Some? && c.value.index < |prayers| && next.Some? && next.value.name == prayers[c.value.index].name
    ensures var prayers := DisplayPrayers(t);
      forall i :: 0 <= i < |prayers| ==> (Highlighted(prayers, next)[i] <==> i == DisplayChoice(prayers, now).value.index)
  {
  }
}

=== FILE: selectors.dfy ===
/**
 * The memoised selectors over the renderer stores: today's records, the
 * upcoming and the current prayer by `HH:MM` string comparison, the
 * grouping and statistics of community members, the active and urgent
 * announcements, and the combined online flag.
 */
module Selectors {
  import opened Wrappers
  import opened Clock
  import opened Seqs
  import opened Entities

  /** `todaysPrayerTimes`: exactly the records dated today. */
  function TodaysPrayerTimes(prayerTimes: seq<PrayerTime>, today: int): (r: seq<PrayerTime>)
    ensures forall x :: x in r <==> x in prayerTimes && x.date == today
  {
    Filter(prayerTimes, (pt: PrayerTime) => pt.date == today)
  }

  /** The selection keeps list order: it splits over any cut of the list. */
  lemma TodaysKeepsOrder(a: seq<PrayerTime>, b: seq<PrayerTime>, today: int)
    ensures TodaysPrayerTimes(a + b, today) == TodaysPrayerTimes(a, today) + TodaysPrayerTimes(b, today)
  {
    FilterConcat(a, b, (pt: PrayerTime) => pt.date == today);
  }

  /** The record `prayerTimes.find(pt => pt.date === today)` returns: the first one dated today. */
  function TodaysSchedule(prayerTimes: seq<PrayerTime>, today: int): (r: Option<PrayerTime>)
    ensures r.None? <==> forall j :: 0 <= j < |prayerTimes| ==> prayerTimes[j].date != today
    ensures r.Some? ==> r.value.date == today
    ensures r.Some? ==>
      exists i :: 0 <= i < |prayerTimes| && prayerTimes[i] == r.value && (forall j :: 0 <= j < i ==> prayerTimes[j].date != today)
  {
    match Find(prayerTimes, (pt: PrayerTime) => pt.date == today)
    case Some(i) => Some(prayerTimes[i])
    case None => None
  }

  /** One `{ name, time }` entry of the list both selectors build. */
  datatype Slot = Slot(name: string, time: string)

  /** The six entries, in their fixed order. */
  function Slots(pt: PrayerTime): (s: seq<Slot>)
    ensures |s| == 6 && s[0] == Slot("Fajr", pt.fajr) && s[5] == Slot("Isha", pt.isha)
  {
    [Slot("Fajr", pt.fajr), Slot("Sunrise", pt.sunrise), Slot("Dhuhr", pt.dhuhr),
     Slot("Asr", pt.asr), Slot("Maghrib", pt.maghrib), Slot("Isha", pt.isha)]
  }

  /** `prayer.time > currentTime` on the text. */
  predicate IsLater(s: Slot, currentTime: string) {
    LexLess(currentTime, s.time)
  }

  /**
   * `prayers.find(prayer => prayer.time > currentTime) || prayers[0]`: the
   * first later entry, or the first entry when none is later.
   */
  function Upcoming(slots: seq<Slot>, currentTime: string): (r: Slot)
    requires slots != []
    ensures (forall j :: 0 <= j < |slots| ==> !IsLater(slots[j], currentTime)) ==> r == slots[0]
    ensures (exists j :: 0 <= j < |slots| && IsLater(slots[j], currentTime)) ==>
      exists i :: 0 <= i < |slots| && r == slots[i] && IsLater(slots[i], currentTime) && (forall j :: 0 <= j < i ==> !IsLater(slots[j], currentTime))
  {
    match Find(slots, (s: Slot) => IsLater(s, currentTime))
    case Some(i) => slots[i]
    case None => slots[0]
  }

  /** `upcomingPrayer`: null without a record for today. */
  function UpcomingPrayer(prayerTimes: seq<PrayerTime>, today: int, currentTime: string): (r: Option<Slot>)
    ensures r.None? <==> TodaysSchedule(prayerTimes, today).None?
    ensures r.Some? ==> r.value == Upcoming(Slots(TodaysSchedule(prayerTimes, today).value), currentTime)
  {
    match TodaysSchedule(prayerTimes, today)
    case Some(pt) => Some(Upcoming(Slots(pt), currentTime))
    case None => None
  }

  /**
   * The index `currentPrayer` ends on. When the first entry is later than
   * now it is the first entry (not yesterday's last); otherwise it is the
   * last entry of the longest run of entries at or before now that starts
   * the list.
   */
  function CurrentIndex(slots: seq<Slot>, currentTime: string): (k: nat)
    requires slots != []
    ensures k < |slots|
    ensures IsLater(slots[0], currentTime) ==> k == 0
    ensures !IsLater(slots[0], currentTime) ==>
      (forall j :: 0 <= j <= k ==> !IsLater(slots[j], currentTime)) &&
      (k + 1 < |slots| ==> IsLater(slots[k + 1], currentTime))
  {
    match Find(slots, (s: Slot) => IsLater(s, currentTime))
    case Some(i) => if i == 0 then 0 else i - 1
    case None => |slots| - 1
  }

  /**
   * `currentPrayer`: without a record for today, null; otherwise the scan
   * that moves `current` forward over entries at or before now and stops
   * at the first later one.
   */
  method CurrentPrayer(prayerTimes: seq<PrayerTime>, today: int, currentTime: string) returns (r: Option<Slot>)
    ensures r.None? <==> TodaysSchedule(prayerTimes, today).None?
    ensures r.Some? ==>
      var slots := Slots(TodaysSchedule(prayerTimes, today).value);
      r.value == slots[CurrentIndex(slots, currentTime)]
  {
    var schedule := TodaysSchedule(prayerTimes, today);
    if schedule.None? {
      return None;
    }
    var prayers := Slots(schedule.value);
    var current := prayers[0];
    var i := 0;
    while i < |prayers|
      invariant 0 <= i <= |prayers|
      invariant forall j :: 0 <= j < i ==> !IsLater(prayers[j], currentTime)
      invariant current == if i == 0 then prayers[0] else prayers[i - 1]
    {
      if !IsLater(prayers[i], currentTime) {
        current := prayers[i];
      } else {
        break;
      }
      i := i + 1;
    }
    return Some(current);
  }

  /**
   * The two selectors fit together: before the first entry both give it;
   * otherwise the current entry is the one just before the upcoming one,
   * or the last entry when the upcoming one has wrapped to the first.
   */
  lemma CurrentBeforeUpcoming(slots: seq<Slot>, currentTime: string)
    requires slots != []
    ensures IsLater(slots[0], currentTime) ==>
      Upcoming(slots, currentTime) == slots[0] && CurrentIndex(slots, currentTime) == 0
    ensures !IsLater(slots[0], currentTime) ==>
      var k := CurrentIndex(slots, currentTime);
      if k + 1 < |slots| then Upcoming(slots, currentTime) == slots[k + 1]
      else Upcoming(slots, currentTime) == slots[0] && k == |slots| - 1
  {
  }

  /** A member passes when its type is `t`. */
  function OfType(t: MembershipType): CommunityMember -> bool {
    (m: CommunityMember) => m.membershipType == t
  }

  /**
   * The `reduce` accumulator: the keys in the order they were first set
   * (the order `Object.entries` lists them) and each key's array.
   */
  datatype Groups = Groups(order: seq<MembershipType>, members: map<MembershipType, seq<CommunityMember>>)

  /** One reduce step: create the key's array if missing, then push. */
  function AddMember(g: Groups, m: CommunityMember): Groups {
    var t := m.membershipType;
    if t in g.members then Groups(g.order, g.members[t := g.members[t] + [m]])
    else Groups(g.order + [t], g.members[t := [m]])
  }

  /** The reduce over `ms`, left to right, from `{}`. */
  function Grouped(ms: seq<CommunityMember>): Groups
    decreases |ms|
  {
    if ms == [] then Groups([], map[]) else AddMember(Grouped(ms[..|ms| - 1]), ms[|ms| - 1])
  }

  /** `membersByType`: the reduce as the source runs it, pushing into the accumulator. */
  method MembersByType(ms: seq<CommunityMember>) returns (g: Groups)
    ensures g == Grouped(ms)
  {
    var order: seq<MembershipType> := [];
    var acc: map<MembershipType, seq<CommunityMember>> := map[];
    var i := 0;
    while i < |ms|
      invariant 0 <= i <= |ms|
      invariant Groups(order, acc) == Grouped(ms[..i])
    {
      var member := ms[i];
      ghost var before := Groups(order, acc);
      if member.membershipType !in acc {
        acc := acc[member.membershipType := []];
        order := order + [member.membershipType];
      }
      acc := acc[member.membershipType := acc[member.membershipType] + [member]];
      assert [] + [member] == [member];
      assert Groups(order, acc) == AddMember(before, member);
      assert ms[..i + 1][..i] == ms[..i];
      i := i + 1;
    }
    assert ms[..i] == ms;
    g := Groups(order, acc);
  }

  /** The sum of the group sizes, over the keys in order. */
  function SizeSum(order: seq<MembershipType>, members: map<MembershipType, seq<CommunityMember>>): nat
    requires forall t :: t in order ==> t in members
  {
    if order == [] then 0
    else SizeSum(order[..|order| - 1], members) + |members[order[|order| - 1]]|
  }

  /** Growing one listed group by one grows the sum by one. */
  lemma {:induction false} SizeSumGrow(order: seq<MembershipType>, members: map<MembershipType, seq<CommunityMember>>,
                                       t: MembershipType, m: CommunityMember)
    requires forall u :: u in order ==> u in members
    requires forall i, j :: 0 <= i < j < |order| ==> order[i] != order[j]
    requires t in order
    ensures SizeSum(order, members[t := members[t] + [m]]) == SizeSum(order, members) + 1
  {
    var last := order[|order| - 1];
    var init := order[..|order| - 1];
    if last == t {
      assert t !in init;
      SizeSumUnlisted(init, members, t, members[t] + [m]);
    } else {
      assert t in init by {
        var i :| 0 <= i < |order| && order[i] == t;
        assert init[i] == t;
      }
      SizeSumGrow(init, members, t, m);
    }
  }

  /** Changing a key that is not listed leaves the sum alone. */
  lemma {:induction false} SizeSumUnlisted(order: seq<MembershipType>, members: map<MembershipType, seq<CommunityMember>>,
                                           t: MembershipType, v: seq<CommunityMember>)
    requires forall u :: u in order ==> u in members
    requires t !in order
    ensures SizeSum(order, members[t := v]) == SizeSum(order, members)
  {
    if order != [] {
      SizeSumUnlisted(order[..|order| - 1], members, t, v);
    }
  }

  /** No key is listed twice. */
  predicate DistinctKeys(g: Groups) {
    forall i, j :: 0 <= i < j < |g.order| ==> g.order[i] != g.order[j]
  }

  /** The listed keys are the keys of the map. */
  predicate KeysListed(g: Groups) {
    forall t :: t in g.members <==> t in g.order
  }

  /** The keys in order are distinct and are exactly the keys of the map. */
  lemma {:induction false} GroupedKeys(ms: seq<CommunityMember>)
    ensures DistinctKeys(Grouped(ms)) && KeysListed(Grouped(ms))
    decreases |ms|
  {
    if ms != [] {
      var init := ms[..|ms| - 1];
      var m := ms[|ms| - 1];
      GroupedKeys(init);
      var g0 := Grouped(init);
      var g := Grouped(ms);
      assert g == AddMember(g0, m);
      if m.membershipType !in g0.members {
        assert g.order == g0.order + [m.membershipType];
        forall i, j | 0 <= i < j < |g.order|
          ensures g.order[i] != g.order[j]
        {
          assert g.order[i] == g0.order[i];
          if j == |g0.order| {
            assert g0.order[i] in g0.order;
            assert g0.order[i] in g0.members;
            assert g.order[j] == m.membershipType;
          } else {
            assert g.order[j] == g0.order[j];
            assert g0.order[i] != g0.order[j];
          }
        }
      }
    }
  }

  /** Filtering by type splits at the last member. */
  lemma FilterTypeSnoc(init: seq<CommunityMember>, m: CommunityMember, t: MembershipType)
    ensures Filter(init + [m], OfType(t)) == Filter(init, OfType(t)) + (if m.membershipType == t then [m] else [])
  {
    FilterConcat(init, [m], OfType(t));
    assert [m][1..] == [];
  }

  /**
   * Each group is the members of its type in list order and is not empty,
   * and a type with no group has no members.
   */
  lemma {:induction false} GroupedContents(ms: seq<CommunityMember>)
    ensures var g := Grouped(ms);
      && (forall t :: t in g.members ==> g.members[t] == Filter(ms, OfType(t)) && g.members[t] != [])
      && (forall t :: t !in g.members ==> Filter(ms, OfType(t)) == [])
    decreases |ms|
  {
    if ms != [] {
      var init := ms[..|ms| - 1];
      var m := ms[|ms| - 1];
      assert ms == init + [m];
      GroupedContents(init);
      forall t
        ensures Filter(ms, OfType(t)) == Filter(init, OfType(t)) + (if m.membershipType == t then [m] else [])
      {
        FilterTypeSnoc(init, m, t);
      }
    }
  }

  /** The group sizes add up to the number of members. */
  lemma {:induction false} GroupedSizes(ms: seq<CommunityMember>)
    ensures var g := Grouped(ms);
      (forall t :: t in g.order ==> t in g.members) && SizeSum(g.order, g.members) == |ms|
    decreases |ms|
  {
    GroupedKeys(ms);
    if ms != [] {
      var init := ms[..|ms| - 1];
      var m := ms[|ms| - 1];
      GroupedSizes(init);
      GroupedKeys(init);
      var g0 := Grouped(init);
      if m.membershipType in g0.members {
        SizeSumGrow(g0.order, g0.members, m.membershipType, m);
      } else {
        var g := Grouped(ms);
        SizeSumUnlisted(g0.order, g0.members, m.membershipType, [m]);
        assert g.order[..|g.order| - 1] == g0.order;
      }
    }
  }

  /**
   * `membersByType` partitions the members: the keys are distinct and are
   * exactly the keys of the map; each group is the members of that type in
   * list order and is not empty; a type with no group has no members; and
   * the group sizes add up to the number of members.
   */
  lemma GroupedPartition(ms: seq<CommunityMember>)
    ensures var g := Grouped(ms);
      && (forall i, j :: 0 <= i < j < |g.order| ==> g.order[i] != g.order[j])
      && (forall t :: t in g.members <==> t in g.order)
      && (forall t :: t in g.members ==> g.members[t] == Filter(ms, OfType(t)) && g.members[t] != [])
      && (forall t :: t !in g.members ==> Filter(ms, OfType(t)) == [])
      && SizeSum(g.order, g.members) == |ms|
  {
    GroupedKeys(ms);
    GroupedContents(ms);
    GroupedSizes(ms);
  }

  /** Every member sits in the group of its own type and in no other. */
  lemma MemberInOwnGroup(ms: seq<CommunityMember>, m: CommunityMember)
    requires m in ms
    ensures var g := Grouped(ms);
      m.membershipType in g.members && m in g.members[m.membershipType] &&
      forall t :: t in g.members && m in g.members[t] ==> t == m.membershipType
  {
    GroupedContents(ms);
  }

  /**
   * `Math.round(count / total * 100)` for a non-negative ratio: the nearest
   * whole percent, halves rounded up, never above 100 for a share of the
   * total; 0 when `total` is 0.
   */
  function RoundedPercent(count: nat, total: nat): (p: nat)
    ensures total == 0 ==> p == 0
    ensures total > 0 ==> 2 * total * p <= 200 * count + total < 2 * total * (p + 1)
    ensures count <= total ==> p <= 100
  {
    if total == 0 then 0
    else
      var q := (200 * count + total) / (2 * total);
      QuotientBounds(200 * count + total, 2 * total);
      if count <= total then
        QuotientBelow(200 * count + total, 2 * total, 101);
        q
      else q
  }

  /** The quotient times the divisor is at most the dividend, and one more divisor exceeds it. */
  lemma QuotientBounds(n: nat, d: nat)
    requires d > 0
    ensures d * (n / d) <= n < d * (n / d + 1)
  {
    var q, r := n / d, n % d;
    assert n == d * q + r && 0 <= r < d;
    assert d * (q + 1) == d * q + d;
  }

  /** A dividend below `d * k` has a quotient below `k`. */
  lemma QuotientBelow(n: nat, d: nat, k: nat)
    requires d > 0 && n < d * k
    ensures n / d < k
  {
    var q := n / d;
    QuotientBounds(n, d);
    if q >= k {
      MultiplyMonotone(d, k, q);
    }
  }

  lemma MultiplyMonotone(d: nat, a: nat, b: nat)
    requires a <= b
    ensures d * a <= d * b
  {
    assert d * b == d * a + d * (b - a);
  }

  /** One entry of `typeStats`. */
  datatype TypeStat = TypeStat(membershipType: MembershipType, count: nat, percentage: nat)

  datatype MemberStats = MemberStats(total: nat, active: nat, inactive: int, typeStats: seq<TypeStat>)

  function IsActiveMember(m: CommunityMember): bool {
    m.isActive
  }

  function IsInactiveMember(m: CommunityMember): bool {
    !m.isActive
  }

  /** The `typeStats` entries for the groups in key order. */
  function StatsFor(order: seq<MembershipType>, members: map<MembershipType, seq<CommunityMember>>, total: nat): (r: seq<TypeStat>)
    requires forall t :: t in order ==> t in members
    ensures |r| == |order|
    ensures forall i :: 0 <= i < |r| ==>
      r[i] == TypeStat(order[i], |members[order[i]]|, RoundedPercent(|members[order[i]]|, total))
  {
    if order == [] then []
    else
      var t := order[|order| - 1];
      StatsFor(order[..|order| - 1], members, total) + [TypeStat(t, |members[t]|, RoundedPercent(|members[t]|, total))]
  }

  /**
   * `memberStats`: the total, the active count, `inactive = total - active`
   * (which is the number of inactive members), and one entry per group in
   * key order with the number of members of that type and its rounded share.
   */
  function MemberStatsOf(ms: seq<CommunityMember>): (s: MemberStats)
    ensures s.total == |ms| && s.active == Count(ms, IsActiveMember)
    ensures s.inactive == Count(ms, IsInactiveMember)
    ensures |s.typeStats| == |Grouped(ms).order|
    ensures forall i :: 0 <= i < |s.typeStats| ==>
      && s.typeStats[i].membershipType == Grouped(ms).order[i]
      && s.typeStats[i].count == Count(ms, OfType(Grouped(ms).order[i]))
      && s.typeStats[i].percentage == RoundedPercent(s.typeStats[i].count, |ms|)
  {
    FilterComplement(ms, IsActiveMember, IsInactiveMember);
    GroupedKeys(ms);
    GroupedContents(ms);
    var g := Grouped(ms);
    var total := |ms|;
    var active := |Filter(ms, IsActiveMember)|;
    MemberStats(total, active, total - active, StatsFor(g.order, g.members, total))
  }

  /** The sum of the `count` fields. */
  function CountSum(stats: seq<TypeStat>): nat {
    if stats == [] then 0 else CountSum(stats[..|stats| - 1]) + stats[|stats| - 1].count
  }

  lemma {:induction false} CountSumStats(order: seq<MembershipType>, members: map<MembershipType, seq<CommunityMember>>, total: nat)
    requires forall t :: t in order ==> t in members
    ensures CountSum(StatsFor(order, members, total)) == SizeSum(order, members)
  {
    if order != [] {
      var r := StatsFor(order, members, total);
      CountSumStats(order[..|order| - 1], members, total);
      assert r[..|r| - 1] == StatsFor(order[..|order| - 1], members, total);
    }
  }

  /** The per-type counts add up to the total. */
  lemma TypeCountsSumToTotal(ms: seq<CommunityMember>)
    ensures CountSum(MemberStatsOf(ms).typeStats) == MemberStatsOf(ms).total
  {
    GroupedKeys(ms);
    GroupedSizes(ms);
    var g := Grouped(ms);
    CountSumStats(g.order, g.members, |ms|);
  }

  /** An announcement is shown when active and either without expiry or expiring after now. */
  predicate IsCurrent(a: Announcement, now: int) {
    a.isActive && (a.expiryDate.None? || a.expiryDate.value > now)
  }

  /** `activeAnnouncements`: exactly the current ones, in list order. */
  function ActiveAnnouncements(anns: seq<Announcement>, now: int): (r: seq<Announcement>)
    ensures forall x :: x in r <==> x in anns && IsCurrent(x, now)
  {
    Filter(anns, (a: Announcement) => IsCurrent(a, now))
  }

  predicate IsUrgent(a: Announcement) {
    a.priority == High || a.kind == Urgent
  }

  /** The comparator `b.publishDate - a.publishDate` as an ascending key. */
  function NewestFirst(a: Announcement): int {
    -a.publishDate
  }

  /**
   * `urgentAnnouncements`: the current announcements that are high
   * priority or urgent, each as often as it occurs there, newest first.
   */
  function UrgentAnnouncements(anns: seq<Announcement>, now: int): (r: seq<Announcement>)
    ensures multiset(r) == multiset(Filter(ActiveAnnouncements(anns, now), IsUrgent))
    ensures forall x :: x in r <==> x in anns && IsCurrent(x, now) && IsUrgent(x)
    ensures forall i, j :: 0 <= i < j < |r| ==> r[i].publishDate >= r[j].publishDate
  {
    var urgent := Filter(ActiveAnnouncements(anns, now), IsUrgent);
    SortBySorted(urgent, NewestFirst);
    SortByMembers(urgent, NewestFirst);
    SortBy(urgent, NewestFirst)
  }

  /** `useNetworkStatus().isOnline`: online only when all four stores are. */
  function NetworkOnline(prayerOnline: bool, communityOnline: bool, announcementOnline: bool, settingsOnline: bool): bool {
    prayerOnline && communityOnline && announcementOnline && settingsOnline
  }
}

=== FILE: seqs.dfy ===
/**
 * Sequence helpers standing for the JavaScript array methods the source uses:
 * `filter` and the stable `sort` with a numeric comparator.
 */
module Seqs {
  import opened Wrappers

  /** `s.filter(p)`: the elements satisfying `p`, in their original order. */
  function Filter<T>(s: seq<T>, p: T -> bool): (r: seq<T>)
    ensures |r| <= |s|
    ensures forall x :: x in r ==> x in s && p(x)
    ensures forall x :: x in s && p(x) ==> x in r
  {
    if s == [] then []
    else if p(s[0]) then [s[0]] + Filter(s[1..], p)
    else Filter(s[1..], p)
  }

  /** Filtering distributes over concatenation, so the original order is kept. */
  lemma {:induction false} FilterConcat<T>(a: seq<T>, b: seq<T>, p: T -> bool)
    ensures Filter(a + b, p) == Filter(a, p) + Filter(b, p)
  {
    if a == [] {
      assert a + b == b;
    } else {
      var c := a + b;
      assert c[0] == a[0] && c[1..] == a[1..] + b;
      FilterConcat(a[1..], b, p);
      if p(a[0]) {
        assert Filter(c, p) == [a[0]] + (Filter(a[1..], p) + Filter(b, p));
        assert Filter(a, p) == [a[0]] + Filter(a[1..], p);
      } else {
        assert Filter(c, p) == Filter(a[1..], p) + Filter(b, p);
      }
    }
  }

  /** Filtering keeps every element when all of them pass. */
  lemma {:induction false} FilterAll<T>(s: seq<T>, p: T -> bool)
    requires forall i :: 0 <= i < |s| ==> p(s[i])
    ensures Filter(s, p) == s
  {
    if s != [] {
      FilterAll(s[1..], p);
    }
  }

  /** Filtering out the one element that fails removes it and keeps the rest in order. */
  lemma {:induction false} FilterDropsOne<T>(s: seq<T>, p: T -> bool, k: nat)
    requires k < |s| && !p(s[k])
    requires forall j :: 0 <= j < |s| && j != k ==> p(s[j])
    ensures Filter(s, p) == s[..k] + s[k + 1..]
  {
    var t := s[1..];
    if k == 0 {
      forall j | 0 <= j < |t|
        ensures p(t[j])
      {
        assert t[j] == s[j + 1];
      }
      FilterAll(t, p);
    } else {
      forall j | 0 <= j < |t| && j != k - 1
        ensures p(t[j])
      {
        assert t[j] == s[j + 1];
      }
      FilterDropsOne(t, p, k - 1);
      assert p(s[0]);
      assert t[..k - 1] == s[1..k] && t[k..] == s[k + 1..];
      assert [s[0]] + s[1..k] == s[..k];
    }
  }

  /** Filtering drops every element when none of them passes. */
  lemma {:induction false} FilterNone<T>(s: seq<T>, p: T -> bool)
    requires forall i :: 0 <= i < |s| ==> !p(s[i])
    ensures Filter(s, p) == []
  {
    if s != [] {
      FilterNone(s[1..], p);
    }
  }

  /** Filtering keeps each passing element as often as it occurs, and no failing one. */
  lemma {:induction false} FilterMultiset<T>(s: seq<T>, p: T -> bool)
    ensures forall x :: multiset(Filter(s, p))[x] == if p(x) then multiset(s)[x] else 0
  {
    if s != [] {
      FilterMultiset(s[1..], p);
      assert s == [s[0]] + s[1..];
    }
  }

  /** Filtering two orderings of the same elements gives the same elements. */
  lemma FilterPermutation<T>(s: seq<T>, t: seq<T>, p: T -> bool)
    requires multiset(s) == multiset(t)
    ensures multiset(Filter(s, p)) == multiset(Filter(t, p))
  {
    FilterMultiset(s, p);
    FilterMultiset(t, p);
  }

  /** Filtering out an element that fails makes the sequence shorter. */
  lemma {:induction false} FilterShorter<T>(s: seq<T>, p: T -> bool, k: nat)
    requires k < |s| && !p(s[k])
    ensures |Filter(s, p)| < |s|
  {
    if k > 0 {
      FilterShorter(s[1..], p, k - 1);
    }
  }

  /** Every element passes exactly one of `p` and its negation `q`. */
  lemma {:induction false} FilterComplement<T>(s: seq<T>, p: T -> bool, q: T -> bool)
    requires forall x :: q(x) == !p(x)
    ensures |Filter(s, p)| + |Filter(s, q)| == |s|
  {
    if s != [] {
      FilterComplement(s[1..], p, q);
    }
  }

  /** `s.findIndex(p)` from position `i` on: the first index that passes, if any. */
  function FindFrom<T>(s: seq<T>, p: T -> bool, i: nat): (r: Option<nat>)
    requires i <= |s|
    ensures r.None? <==> forall j :: i <= j < |s| ==> !p(s[j])
    ensures r.Some? ==> i <= r.value < |s| && p(s[r.value]) && forall j :: i <= j < r.value ==> !p(s[j])
    decreases |s| - i
  {
    if i == |s| then None
    else if p(s[i]) then Some(i)
    else FindFrom(s, p, i + 1)
  }

  /** `s.findIndex(p)`, with None for -1. */
  function Find<T>(s: seq<T>, p: T -> bool): (r: Option<nat>)
    ensures r.None? <==> forall j :: 0 <= j < |s| ==> !p(s[j])
    ensures r.Some? ==> r.value < |s| && p(s[r.value]) && forall j :: 0 <= j < r.value ==> !p(s[j])
  {
    FindFrom(s, p, 0)
  }

  /** The number of elements satisfying `p`. */
  function Count<T>(s: seq<T>, p: T -> bool): nat {
    |Filter(s, p)|
  }

  /** Ascending by `key`: the order `Array.prototype.sort` produces for the comparator `key(a) - key(b)`. */
  ghost predicate SortedBy<T>(s: seq<T>, key: T -> int) {
    forall i, j :: 0 <= i < j < |s| ==> key(s[i]) <= key(s[j])
  }

  /** Inserts `x` before the first element whose key is not smaller (so equal keys keep their order). */
  function Insert<T>(x: T, s: seq<T>, key: T -> int): (r: seq<T>)
    ensures |r| == |s| + 1
    ensures multiset(r) == multiset(s) + multiset{x}
  {
    if s == [] then [x]
    else if key(x) <= key(s[0]) then [x] + s
    else
      assert s == [s[0]] + s[1..];
      [s[0]] + Insert(x, s[1..], key)
  }

  /** Inserting keeps a lower bound that `x` and every element of `s` respect. */
  lemma {:induction false} InsertAbove<T>(x: T, s: seq<T>, key: T -> int, lo: int)
    requires lo <= key(x) && forall i :: 0 <= i < |s| ==> lo <= key(s[i])
    ensures forall i :: 0 <= i < |Insert(x, s, key)| ==> lo <= key(Insert(x, s, key)[i])
  {
    if s != [] && key(x) > key(s[0]) {
      var t := s[1..];
      forall i | 0 <= i < |t|
        ensures lo <= key(t[i])
      {
        assert t[i] == s[i + 1];
      }
      InsertAbove(x, t, key, lo);
    }
  }

  lemma {:induction false} InsertSorted<T>(x: T, s: seq<T>, key: T -> int)
    requires SortedBy(s, key)
    ensures SortedBy(Insert(x, s, key), key)
  {
    if s != [] && key(x) > key(s[0]) {
      var t := s[1..];
      forall i | 0 <= i < |t|
        ensures key(s[0]) <= key(t[i])
      {
        assert t[i] == s[i + 1];
      }
      assert SortedBy(t, key);
      InsertSorted(x, t, key);
      InsertAbove(x, t, key, key(s[0]));
    }
  }

  /** A stable insertion sort by `key`: the model of `[...s].sort((a, b) => key(a) - key(b))`. */
  function SortBy<T>(s: seq<T>, key: T -> int): (r: seq<T>)
    ensures |r| == |s|
    ensures multiset(r) == multiset(s)
  {
    if s == [] then []
    else
      assert s == [s[0]] + s[1..];
      Insert(s[0], SortBy(s[1..], key), key)
  }

  /** The sorted copy is ordered by key. */
  lemma {:induction false} SortBySorted<T>(s: seq<T>, key: T -> int)
    ensures SortedBy(SortBy(s, key), key)
  {
    if s != [] {
      SortBySorted(s[1..], key);
      InsertSorted(s[0], SortBy(s[1..], key), key);
    }
  }

  /** Every element of a sorted copy comes from the input, and vice versa. */
  lemma SortByMembers<T>(s: seq<T>, key: T -> int)
    ensures forall x :: x in SortBy(s, key) <==> x in s
  {
    var r := SortBy(s, key);
    forall x
      ensures x in r <==> x in s
    {
      assert x in r <==> x in multiset(r);
      assert x in s <==> x in multiset(s);
    }
  }
}

=== FILE: store.dfy ===
/**
 * The renderer's optimistic stores. Every list store (prayer times,
 * community members, announcements) edits its list at once, awaits the
 * storage call, and then either confirms the edit with the stored row or
 * reverts it; a failed add is queued and re-attempted when the store goes
 * back online. The settings store does the same for its single settings
 * object.
 *
 * Each awaited action is split where it awaits: `Begin…` is the optimistic
 * edit, `Complete…` receives the storage call's response. The clock
 * (`Date.now()`, `new Date()`) is a parameter.
 */
module Store {
  import opened Wrappers
  import opened Seqs
  import opened Entities

  /** What an awaited storage call yields: its `DbResult`, or a rejected promise. */
  datatype Response<T> = Response(success: bool, data: Option<T>, error: Option<string>) | Rejected(message: string)

  /** `result.success && result.data`. */
  predicate Confirmed<T>(r: Response<T>) {
    r.Response? && r.success && r.data.Some?
  }

  const NetworkError: string := "Network error - will retry when online"

  /**
   * The message a failed mutation leaves in `error`: the thrown
   * `result.error || fallback` (an empty string counts as absent), or the
   * rejection's own message.
   */
  function FailureMessage<T>(r: Response<T>, fallback: string): string {
    match r
    case Response(_, _, e) => if e.Some? && e.value != "" then e.value else fallback
    case Rejected(m) => m
  }

  /** The message a failed fetch leaves: as above, but a rejection reads as a network error. */
  function FetchFailureMessage<T>(r: Response<T>, fallback: string): string {
    match r
    case Response(_, _, e) => if e.Some? && e.value != "" then e.value else fallback
    case Rejected(_) => NetworkError
  }

  /** A queued action: its type tag, payload and time. */
  datatype PendingAction<T> = PendingAction(kind: string, payload: T, timestamp: int)

  /** One list store's fallback error texts and the tag of its queued adds. */
  datatype Messages = Messages(fetchFailed: string, addFailed: string, updateFailed: string, deleteFailed: string, addAction: string)

  const PrayerMessages: Messages := Messages(
    "Failed to fetch prayer times", "Failed to add prayer time", "Failed to update prayer time",
    "Failed to delete prayer time", "ADD_PRAYER_TIME")

  const CommunityMessages: Messages := Messages(
    "Failed to fetch community members", "Failed to add community member", "Failed to update community member",
    "Failed to delete community member", "ADD_COMMUNITY_MEMBER")

  const AnnouncementMessages: Messages := Messages(
    "Failed to fetch announcements", "Failed to add announcement", "Failed to update announcement",
    "Failed to delete announcement", "ADD_ANNOUNCEMENT")

  /**
   * `items.map(x => x.id === id ? v : x)`: the list keeps its length and
   * order, entries with other ids stay, a list without the id is returned
   * as it was, and a row carrying the same id leaves every id in place.
   */
  function ReplaceId<T>(items: seq<T>, idOf: T -> Option<int>, id: int, v: T): (r: seq<T>)
    ensures |r| == |items|
    ensures forall i :: 0 <= i < |items| ==> r[i] == if idOf(items[i]) == Some(id) then v else items[i]
    ensures (forall i :: 0 <= i < |items| ==> idOf(items[i]) != Some(id)) ==> r == items
    ensures idOf(v) == Some(id) ==> forall i :: 0 <= i < |r| ==> idOf(r[i]) == idOf(items[i])
  {
    seq(|items|, i requires 0 <= i < |items| => if idOf(items[i]) == Some(id) then v else items[i])
  }

  /**
   * `items.map(x => x.id === id ? { ...x, ...patch } : x)`: the list keeps
   * its length and order, entries with other ids stay, a list without the
   * id is returned as it was, and a merge that keeps the ids of the entries
   * leaves every id in place.
   */
  function MergeId<T, P>(items: seq<T>, idOf: T -> Option<int>, id: int, merge: (T, P) -> T, patch: P): (r: seq<T>)
    ensures |r| == |items|
    ensures forall i :: 0 <= i < |items| ==> r[i] == if idOf(items[i]) == Some(id) then merge(items[i], patch) else items[i]
    ensures (forall i :: 0 <= i < |items| ==> idOf(items[i]) != Some(id)) ==> r == items
    ensures (forall i :: 0 <= i < |items| ==> idOf(merge(items[i], patch)) == idOf(items[i])) ==> forall i :: 0 <= i < |r| ==> idOf(r[i]) == idOf(items[i])
  {
    seq(|items|, i requires 0 <= i < |items| => if idOf(items[i]) == Some(id) then merge(items[i], patch) else items[i])
  }

  /** `items.filter(x => x.id !== id)`: every entry with that id goes, the rest stay in order. */
  function RemoveId<T>(items: seq<T>, idOf: T -> Option<int>, id: int): (r: seq<T>)
    ensures forall i :: 0 <= i < |r| ==> r[i] in items && idOf(r[i]) != Some(id)
    ensures forall i :: 0 <= i < |items| && idOf(items[i]) != Some(id) ==> items[i] in r
  {
    Filter(items, (x: T) => idOf(x) != Some(id))
  }

  /**
   * When no entry already carries the temporary id, confirming an
   * optimistic add replaces exactly the appended entry.
   */
  lemma AddConfirmed<T>(xs: seq<T>, idOf: T -> Option<int>, x: T, tempId: int, v: T)
    requires idOf(x) == Some(tempId)
    requires forall i :: 0 <= i < |xs| ==> idOf(xs[i]) != Some(tempId)
    ensures ReplaceId(xs + [x], idOf, tempId, v) == xs + [v]
  {
  }

  /**
   * When no entry already carries the temporary id, reverting an optimistic
   * add gives back exactly the list before it.
   */
  lemma AddReverted<T>(xs: seq<T>, idOf: T -> Option<int>, x: T, tempId: int)
    requires idOf(x) == Some(tempId)
    requires forall i :: 0 <= i < |xs| ==> idOf(xs[i]) != Some(tempId)
    ensures RemoveId(xs + [x], idOf, tempId) == xs
  {
    var keep := (y: T) => idOf(y) != Some(tempId);
    FilterConcat(xs, [x], keep);
    FilterAll(xs, keep);
    assert [x][1..] == [];
  }

  /** The fields a settled add or retry leaves behind, and the adds it queued. */
  datatype Outcome<T> = Outcome(items: seq<T>, error: Option<string>, lastSyncTime: Option<int>, queued: seq<PendingAction<T>>)

  /**
   * A list store (`usePrayerStore`, `useCommunityStore`,
   * `useAnnouncementStore`): the list, the loading and error fields, the
   * network fields and the queue of failed adds. `withId` builds the
   * optimistic entry (`{ ...payload, id: tempId }`, plus the store's
   * defaults) and `merge` is the object spread of a partial update.
   */
  class ListStore<T, P> {
    var items: seq<T>
    var isLoading: bool
    var error: Option<string>
    var isOnline: bool
    var retryCount: nat
    var lastSyncTime: Option<int>
    var pendingActions: seq<PendingAction<T>>
    const idOf: T -> Option<int>
    const withId: (T, int) -> T
    const merge: (T, P) -> T
    const messages: Messages

    constructor (idOf: T -> Option<int>, withId: (T, int) -> T, merge: (T, P) -> T, messages: Messages, online: bool)
      ensures this.idOf == idOf && this.withId == withId && this.merge == merge && this.messages == messages
      ensures items == [] && !isLoading && error == None && isOnline == online
      ensures retryCount == 0 && lastSyncTime == None && pendingActions == []
    {
      this.idOf := idOf;
      this.withId := withId;
      this.merge := merge;
      this.messages := messages;
      items := [];
      isLoading := false;
      error := None;
      isOnline := online;
      retryCount := 0;
      lastSyncTime := None;
      pendingActions := [];
    }

    /** The start of a fetch: loading, with the error cleared. */
    method BeginFetch()
      modifies this
      ensures isLoading && error == None
      ensures items == old(items) && isOnline == old(isOnline) && retryCount == old(retryCount)
      ensures lastSyncTime == old(lastSyncTime) && pendingActions == old(pendingActions)
    {
      isLoading := true;
      error := None;
    }

    /**
     * The end of a fetch, including its `finally`: a confirmed response
     * replaces the list, stamps the sync time and resets the retry count;
     * anything else keeps the list and sets the error. Loading is over on
     * every path.
     */
    method CompleteFetch(resp: Response<seq<T>>, stamp: int)
      modifies this
      ensures !isLoading
      ensures Confirmed(resp) ==>
        items == resp.data.value && lastSyncTime == Some(stamp) && retryCount == 0 && error == old(error)
      ensures !Confirmed(resp) ==>
        && items == old(items) && lastSyncTime == old(lastSyncTime) && retryCount == old(retryCount)
        && error == Some(FetchFailureMessage(resp, messages.fetchFailed))
      ensures isOnline == old(isOnline) && pendingActions == old(pendingActions)
    {
      if Confirmed(resp) {
        items := resp.data.value;
        lastSyncTime := Some(stamp);
        retryCount := 0;
      } else {
        error := Some(FetchFailureMessage(resp, messages.fetchFailed));
      }
      isLoading := false;
    }

    /** The optimistic add: the payload with the temporary id is appended. */
    method BeginAdd(payload: T, tempId: int)
      modifies this
      ensures items == old(items) + [withId(payload, tempId)]
      ensures isLoading == old(isLoading) && error == old(error) && isOnline == old(isOnline)
      ensures retryCount == old(retryCount) && lastSyncTime == old(lastSyncTime) && pendingActions == old(pendingActions)
    {
      items := items + [withId(payload, tempId)];
    }

    /**
     * The settled add: confirmed, every entry with the temporary id becomes
     * the stored row; otherwise every such entry is dropped, the error is
     * set and the payload is queued.
     */
    method CompleteAdd(payload: T, tempId: int, resp: Response<T>, stamp: int)
      modifies this
      ensures Confirmed(resp) ==>
        && items == ReplaceId(old(items), idOf, tempId, resp.data.value)
        && lastSyncTime == Some(stamp) && error == old(error) && pendingActions == old(pendingActions)
      ensures !Confirmed(resp) ==>
        && items == RemoveId(old(items), idOf, tempId)
        && lastSyncTime == old(lastSyncTime)
        && error == Some(FailureMessage(resp, messages.addFailed))
        && pendingActions == old(pendingActions) + [PendingAction(messages.addAction, payload, stamp)]
      ensures isLoading == old(isLoading) && isOnline == old(isOnline) && retryCount == old(retryCount)
    {
      if Confirmed(resp) {
        items := ReplaceId(items, idOf, tempId, resp.data.value);
        lastSyncTime := Some(stamp);
      } else {
        items := RemoveId(items, idOf, tempId);
        error := Some(FailureMessage(resp, messages.addFailed));
        pendingActions := pendingActions + [PendingAction(messages.addAction, payload, stamp)];
      }
    }

    /** The optimistic update: the patch is merged into the entries with that id only. */
    method BeginUpdate(id: int, patch: P) returns (snapshot: seq<T>)
      modifies this
      ensures snapshot == old(items)
      ensures items == MergeId(old(items), idOf, id, merge, patch)
      ensures isLoading == old(isLoading) && error == old(error) && isOnline == old(isOnline)
      ensures retryCount == old(retryCount) && lastSyncTime == old(lastSyncTime) && pendingActions == old(pendingActions)
    {
      snapshot := items;
      items := MergeId(items, idOf, id, merge, patch);
    }

    /**
     * The settled update: confirmed, the entries with that id become the
     * stored row; otherwise the list is put back to the snapshot taken
     * before the optimistic edit and the error is set.
     */
    method CompleteUpdate(id: int, snapshot: seq<T>, resp: Response<T>, stamp: int)
      modifies this
      ensures Confirmed(resp) ==>
        items == ReplaceId(old(items), idOf, id, resp.data.value) && lastSyncTime == Some(stamp) && error == old(error)
      ensures !Confirmed(resp) ==>
        items == snapshot && lastSyncTime == old(lastSyncTime) && error == Some(FailureMessage(resp, messages.updateFailed))
      ensures isLoading == old(isLoading) && isOnline == old(isOnline) && retryCount == old(retryCount)
      ensures pendingActions == old(pendingActions)
    {
      if Confirmed(resp) {
        items := ReplaceId(items, idOf, id, resp.data.value);
        lastSyncTime := Some(stamp);
      } else {
        items := snapshot;
        error := Some(FailureMessage(resp, messages.updateFailed));
      }
    }

    /** The optimistic delete: every entry with that id is removed. */
    method BeginDelete(id: int) returns (snapshot: seq<T>)
      modifies this
      ensures snapshot == old(items)
      ensures items == RemoveId(old(items), idOf, id)
      ensures isLoading == old(isLoading) && error == old(error) && isOnline == old(isOnline)
      ensures retryCount == old(retryCount) && lastSyncTime == old(lastSyncTime) && pendingActions == old(pendingActions)
    {
      snapshot := items;
      items := RemoveId(items, idOf, id);
    }

    /**
     * The settled delete: `result.success` alone confirms it; otherwise the
     * list is put back to the snapshot and the error is set.
     */
    method CompleteDelete(snapshot: seq<T>, resp: Response<T>, stamp: int)
      modifies this
      ensures resp.Response? && resp.success ==>
        items == old(items) && lastSyncTime == Some(stamp) && error == old(error)
      ensures !(resp.Response? && resp.success) ==>
        items == snapshot && lastSyncTime == old(lastSyncTime) && error == Some(FailureMessage(resp, messages.deleteFailed))
      ensures isLoading == old(isLoading) && isOnline == old(isOnline) && retryCount == old(retryCount)
      ensures pendingActions == old(pendingActions)
    {
      if resp.Response? && resp.success {
        lastSyncTime := Some(stamp);
      } else {
        items := snapshot;
        error := Some(FailureMessage(resp, messages.deleteFailed));
      }
    }

    /** The fields after one queued action is re-attempted by an add that settles with `resp`. */
    function Settle(o: Outcome<T>, a: PendingAction<T>, tempId: int, resp: Response<T>, stamp: int): Outcome<T> {
      if a.kind != messages.addAction then o
      else
        var ys := o.items + [withId(a.payload, tempId)];
        if Confirmed(resp) then Outcome(ReplaceId(ys, idOf, tempId, resp.data.value), o.error, Some(stamp), o.queued)
        else Outcome(RemoveId(ys, idOf, tempId), Some(FailureMessage(resp, messages.addFailed)), o.lastSyncTime,
                     o.queued + [PendingAction(messages.addAction, a.payload, stamp)])
    }

    /**
     * The fields after re-attempting `actions` in order; the `k`-th attempt
     * uses temporary id `tempIdAt(k)` and settles with `respond(k)`.
     */
    function Replay(o: Outcome<T>, actions: seq<PendingAction<T>>, respond: nat -> Response<T>,
                    tempIdAt: nat -> int, stamp: int): Outcome<T>
      decreases |actions|
    {
      if actions == [] then o
      else
        var k := |actions| - 1;
        Settle(Replay(o, actions[..k], respond, tempIdAt, stamp), actions[k], tempIdAt(k), respond(k), stamp)
    }

    /** A re-attempt run queues nothing exactly when every queued add it re-attempts is confirmed. */
    lemma {:induction false} QueuedIffFailed(o: Outcome<T>, actions: seq<PendingAction<T>>, respond: nat -> Response<T>,
                                             tempIdAt: nat -> int, stamp: int)
      requires o.queued == []
      ensures Replay(o, actions, respond, tempIdAt, stamp).queued == [] <==>
        forall k :: 0 <= k < |actions| && actions[k].kind == messages.addAction ==> Confirmed(respond(k))
      decreases |actions|
    {
      if actions != [] {
        var k := |actions| - 1;
        QueuedIffFailed(o, actions[..k], respond, tempIdAt, stamp);
        assert forall j :: 0 <= j < k ==> actions[..k][j] == actions[j];
      }
    }

    /**
     * A single queued add whose re-attempt fails, with a fresh temporary id:
     * the list ends as it was and the add is queued once more.
     */
    lemma FailedReattemptIsRequeued(xs: seq<T>, e: Option<string>, t: Option<int>, a: PendingAction<T>,
                                    tempId: int, resp: Response<T>, stamp: int)
      requires a.kind == messages.addAction && !Confirmed(resp)
      requires idOf(withId(a.payload, tempId)) == Some(tempId)
      requires forall i :: 0 <= i < |xs| ==> idOf(xs[i]) != Some(tempId)
      ensures var o := Replay(Outcome(xs, e, t, []), [a], (k: nat) => resp, (k: nat) => tempId, stamp);
        o.items == xs && o.queued == [PendingAction(messages.addAction, a.payload, stamp)]
    {
      AddReverted(xs, idOf, withId(a.payload, tempId), tempId);
      assert [a][..0] == [];
    }

    /**
     * The loop of `retryPendingActions` over a copy of the queue: each
     * queued add is re-attempted in order, and a failing one is queued again
     * behind the originals.
     */
    method ReplayActions(actions: seq<PendingAction<T>>, respond: nat -> Response<T>, tempIdAt: nat -> int, stamp: int)
      modifies this
      ensures var o := Replay(Outcome(old(items), old(error), old(lastSyncTime), []), actions, respond, tempIdAt, stamp);
        && items == o.items && error == o.error && lastSyncTime == o.lastSyncTime
        && pendingActions == old(pendingActions) + o.queued
      ensures isLoading == old(isLoading) && isOnline == old(isOnline) && retryCount == old(retryCount)
    {
      ghost var start := Outcome(items, error, lastSyncTime, []);
      var k := 0;
      while k < |actions|
        invariant 0 <= k <= |actions|
        invariant var o := Replay(start, actions[..k], respond, tempIdAt, stamp);
          && items == o.items && error == o.error && lastSyncTime == o.lastSyncTime
          && pendingActions == old(pendingActions) + o.queued
        invariant isLoading == old(isLoading) && isOnline == old(isOnline) && retryCount == old(retryCount)
      {
        var action := actions[k];
        if action.kind == messages.addAction {
          BeginAdd(action.payload, tempIdAt(k));
          CompleteAdd(action.payload, tempIdAt(k), respond(k), stamp);
        }
        assert actions[..k + 1][..k] == actions[..k];
        k := k + 1;
      }
      assert actions[..k] == actions;
    }

    /**
     * `retryPendingActions` as written: nothing happens on an empty queue;
     * otherwise the retry count goes up by one, every queued add is
     * re-attempted, and then the whole queue is emptied, including the adds
     * that failed again.
     */
    method RetryPendingActions(respond: nat -> Response<T>, tempIdAt: nat -> int, stamp: int)
      modifies this
      ensures old(pendingActions) == [] ==> unchanged(this)
      ensures old(pendingActions) != [] ==>
        var o := Replay(Outcome(old(items), old(error), old(lastSyncTime), []), old(pendingActions), respond, tempIdAt, stamp);
        && retryCount == old(retryCount) + 1
        && items == o.items && error == o.error && lastSyncTime == o.lastSyncTime
        && pendingActions == []
      ensures isLoading == old(isLoading) && isOnline == old(isOnline)
    {
      var actions := pendingActions;
      if |actions| == 0 {
        return;
      }
      retryCount := retryCount + 1;
      ReplayActions(actions, respond, tempIdAt, stamp);
      pendingActions := [];
    }

    /**
     * The retry with the evident intent of its "clear successful actions"
     * step: only the attempted entries leave the queue, so afterwards it
     * holds exactly the adds that failed again.
     */
    method RetryKeepingFailures(respond: nat -> Response<T>, tempIdAt: nat -> int, stamp: int)
      modifies this
      ensures old(pendingActions) == [] ==> unchanged(this)
      ensures old(pendingActions) != [] ==>
        var o := Replay(Outcome(old(items), old(error), old(lastSyncTime), []), old(pendingActions), respond, tempIdAt, stamp);
        && retryCount == old(retryCount) + 1
        && items == o.items && error == o.error && lastSyncTime == o.lastSyncTime
        && pendingActions == o.queued
      ensures isLoading == old(isLoading) && isOnline == old(isOnline)
    {
      var actions := pendingActions;
      if |actions| == 0 {
        return;
      }
      retryCount := retryCount + 1;
      ReplayActions(actions, respond, tempIdAt, stamp);
      pendingActions := pendingActions[|actions|..];
    }

    /**
     * `setOnlineStatus` as written: records the flag; going online also runs
     * `retryPendingActions`, so a non-empty queue ends empty even when
     * re-attempts failed.
     */
    method SetOnlineStatus(online: bool, respond: nat -> Response<T>, tempIdAt: nat -> int, stamp: int)
      modifies this
      ensures isOnline == online
      ensures !online || old(pendingActions) == [] ==>
        && items == old(items) && error == old(error) && lastSyncTime == old(lastSyncTime)
        && pendingActions == old(pendingActions) && retryCount == old(retryCount)
      ensures online && old(pendingActions) != [] ==>
        var o := Replay(Outcome(old(items), old(error), old(lastSyncTime), []), old(pendingActions), respond, tempIdAt, stamp);
        && retryCount == old(retryCount) + 1
        && items == o.items && error == o.error && lastSyncTime == o.lastSyncTime
        && pendingActions == []
      ensures isLoading == old(isLoading)
    {
      isOnline := online;
      if online {
        RetryPendingActions(respond, tempIdAt, stamp);
      }
    }

    /**
     * `setOnlineStatus` over the corrected retry: going online with a
     * non-empty queue leaves queued exactly the adds that failed again.
     */
    method SetOnlineStatusKeepingFailures(online: bool, respond: nat -> Response<T>, tempIdAt: nat -> int, stamp: int)
      modifies this
      ensures isOnline == online
      ensures !online || old(pendingActions) == [] ==>
        && items == old(items) && error == old(error) && lastSyncTime == old(lastSyncTime)
        && pendingActions == old(pendingActions) && retryCount == old(retryCount)
      ensures online && old(pendingActions) != [] ==>
        var o := Replay(Outcome(old(items), old(error), old(lastSyncTime), []), old(pendingActions), respond, tempIdAt, stamp);
        && retryCount == old(retryCount) + 1
        && items == o.items && error == o.error && lastSyncTime == o.lastSyncTime
        && pendingActions == o.queued
      ensures isLoading == old(isLoading)
    {
      isOnline := online;
      if online {
        RetryKeepingFailures(respond, tempIdAt, stamp);
      }
    }

    method ClearError()
      modifies this
      ensures error == None
      ensures items == old(items) && isLoading == old(isLoading) && isOnline == old(isOnline)
      ensures retryCount == old(retryCount) && lastSyncTime == old(lastSyncTime) && pendingActions == old(pendingActions)
    {
      error := None;
    }
  }

  /** The prayer-time list store's optimistic entry: the payload with the temporary id. */
  function PrayerWithId(pt: PrayerTime, id: int): (r: PrayerTime)
    ensures r.id == Some(id)
    ensures r.(id := pt.id) == pt
  {
    pt.(id := Some(id))
  }

  function PrayerIdOf(pt: PrayerTime): Option<int> {
    pt.id
  }

  /** `usePrayerStore` at start-up. */
  method NewPrayerStore(online: bool) returns (s: ListStore<PrayerTime, PrayerTimePatch>)
    ensures fresh(s)
    ensures s.idOf == PrayerIdOf && s.withId == PrayerWithId && s.merge == MergePatch && s.messages == PrayerMessages
    ensures s.items == [] && s.pendingActions == [] && s.isOnline == online
  {
    s := new ListStore(PrayerIdOf, PrayerWithId, MergePatch, PrayerMessages, online);
  }

  /**
   * `useSettingsStore`: one settings object, a map from top-level field to
   * value, so that `{ ...settings, ...patch }` is map union with the patch
   * winning.
   */
  class SettingsStore<V> {
    var settings: Option<map<string, V>>
    var isLoading: bool
    var error: Option<string>
    var isOnline: bool
    var retryCount: nat
    var lastSyncTime: Option<int>

    constructor (online: bool)
      ensures settings == None && !isLoading && error == None && isOnline == online
      ensures retryCount == 0 && lastSyncTime == None
    {
      settings := None;
      isLoading := false;
      error := None;
      isOnline := online;
      retryCount := 0;
      lastSyncTime := None;
    }

    method BeginFetch()
      modifies this
      ensures isLoading && error == None
      ensures settings == old(settings) && isOnline == old(isOnline) && retryCount == old(retryCount)
      ensures lastSyncTime == old(lastSyncTime)
    {
      isLoading := true;
      error := None;
    }

    /** `getSettings` after its await, including the `finally`. */
    method CompleteFetch(resp: Response<map<string, V>>, stamp: int)
      modifies this
      ensures !isLoading
      ensures Confirmed(resp) ==>
        settings == resp.data && lastSyncTime == Some(stamp) && retryCount == 0 && error == old(error)
      ensures !Confirmed(resp) ==>
        && settings == old(settings) && lastSyncTime == old(lastSyncTime) && retryCount == old(retryCount)
        && error == Some(FetchFailureMessage(resp, "Failed to fetch settings"))
      ensures isOnline == old(isOnline)
    {
      if Confirmed(resp) {
        settings := resp.data;
        lastSyncTime := Some(stamp);
        retryCount := 0;
      } else {
        error := Some(FetchFailureMessage(resp, "Failed to fetch settings"));
      }
      isLoading := false;
    }

    /**
     * The optimistic step of `updateSettings`: loaded settings take every
     * field of the patch and keep the others; settings not yet loaded stay
     * null.
     */
    method BeginUpdateSettings(patch: map<string, V>) returns (snapshot: Option<map<string, V>>)
      modifies this
      ensures snapshot == old(settings)
      ensures old(settings).None? ==> settings.None?
      ensures old(settings).Some? ==>
        && settings.Some?
        && (forall k :: k in settings.value <==> k in old(settings).value || k in patch)
        && (forall k :: k in patch ==> settings.value[k] == patch[k])
        && (forall k :: k in old(settings).value && k !in patch ==> settings.value[k] == old(settings).value[k])
      ensures isLoading == old(isLoading) && error == old(error) && isOnline == old(isOnline)
      ensures retryCount == old(retryCount) && lastSyncTime == old(lastSyncTime)
    {
      snapshot := settings;
      settings := if settings.Some? then Some(settings.value + patch) else None;
    }

    /** The settled update: the stored settings, or the snapshot back and the error set. */
    method CompleteUpdateSettings(snapshot: Option<map<string, V>>, resp: Response<map<string, V>>, stamp: int)
      modifies this
      ensures Confirmed(resp) ==> settings == resp.data && lastSyncTime == Some(stamp) && error == old(error)
      ensures !Confirmed(resp) ==>
        settings == snapshot && lastSyncTime == old(lastSyncTime) && error == Some(FailureMessage(resp, "Failed to update settings"))
      ensures isLoading == old(isLoading) && isOnline == old(isOnline) && retryCount == old(retryCount)
    {
      if Confirmed(resp) {
        settings := resp.data;
        lastSyncTime := Some(stamp);
      } else {
        settings := snapshot;
        error := Some(FailureMessage(resp, "Failed to update settings"));
      }
    }

    method ClearError()
      modifies this
      ensures error == None
      ensures settings == old(settings) && isLoading == old(isLoading) && isOnline == old(isOnline)
      ensures retryCount == old(retryCount) && lastSyncTime == old(lastSyncTime)
    {
      error := None;
    }
  }
}

=== FILE: wrappers.dfy ===
/** Option and the success/failure result shape (`DbResult`) shared by the modules. */
module Wrappers {

  datatype Option<+T> = None | Some(value: T) {
    function GetOr(default: T): T {
      match this
      case Some(v) => v
      case None => default
    }
  }

  /** `{ success: true, data }` or `{ success: false, error }`. */
  datatype Result<+T> = Ok(value: T) | Err(error: string)
}
